=== FILE: README.md ===
# Codebase explorer and commit helper, modelled in Dafny

This project models the core of four small command-line scripts.

- `analyze_structure.py` walks a project directory into a tree of nodes. Each node carries a name, a kind, a path, children, a line count and a key-directory flag. The script then folds the tree into statistics and renders it as a text tree and a mermaid outline.
- `detect_tech_stack.py` does five things:
  - picks the package manager from the first dependency file present;
  - counts source files per language by extension;
  - reads the dependencies of one manifest (`package.json`, `requirements.txt`, `go.mod` or `Cargo.toml`);
  - matches them against a framework table and a build-tool table.
- `find_entry_points.py` looks files up by glob patterns and groups the hits by category. It then collects the API endpoints that route files declare.
- `commit_helper.py` does three things:
  - reads `git status --porcelain` output into added, modified, deleted and renamed buckets;
  - picks a commit type, a scope and detail lines;
  - formats the commit message.

The filesystem is an immutable value. For `analyze_structure.py` and `detect_tech_stack.py` it is an `FsEntry` tree. For `find_entry_points.py` it is a set of file paths and a set of directory paths. File contents, git output, the staged diff and `re.findall` are inputs.

The modules are:

| module | file | what it holds |
|---|---|---|
| `Wrappers` | `wrappers.dfy` | `Option` |
| `Strings` | `strings.dfy` | Python's `strip`, `lower`, `upper`, `split`, `join` and `split()` on ASCII text |
| `Ordering` | `ordering.dfy` | lexicographic order on strings and on paths; `sorted(set(...))` |
| `FileSystem` | `filesystem.dfy` | the directory tree; `Path.name` and `Path.suffix` |
| `StructureTree` | `structure_tree.dfy` | `analyze_directory` |
| `StructureReport` | `structure_report.dfy` | `calculate_stats` as a class whose fields the traversal updates |
| `StructureRender` | `structure_render.dfy` | `generate_text_tree` and `generate_mermaid_tree` |
| `TechStack` | `tech_stack.dfy` | `detect_tech_stack.py` |
| `EntryPoints` | `entry_points.dfy` | `find_entry_points.py` |
| `CommitHelper` | `commit_helper.dfy` | `commit_helper.py` |

Code that works by updating variables is modelled as methods with loops, each proved against a specification function:

- the manifest parsers, `detect_frameworks`, `detect_package_manager`, `detect_languages` and the build-tool loop;
- `find_files_by_pattern`, the category loops, `find_api_endpoints` and `analyze_routes`;
- the status-line loop, the scope loop and the type and detail chain of `analyze_changes`;
- `calculate_stats`.

The tree walk and the two renderers are structural recursions, so they are functions.

## Model

| member | source | states |
|---|---|---|
| Strings.Strip | codebase-explorer/scripts/detect_tech_stack.py:201 | `str.strip()` is no longer than the text, has no whitespace at either end, and is empty exactly when the text is all whitespace |
| Strings.StripIsSlice | codebase-explorer/scripts/detect_tech_stack.py:201 | the stripped text is a contiguous slice of the original, with only whitespace before it and after it |
| Strings.Lower | codebase-explorer/scripts/analyze_structure.py:105 | `str.lower()` keeps the length and maps each character on its own |
| Strings.Upper | codebase-explorer/scripts/find_entry_points.py:206 | `str.upper()` keeps the length and maps each character on its own |
| Strings.SplitJoin | git-commit/scripts/commit_helper.py:154 | `'\n'.join` read back by `split('\n')` gives the parts back when no part holds the separator |
| Strings.Split | git-commit/scripts/commit_helper.py:51 | `split(sep)` yields at least one part, and no part holds the separator |
| Strings.LastIndexOf | git-commit/scripts/commit_helper.py:90 | the position of the last occurrence of a character, or -1 when it does not occur; no later character is that one |
| Strings.JoinSplit | git-commit/scripts/commit_helper.py:51 | `sep.join(s.split(sep)) == s` |
| Strings.SplitWhitespace | codebase-explorer/scripts/detect_tech_stack.py:227 | `str.split()` yields only non-empty words without whitespace, and yields nothing exactly when the text is all whitespace |
| Strings.SplitWhitespaceSkip | codebase-explorer/scripts/detect_tech_stack.py:227 | leading whitespace does not change the words |
| Strings.SplitWhitespaceWord | codebase-explorer/scripts/detect_tech_stack.py:227 | a word followed by whitespace is the first word, and the rest is split as before |
| Strings.SplitWhitespaceJoin | codebase-explorer/scripts/detect_tech_stack.py:227 | joining words with single spaces and splitting gives back the same words |
| Strings.NatToString | git-commit/scripts/commit_helper.py:130 | a count renders as a non-empty string of decimal digits with no leading zero, whose decimal value is the count |
| Ordering.SeqLessStrictTotal | codebase-explorer/scripts/find_entry_points.py:107 | the part-by-part order of paths is a strict total order when the order of parts is |
| Ordering.Insert | codebase-explorer/scripts/find_entry_points.py:107 | inserting into a strictly sorted list keeps it strictly sorted and adds exactly the new element |
| Ordering.SortedUnique | codebase-explorer/scripts/find_entry_points.py:107 | two strictly sorted lists with the same elements are equal, so `sorted(set(x))` is determined by the set |
| Ordering.SortedSeqOf | codebase-explorer/scripts/find_entry_points.py:107 | `sorted(set(found))` is strictly sorted and holds exactly the set's elements |
| FileSystem.Extension | codebase-explorer/scripts/analyze_structure.py:129 | `suffix.lstrip('.').lower()` is the lower-cased text after the last dot, empty when that dot is the first or the last character |
| FileSystem.BaseName | codebase-explorer/scripts/analyze_structure.py:206 | `Path(p).name` is the slash-free tail of the path |
| FileSystem.ChildPath | codebase-explorer/scripts/analyze_structure.py:119-121 | a child's path ends with its name, and its base name is that name |
| StructureTree.Analyze | codebase-explorer/scripts/analyze_structure.py:91-133 | `None` exactly past the depth bound or for a hidden directory when hidden ones are excluded; a skipped directory has children `['<skipped>']` and no lines; an unreadable one has children `['<permission denied>']` and no lines; a file node has no children and carries the file's line count when its extension is a code extension, else 0 |
| StructureTree.AnalyzeSound | codebase-explorer/scripts/analyze_structure.py:91-131 | every node lies within the depth bound; a directory's line count is the sum of its children's; no hidden directory is kept unless asked; only directories whose lower-cased name is in the table are key directories; a file has no children and a positive line count only with a code extension, at every node of the tree (the count itself is stated by StructureTree.Analyze) |
| StructureTree.SoundLinesAggregate | codebase-explorer/scripts/analyze_structure.py:117-124 | in the built tree every directory's `line_count` is the sum over its child nodes |
| StructureTree.AnalyzeOrdered | codebase-explorer/scripts/analyze_structure.py:119 | at every level children list directories first, then files, each group by ascending name |
| StructureTree.KeptNodesMembers | codebase-explorer/scripts/analyze_structure.py:120-123 | every listed item that gives a node has that node among the kept children, and every kept child is the node of some listed item |
| StructureTree.AnalyzeChildrenKept | codebase-explorer/scripts/analyze_structure.py:120-124 | the loop keeps exactly the nodes the listed items give, in listing order, dropping those that give `None` |
| StructureTree.AnalyzeKeepsChildren | codebase-explorer/scripts/analyze_structure.py:117-124 | a walked directory's children are the nodes of its sorted listing's items one level down, in order; every entry that gives a node appears, and nothing else does |
| StructureTree.AnalyzeKeepsVisible | codebase-explorer/scripts/analyze_structure.py:106-109 | below the depth limit a walked directory keeps a node for every file, hidden or not, and for every directory that is not hidden (every directory when hidden ones are included) |
| StructureTree.SortEntriesSorted | codebase-explorer/scripts/analyze_structure.py:119 | the listing is sorted by `(not is_dir, name)` and is a permutation of the directory's entries |
| StructureTree.InsertEntryPermutes | codebase-explorer/scripts/analyze_structure.py:119 | inserting an entry into the listing adds it and keeps every other one |
| StructureTree.InsertEntrySorted | codebase-explorer/scripts/analyze_structure.py:119 | inserting into a sorted listing keeps it sorted |
| StructureTree.EntryBeforeTotalPreorder | codebase-explorer/scripts/analyze_structure.py:119 | the sort key order is total and transitive |
| StructureTree.MaxDepthZero | codebase-explorer/scripts/analyze_structure.py:91-121 | with `max_depth = 0` the root keeps no nested node, and a root directory counts no lines |
| StructureReport.BumpLookup | codebase-explorer/scripts/analyze_structure.py:207 | `by_language[ext] = get(ext, 0) + n` grows that entry by `n`, leaves the others alone and adds a key only when it is new |
| StructureReport.BumpTotal | codebase-explorer/scripts/analyze_structure.py:207 | the same update adds `n` to the sum of the values and keeps the keys distinct |
| StructureReport.VisitCounts | codebase-explorer/scripts/analyze_structure.py:192-207 | one traversal adds the tree's number of directories, files, code files and lines to the counters, and its lines to the by-language sum |
| StructureReport.VisitExt | codebase-explorer/scripts/analyze_structure.py:192-207 | one traversal adds to each extension's by-language entry exactly the lines of the tree's files with lines and that extension; an entry appears only when some lines are added |
| StructureReport.VisitAllExt | codebase-explorer/scripts/analyze_structure.py:197-198 | the same for the children of a directory, visited in order |
| StructureReport.VisitChildExt | codebase-explorer/scripts/analyze_structure.py:193-194 | the same for one child; a string marker adds nothing |
| StructureReport.VisitFileExt | codebase-explorer/scripts/analyze_structure.py:202-207 | a file with lines adds them to its own extension's entry, and every other entry is unchanged |
| StructureReport.ByLanguageOfTree | codebase-explorer/scripts/analyze_structure.py:182-210 | from empty counters, an extension has an entry exactly when its files have lines, and the entry is their sum |
| StructureReport.VisitFileCounts | codebase-explorer/scripts/analyze_structure.py:200-207 | a file adds one file, one code file and its lines only when it has lines, and no directory |
| StructureReport.VisitAllCounts | codebase-explorer/scripts/analyze_structure.py:196-199 | the children loop adds the children's counts, and string markers add nothing |
| StructureReport.Stats.constructor | codebase-explorer/scripts/analyze_structure.py:184-190 | all counters start at zero with an empty by-language table |
| StructureReport.Stats.Traverse | codebase-explorer/scripts/analyze_structure.py:192-199 | the recursive `traverse` updates the shared counters exactly as the reference fold over the node does |
| StructureReport.Stats.CountFile | codebase-explorer/scripts/analyze_structure.py:200-207 | the file branch updates the counters as the reference step for one file does |
| StructureReport.CalculateStats | codebase-explorer/scripts/analyze_structure.py:182-210 | on a tree `analyze_directory` built: the counts of directory nodes, file nodes and files with lines; total lines equal to the root's line count; by-language values that sum to the total under distinct keys; and each extension's entry is the line total of its files with lines, present exactly when that total is positive |
| StructureReport.SoundFilesAreLeaves | codebase-explorer/scripts/analyze_structure.py:127-131 | file nodes in the built tree have no children |
| StructureReport.CensusLinesOfAggregate | codebase-explorer/scripts/analyze_structure.py:117-124 | where directories sum their children's lines, the lines of all files equal the root's line count |
| StructureRender.TextTreeIsJoin | codebase-explorer/scripts/analyze_structure.py:136-160 | the nested `'\n'.join` of the text tree equals one join over a flat list of lines |
| StructureRender.TreeLines | codebase-explorer/scripts/analyze_structure.py:136-160 | the text tree as a flat, non-empty list of lines |
| StructureRender.TreeLinesShape | codebase-explorer/scripts/analyze_structure.py:139-158 | the text tree has one line per node, one per key directory and one per marker; every line starts with the prefix; the first line is prefix, connector, name |
| StructureRender.TextTreeFirstLine | codebase-explorer/scripts/analyze_structure.py:139-140 | the text tree starts with prefix + the last or middle connector + the name |
| StructureRender.MermaidIsJoin | codebase-explorer/scripts/analyze_structure.py:163-179 | the nested join of the mermaid outline equals one join over a flat list of lines |
| StructureRender.MermaidLines | codebase-explorer/scripts/analyze_structure.py:163-179 | the mermaid outline as a flat, non-empty list of lines |
| StructureRender.MermaidLinesShape | codebase-explorer/scripts/analyze_structure.py:166-173 | one line per directory and per file, markers skipped; every line is indented by two spaces per level, children one level deeper |
| StructureRender.MermaidFileLine | codebase-explorer/scripts/analyze_structure.py:174-177 | a file line carries ` (N lines)` exactly when N > 0 |
| TechStack.FirstPresent | codebase-explorer/scripts/detect_tech_stack.py:280-282 | the index of the first table entry whose file exists; every earlier entry's file is missing |
| TechStack.ManagerOf | codebase-explorer/scripts/detect_tech_stack.py:278-283 | the loop with an early return gives the first present file's manager, else `Unknown` |
| TechStack.DetectPackageManager | codebase-explorer/scripts/detect_tech_stack.py:24-44 | the same over the script's dependency-file table, in its order |
| TechStack.PackageJsonWins | codebase-explorer/scripts/detect_tech_stack.py:25 | with `package.json` present the manager is `npm/yarn/pnpm`, whatever lockfiles exist |
| TechStack.UnknownMeansNone | codebase-explorer/scripts/detect_tech_stack.py:278-283 | no table entry is named `Unknown`, and the fallback is taken exactly when no listed file exists |
| TechStack.Walk | codebase-explorer/scripts/detect_tech_stack.py:163-174 | the walk adds to each language's count the number of reachable files with that language, and adds a key exactly when that number is positive |
| TechStack.WalkEntry | codebase-explorer/scripts/detect_tech_stack.py:168-174 | one walked entry adds exactly its own tally: a file with a known extension bumps its language by one, a non-ignored directory adds its whole reachable tally, anything else leaves the counts alone |
| TechStack.DetectLanguages | codebase-explorer/scripts/detect_tech_stack.py:159-176 | a language is reported exactly when some reachable file maps to it, with that file count; ignored directories are not entered |
| TechStack.TallyOnlyKnown | codebase-explorer/scripts/detect_tech_stack.py:170-174 | a name that is not a language of the extension table is never counted |
| TechStack.ParsePackageJson | codebase-explorer/scripts/detect_tech_stack.py:179-192 | the loop of `update` calls equals the reference merge of the three sections, and the merge is empty when the file cannot be read |
| TechStack.PackageJsonOverride | codebase-explorer/scripts/detect_tech_stack.py:186-188 | a name is a dependency exactly when some section lists it; its value comes from `peerDependencies` if listed there, else from `devDependencies`, else from `dependencies` |
| TechStack.PackageJsonBadSection | codebase-explorer/scripts/detect_tech_stack.py:188-192 | a dependency section whose `update` raises empties the whole result |
| TechStack.RequirementEntry | codebase-explorer/scripts/detect_tech_stack.py:201-206 | blank and `#` lines give nothing; otherwise the key is the lower-cased non-empty text before the first `<>=!~` or whitespace character, and the value is the whole stripped line |
| TechStack.FirstVersionSep | codebase-explorer/scripts/detect_tech_stack.py:204 | the split point of `re.split(r'[<>=!~\s]', line)[0]`: the first version-operator or whitespace character, with none before it |
| TechStack.ParseRequirements | codebase-explorer/scripts/detect_tech_stack.py:195-209 | the loop fills the dictionary as the reference fold over the lines' entries does; an unreadable file gives an empty one |
| TechStack.AddRequirement | codebase-explorer/scripts/detect_tech_stack.py:201-206 | one more line extends the dictionary exactly as the reference fold does with that line's entry |
| TechStack.RequirementsLastWins | codebase-explorer/scripts/detect_tech_stack.py:200-206 | every key is non-empty and holds the value of the last line that set it |
| TechStack.CollectLastWins | codebase-explorer/scripts/detect_tech_stack.py:206 | filling a dictionary line by line: a key is present exactly when some line sets it, and holds the value of the last such line |
| TechStack.GoEntry | codebase-explorer/scripts/detect_tech_stack.py:227-229 | a line with at least two tokens maps its first token to its second; a shorter line gives nothing |
| TechStack.CargoEntry | codebase-explorer/scripts/detect_tech_stack.py:250-252 | a match gives the maximal run of word characters at the start as the name, non-empty, and the whole line; a line not starting with a word character gives nothing |
| TechStack.CargoEntryIsMatch | codebase-explorer/scripts/detect_tech_stack.py:250-252 | a match is a line of the form name, whitespace, `=`, whitespace, then a quote |
| TechStack.CargoEntryOfLine | codebase-explorer/scripts/detect_tech_stack.py:250-252 | every line of that form is matched, with its name and the whole line |
| TechStack.WordRun | codebase-explorer/scripts/detect_tech_stack.py:250 | `\w+` at the start of a line takes the longest run of word characters |
| TechStack.SpaceRun | codebase-explorer/scripts/detect_tech_stack.py:250 | `\s*` takes the longest run of whitespace |
| TechStack.ScanIsSection | codebase-explorer/scripts/detect_tech_stack.py:217-229 | the flag-driven loop reads exactly the lines after the first opening line, up to the first closing line after it |
| TechStack.SectionStart | codebase-explorer/scripts/detect_tech_stack.py:220-221 | the first opening line from a position on, with none before it |
| TechStack.SectionEnd | codebase-explorer/scripts/detect_tech_stack.py:224-225 | the first closing line from a position on, with none before it |
| TechStack.ParseSection | codebase-explorer/scripts/detect_tech_stack.py:240-252 | the shared section loop with its flag and `break` fills the dictionary from the section's entries |
| TechStack.ParseGoMod | codebase-explorer/scripts/detect_tech_stack.py:212-232 | `go.mod` reads the block after the first `require` line up to the first `)` line, and an unreadable file gives nothing |
| TechStack.ParseCargoToml | codebase-explorer/scripts/detect_tech_stack.py:235-255 | `Cargo.toml` reads the lines between `[dependencies]` and the next `[` line, and an unreadable file gives nothing |
| TechStack.SectionWindow | codebase-explorer/scripts/detect_tech_stack.py:220-229 | every dependency comes from a line strictly between the opening line and the closing line; the opening line itself never gives one |
| TechStack.NoSectionNoDeps | codebase-explorer/scripts/detect_tech_stack.py:243-246 | without an opening line there are no dependencies |
| TechStack.RemoveStars | codebase-explorer/scripts/detect_tech_stack.py:266 | `pattern.replace('*', '')` holds no `*`, is no longer than the pattern, and is the pattern itself when it has no `*` |
| TechStack.RemoveStarsAppend | codebase-explorer/scripts/detect_tech_stack.py:266 | removing the stars of a concatenation removes them from each part |
| TechStack.TrailingStar | codebase-explorer/scripts/detect_tech_stack.py:266 | a table pattern `lit*` becomes the literal prefix `lit` |
| TechStack.FrameworksIn | codebase-explorer/scripts/detect_tech_stack.py:262-275 | the result is sorted without duplicates and holds exactly the frameworks with a matching pattern: an exact key, or for a `*` pattern a key starting with the pattern without stars |
| TechStack.DetectFrameworks | codebase-explorer/scripts/detect_tech_stack.py:258-275 | the same over the script's framework table |
| TechStack.ToolsIn | codebase-explorer/scripts/detect_tech_stack.py:326-328 | a tool is listed exactly when one of its indicators is a dependency name, with no prefix matching, and the tools follow the table order |
| TechStack.ManifestDependencies | codebase-explorer/scripts/detect_tech_stack.py:297-304 | exactly one manifest is read, by the priority `package.json`, `requirements.txt`, `go.mod`, `Cargo.toml`; with none present the dependencies are empty |
| TechStack.Analyze | codebase-explorer/scripts/detect_tech_stack.py:286-330 | for any tables, the report holds the first present manager or `Unknown`, the language counts of the walk, the chosen manifest's dependencies, the frameworks sorted and exactly those whose indicators are dependencies, and the build tools exactly those whose indicators are dependencies, in table order |
| TechStack.AnalyzeProject | codebase-explorer/scripts/detect_tech_stack.py:286-330 | the same report with the script's own tables |
| EntryPoints.StarMatchesAll | codebase-explorer/scripts/find_entry_points.py:94 | the glob `*` matches every name |
| EntryPoints.GlobLiteral | codebase-explorer/scripts/find_entry_points.py:102 | a glob without `*` matches exactly its own text |
| EntryPoints.GlobPrefix | codebase-explorer/scripts/find_entry_points.py:63 | `lit*` matches exactly the names starting with `lit` |
| EntryPoints.GlobSuffix | codebase-explorer/scripts/find_entry_points.py:63 | `*lit` matches exactly the names ending with `lit` |
| EntryPoints.PatternFiles | codebase-explorer/scripts/find_entry_points.py:81-105 | one pattern's walk finds what the reference resolution gives: `rglob` at any depth without `/`, and segment by segment from the root with `/` |
| EntryPoints.ResolveFound | codebase-explorer/scripts/find_entry_points.py:87-102 | every path a pattern with `/` finds exists, lies below the directory the walk started from, at most one level past its segments, and its name matches the file pattern |
| EntryPoints.ResolveLiteral | codebase-explorer/scripts/find_entry_points.py:96-102 | with literal segments only, every hit sits directly under the path the segments spell |
| EntryPoints.ResolveMissing | codebase-explorer/scripts/find_entry_points.py:97-99 | a missing literal segment makes the pattern contribute nothing |
| EntryPoints.ResolveStopsAtStar | codebase-explorer/scripts/find_entry_points.py:89-95 | a `*` segment expands to the subdirectories reached so far, and the directory segments after it are ignored |
| EntryPoints.DoubleStarIsLiteral | codebase-explorer/scripts/find_entry_points.py:88-99 | `**` is an ordinary segment, so it finds nothing in a project with no directory of that name |
| EntryPoints.MatchedPathsAny | codebase-explorer/scripts/find_entry_points.py:79-105 | a path is found exactly when one of the patterns finds it |
| EntryPoints.FindFilesByPattern | codebase-explorer/scripts/find_entry_points.py:75-107 | the result is strictly sorted, so free of duplicates, and holds exactly the paths some pattern finds |
| EntryPoints.ExpectedSound | codebase-explorer/scripts/find_entry_points.py:114-119 | every key in the dictionary comes from a row whose patterns found something, and holds what they found |
| EntryPoints.ExpectedComplete | codebase-explorer/scripts/find_entry_points.py:128-131 | every row whose patterns find something has its key in the dictionary |
| EntryPoints.FindGroups | codebase-explorer/scripts/find_entry_points.py:128-131 | the loop builds, in table order, a key per row with a non-empty sorted list of exactly what its patterns find |
| EntryPoints.AddGroup | codebase-explorer/scripts/find_entry_points.py:117-119 | one row's key is added exactly when its patterns find something |
| EntryPoints.FindConfigFiles | codebase-explorer/scripts/find_entry_points.py:124-133 | the same over the configuration table |
| EntryPoints.KeyedRows | codebase-explorer/scripts/find_entry_points.py:116 | entry-point keys read `category - subcategory` |
| EntryPoints.FindCategory | codebase-explorer/scripts/find_entry_points.py:115-119 | the inner loop adds the category's non-empty sub-categories in order |
| EntryPoints.FindEntryPointsIn | codebase-explorer/scripts/find_entry_points.py:114-119 | the two nested loops build the dictionary for the flattened two-level table |
| EntryPoints.FindEntryPoints | codebase-explorer/scripts/find_entry_points.py:110-121 | the same over the script's entry-point table |
| EntryPoints.FindRoutesIn | codebase-explorer/scripts/find_entry_points.py:156-160 | there is a single key `Route definitions` exactly when a route pattern finds something, with the sorted hits; otherwise the dictionary is empty |
| EntryPoints.FindRoutes | codebase-explorer/scripts/find_entry_points.py:136-160 | the same over the script's route patterns |
| EntryPoints.PythonRecord | codebase-explorer/scripts/find_entry_points.py:184-192 | a Python-pattern capture gives a `GET` record on its second group, or its only one |
| EntryPoints.JsRecord | codebase-explorer/scripts/find_entry_points.py:203-209 | an Express capture gives the upper-cased verb and the second group as the path |
| EntryPoints.ScanCaptures | codebase-explorer/scripts/find_entry_points.py:183-192 | the capture loop appends the records in order and stops at the first one that raises |
| EntryPoints.ScanPatterns | codebase-explorer/scripts/find_entry_points.py:181-192 | the pattern loop appends each pattern's records in pattern order, up to the first failure |
| EntryPoints.FindApiEndpoints | codebase-explorer/scripts/find_entry_points.py:163-214 | the result is the Python patterns' records followed by the Express ones, cut at the first exception; an unreadable file gives none |
| EntryPoints.ApiEndpointsParts | codebase-explorer/scripts/find_entry_points.py:181-209 | the Python records come before the Express ones, and the Express patterns are reached only when no Python record raised |
| EntryPoints.ScanRecords | codebase-explorer/scripts/find_entry_points.py:188-209 | every Python-pattern record has method `GET`, every Express record has an upper-case method, and each carries the file's name |
| EntryPoints.FailureHides | codebase-explorer/scripts/find_entry_points.py:211-212 | after an exception nothing more is collected |
| EntryPoints.Take | codebase-explorer/scripts/find_entry_points.py:221 | `s[:n]` is the prefix of `s` whose length is the smaller of `n` and the length of `s` |
| EntryPoints.AnalyzeRoutes | codebase-explorer/scripts/find_entry_points.py:217-228 | only the first ten files are scanned; `total` counts all their endpoints; `endpoints` is the first twenty of them, so never more than `total` |
| CommitHelper.GetStagedChanges | git-commit/scripts/commit_helper.py:47-65 | a failed git call gives four empty buckets; otherwise the loop fills the buckets as the reference line-by-line parse does |
| CommitHelper.AddLine | git-commit/scripts/commit_helper.py:52-65 | a blank line is skipped; otherwise the first letter of the stripped two-character code picks the bucket, checked in the order A, M, D, R, with the stripped text from column 3 as the name |
| CommitHelper.ParseSize | git-commit/scripts/commit_helper.py:51-65 | each line lands in at most one bucket: the buckets hold one name per line with a known code |
| CommitHelper.ParseSnoc | git-commit/scripts/commit_helper.py:58-65 | one more line only appends its entry to the end of its bucket, so input order is kept within each bucket |
| CommitHelper.LineEntryOfStatusLine | git-commit/scripts/commit_helper.py:55-65 | a status line written as git writes it goes to the bucket its code's first non-blank letter names, under its full file name |
| CommitHelper.UntrackedLineDropped | git-commit/scripts/commit_helper.py:58-65 | an untracked `??` line lands in no bucket |
| CommitHelper.FirstLineLosesLetter | git-commit/scripts/commit_helper.py:33-56 | as written: output whose first line is ` M name` is stripped as a whole, and the file lands in `modified` without its first letter |
| CommitHelper.StagedChangesOfLines | git-commit/scripts/commit_helper.py:51-65 | corrected: without stripping the whole output, newline-terminated status lines parse exactly as the lines themselves |
| CommitHelper.CandidateIn | git-commit/scripts/commit_helper.py:86-95 | every changed file whose first directory component is not generic adds that component to the candidates |
| CommitHelper.StripSlashes | git-commit/scripts/commit_helper.py:90 | the `rstrip('/')` inside `os.path.dirname` gives a prefix that does not end with `/`, and everything it cut off is `/` |
| CommitHelper.CandidateFrom | git-commit/scripts/commit_helper.py:86-95 | every candidate is the first directory component of some changed file |
| CommitHelper.CollectScopes | git-commit/scripts/commit_helper.py:86-95 | the loop over the buckets collects the candidates of all changed files in bucket order |
| CommitHelper.MostFrequent | git-commit/scripts/commit_helper.py:100 | `max(set(scopes), key=scopes.count)` returns a candidate that no other candidate outnumbers |
| CommitHelper.AnalyzeChanges | git-commit/scripts/commit_helper.py:76-136 | the scope is `None` exactly when there is no candidate, and otherwise a most frequent one; the type and details are those of the chains below; the description is empty |
| CommitHelper.ChooseType | git-commit/scripts/commit_helper.py:107-126 | the `if`/`elif` chain assigns the reference commit type |
| CommitHelper.CommitTypeCases | git-commit/scripts/commit_helper.py:79-126 | the type is one of test, docs, feat, fix, refactor, chore. It is test exactly when some file looks like a test. It is docs exactly when no file looks like a test and some file looks like documentation. It is feat exactly when neither holds, files were added and the diff is over 100 characters |
| CommitHelper.TestFileWins | git-commit/scripts/commit_helper.py:107-108 | a file name containing `test` in any case makes the commit a test commit, whatever the diff says |
| CommitHelper.CollectDetails | git-commit/scripts/commit_helper.py:129-134 | the appends give the reference detail lines |
| CommitHelper.DetailsShape | git-commit/scripts/commit_helper.py:129-134 | one detail per non-empty bucket among added, modified and deleted, with the `Add` line first; renamed files never give one |
| CommitHelper.MessageLines | git-commit/scripts/commit_helper.py:149-152 | the message has 2 + the number of details lines |
| CommitHelper.DetailLines | git-commit/scripts/commit_helper.py:151-152 | one `- detail` line per detail, in order |
| CommitHelper.MessageReadsBack | git-commit/scripts/commit_helper.py:138-154 | when no part holds a line break, the message splits into the subject, an empty line and one `- detail` line per detail |
| CommitHelper.SubjectOneLine | git-commit/scripts/commit_helper.py:140-146 | the subject is a single line when the type and scope are |
| CommitHelper.DescriptionOneLine | git-commit/scripts/commit_helper.py:140 | every type description, including the `Maintenance tasks` fallback, is a single line |
| CommitHelper.TableOneLine | git-commit/scripts/commit_helper.py:14-22 | no entry of the commit-type table holds a line break |
| CommitHelper.SubjectScope | git-commit/scripts/commit_helper.py:143-146 | the subject starts with the type, followed by `(scope): desc` when the scope is present and non-empty and by `: desc` otherwise |

## Left out

- Console output, argument parsing, the `main` functions and the JSON files they write are not modelled.
- Reading the disk is not modelled. The directory tree, the set of existing names, the line counts, the file contents and the parsed `package.json` are inputs.
- `subprocess` and git are not modelled. `run_git_command`, `get_staged_diff` and `create_commit` are left out; the status output (`None` when git fails) and the diff are inputs.
- Text is handled as ASCII. `lower`, `upper` and `strip` are modelled on ASCII letters and whitespace, with no Unicode case mapping.
- EntryPoints.FindApiEndpoints: `re.findall` is a function parameter, not a regular-expression engine. The display name from `relative_to(parents[-2])` is an opaque input, `None` when computing it raises.
- EntryPoints.AnalyzeRoutes: reading and naming each route file are function parameters.
- EntryPoints.PatternFiles: globs are modelled with `*` only; `?` and `[...]` are taken literally.
- EntryPoints.PatternFiles: an empty pattern, a pattern ending in `/` and a `**` file pattern are not distinguished from ordinary text.
- EntryPoints.PatternFiles: `found` is a set of paths rather than a list with repeats. Only `sorted(set(found))` is observable, so nothing is lost.
- CommitHelper.MostFrequent: it states only that the scope is a most frequent candidate. Which tied candidate `max` picks depends on set iteration order.
- TechStack.DetectLanguages: entries are taken in listing order, although `os.walk` may list them in any order. Only the counts are stated, so the order does not matter.
- `os.walk` without an error handler silently skips an unreadable directory, and the model does the same.
- TechStack.DetectLanguages: the directory tree does not mark symbolic links. `os.walk` (detect_tech_stack.py:163, with `followlinks` off) never descends into a directory that is a link, but `Walk` counts the files under every directory it reaches, links included.
- EntryPoints.PatternFiles: `Project` holds only existing files and directories, with no symbolic links and no unreadable directories.
  - `rglob` (find_entry_points.py:105) neither descends into a linked directory nor stops at a directory it cannot list, which it skips silently. The model's `RGlob` descends into every directory.
  - In the `*` branch, `is_dir()` (find_entry_points.py:92) does follow links, which matches the model.
  - In the same branch, `iterdir()` raises `PermissionError` on an unreadable directory, and nothing catches it, so the script stops. The model does not capture that crash.
- StructureTree.Analyze: `is_dir()` and `iterdir()` follow symbolic links, so a link cycle is walked again and again until `max_depth` stops it. The directory tree is a finite value, so such cycles are not modelled.
- CommitHelper.ParseSize: it bounds the buckets by the number of lines with a known code. It does not state the converse per line; AddLine and LineEntryOfStatusLine state that instead.
- EntryPoints.AnalyzeRoutes: `analyze_routes` never uses its `project_path` argument (find_entry_points.py:217-228), so the model has no such parameter.
- TechStack.PackageJsonDeps: a section is either an object of string versions or a value whose `update` raises. A section holding a list of key/value pairs, which `dict.update` accepts, is not modelled, and neither are non-string versions.
- StructureReport.CalculateStats: it takes the tree as a node. `analyze_directory` returns `None` for a hidden root directory without `--include-hidden` (analyze_structure.py:108-109) or for a negative `--max-depth` (analyze_structure.py:91-92). `main` then hands `None` to `calculate_stats`, which raises a `TypeError` at `node['type']` (analyze_structure.py:196). That crash is not modelled.
- TechStack.Project: the set of names present at the top level and the directory tree are independent inputs. They are assumed to describe the same directory, and the model does not check that they agree.
- EntryPoints.Expected: the dictionary is a list of (key, paths) pairs, so a key repeated in a table would give a second pair where a Python `dict` overwrites the first. The script's tables repeat no key, and the model does not prove that.
- The text-tree connectors are the characters the source file literally holds (`â””â”€â”€ `, `â”œâ”€â”€ `, `â”‚   `). They are not the box-drawing characters they were evidently meant to be.

## Findings

| source | as written | input that shows it | evidently intended | confidence | as-written member | corrected member |
|---|---|---|---|---|---|---|
| git-commit/scripts/commit_helper.py:33 | `run_git_command` strips the whole `git status --porcelain` output before `get_staged_changes` cuts each line at fixed columns (`line[:2]`, `line[3:]`, lines 55-56). A first line whose index column is blank loses that blank, and its file name loses its first character. | `" M " + name + "\n"`, e.g. ` M app.py` followed by a newline, reads as a modification of `pp.py` | strip each line, not the whole output, so every line keeps its two status columns | not executed | CommitHelper.FirstLineLosesLetter | CommitHelper.StagedChangesOfLines |

=== FILE: commit_helper.dfy ===
/**
 * `commit_helper.py`: sorting `git status --porcelain` lines into added,
 * modified, deleted and renamed files, deciding a conventional-commit type and
 * scope from them and from the staged diff, and assembling the message.
 *
 * Git is not run here: its (already stripped) status output and the diff are
 * inputs, `None` standing for a failed status command.
 */
module CommitHelper {
  import opened Wrappers
  import opened Strings

  // ---------------------------------------------------------------- staged changes

  /** The four buckets of `get_staged_changes`, each in the order git listed the files. */
  datatype Changes = Changes(added: seq<string>, modified: seq<string>, deleted: seq<string>, renamed: seq<string>)
  {
    /** The number of files in all buckets. */
    function Size(): nat {
      |added| + |modified| + |deleted| + |renamed|
    }

    /** `added + modified + deleted + renamed`. */
    function AllFiles(): seq<string> {
      added + modified + deleted + renamed
    }
  }

  const NoChanges := Changes([], [], [], [])

  datatype Kind = Added | Modified | Deleted | Renamed

  /** `s[:n]`. */
  function Prefix(s: string, n: nat): string {
    if |s| <= n then s else s[..n]
  }

  /** `s[n:]`. */
  function Drop(s: string, n: nat): string {
    if |s| <= n then [] else s[n..]
  }

  /**
   * The bucket a stripped status code names, with the file name: none when the
   * code does not start with `A`, `M`, `D` or `R` (checked in that order, so
   * `AM` is an addition and `RM` a rename).
   */
  function Classify(status: string, filename: string): Option<(Kind, string)> {
    if status == [] then None
    else if status[0] == 'A' then Some((Added, filename))
    else if status[0] == 'M' then Some((Modified, filename))
    else if status[0] == 'D' then Some((Deleted, filename))
    else if status[0] == 'R' then Some((Renamed, filename))
    else None
  }

  /** The bucket and file name of one status line; none for a blank line. */
  function LineEntry(line: string): Option<(Kind, string)> {
    if Strip(line) == [] then None
    else Classify(Strip(Prefix(line, 2)), Strip(Drop(line, 3)))
  }

  /** `changes` with one more entry at the end of its bucket. */
  function AddEntry(c: Changes, e: Option<(Kind, string)>): Changes {
    match e
    case None => c
    case Some((k, f)) =>
      match k
      case Added => c.(added := c.added + [f])
      case Modified => c.(modified := c.modified + [f])
      case Deleted => c.(deleted := c.deleted + [f])
      case Renamed => c.(renamed := c.renamed + [f])
  }

  /** The buckets the status lines fill, line by line. */
  function Parse(lines: seq<string>): Changes
    decreases |lines|
  {
    if lines == [] then NoChanges
    else AddEntry(Parse(lines[..|lines| - 1]), LineEntry(lines[|lines| - 1]))
  }

  /** `get_staged_changes` on the output of `git status --porcelain` (`None` when git failed). */
  method GetStagedChanges(statusOutput: Option<string>) returns (changes: Changes)
    ensures statusOutput.None? ==> changes == NoChanges
    ensures statusOutput.Some? ==> changes == Parse(Split(statusOutput.value, '\n'))
  {
    changes := NoChanges;
    if statusOutput.None? {
      return;
    }
    var lines := Split(statusOutput.value, '\n');
    for i := 0 to |lines|
      invariant changes == Parse(lines[..i])
    {
      ParseStep(lines, i);
      changes := AddLine(changes, lines[i]);
    }
    assert lines[..|lines|] == lines;
  }

  /** One pass of the loop body: a blank line is skipped, others go to the bucket their code names. */
  method AddLine(c: Changes, line: string) returns (changes: Changes)
    ensures changes == AddEntry(c, LineEntry(line))
  {
    changes := c;
    if Strip(line) == [] {
      return;
    }
    var status := Strip(Prefix(line, 2));
    var filename := Strip(Drop(line, 3));
    assert LineEntry(line) == Classify(status, filename);
    if status != [] && status[0] == 'A' {
      changes := changes.(added := changes.added + [filename]);
    } else if status != [] && status[0] == 'M' {
      changes := changes.(modified := changes.modified + [filename]);
    } else if status != [] && status[0] == 'D' {
      changes := changes.(deleted := changes.deleted + [filename]);
    } else if status != [] && status[0] == 'R' {
      changes := changes.(renamed := changes.renamed + [filename]);
    }
  }

  lemma ParseStep(lines: seq<string>, i: nat)
    requires i < |lines|
    ensures Parse(lines[..i + 1]) == AddEntry(Parse(lines[..i]), LineEntry(lines[i]))
  {
    assert lines[..i + 1][..i] == lines[..i];
  }

  /** The number of lines with a known status code. */
  function KnownLines(lines: seq<string>): nat
    decreases |lines|
  {
    if lines == [] then 0
    else KnownLines(lines[..|lines| - 1]) + (if LineEntry(lines[|lines| - 1]).Some? then 1 else 0)
  }

  /** Every line lands in at most one bucket: the buckets hold one file per line with a known code. */
  lemma {:induction false} ParseSize(lines: seq<string>)
    ensures Parse(lines).Size() == KnownLines(lines) <= |lines|
    decreases |lines|
  {
    if lines != [] {
      var init := lines[..|lines| - 1];
      ParseSize(init);
      var e := LineEntry(lines[|lines| - 1]);
      assert Parse(lines) == AddEntry(Parse(init), e);
      if e.Some? {
        var (k, f) := e.value;
        assert Parse(lines).Size() == Parse(init).Size() + 1 by {
          match k
          case Added =>
          case Modified =>
          case Deleted =>
          case Renamed =>
        }
      }
    }
  }

  /** One more line adds its entry, if any, at the end of its bucket: input order is kept. */
  lemma ParseSnoc(lines: seq<string>, x: string)
    ensures Parse(lines + [x]) == AddEntry(Parse(lines), LineEntry(x))
  {
    assert (lines + [x])[..|lines|] == lines;
  }

  /** An untracked file (code `??`) lands in no bucket: the line changes nothing. */
  lemma UntrackedLineDropped(lines: seq<string>, name: string)
    ensures Parse(lines + ["?? " + name]) == Parse(lines)
  {
    ParseSnoc(lines, "?? " + name);
    UntrackedEntry(name);
  }

  lemma UntrackedEntry(name: string)
    ensures LineEntry("?? " + name) == None
  {
    var line := "?? " + name;
    assert Prefix(line, 2) == "??";
    StripTrimmed("??");
    assert Classify("??", Strip(Drop(line, 3))) == None;
  }

  /** A string with no whitespace at either end is its own strip. */
  lemma StripTrimmed(s: string)
    requires s == [] || (!IsSpace(s[0]) && !IsSpace(s[|s| - 1]))
    ensures Strip(s) == s
  {
  }

  /**
   * A status line written as git writes it, a two-letter code, a blank and the
   * file name, goes to the bucket the code's first non-blank letter names, under
   * its file name.
   */
  lemma LineEntryOfStatusLine(code: string, name: string)
    requires |code| == 2 && name != [] && !IsSpace(name[0]) && !IsSpace(name[|name| - 1])
    ensures LineEntry(code + " " + name) == Classify(Strip(code), name)
  {
    var line := code + " " + name;
    assert Prefix(line, 2) == code && Drop(line, 3) == name;
    StripTrimmed(name);
    assert line[|line| - 1] == name[|name| - 1];
    assert Strip(line) != [] by {
      assert !IsSpace(line[|line| - 1]);
    }
  }

  // ---------------------------------------------------------------- git's output

  /**
   * The buckets read from git's raw status output as the script does it: the
   * command runner strips the whole output before the lines are parsed, which
   * also eats the blank status column of the first line.
   */
  function StagedChangesAsWritten(raw: string): Changes {
    Parse(Split(Strip(raw), '\n'))
  }

  /**
   * A first line ` M name` (a file changed but not staged) is read as a change
   * to the file name without its first character.
   */
  lemma FirstLineLosesLetter(name: string)
    requires |name| >= 2 && !IsSpace(name[0]) && !IsSpace(name[1]) && !IsSpace(name[|name| - 1]) && '\n' !in name
    ensures StagedChangesAsWritten(" M " + name + "\n") == Changes([], [name[1..]], [], [])
  {
    var line := "M " + name;
    StripUnstagedOutput(name);
    assert Parse([line]) == Changes([], [name[1..]], [], []) by {
      StrippedLine(name);
      ParseOne(line);
    }
  }

  /** Stripping the output ` M name\n` leaves the single line `M name`. */
  lemma StripUnstagedOutput(name: string)
    requires name != [] && !IsSpace(name[|name| - 1]) && '\n' !in name
    ensures StagedChangesAsWritten(" M " + name + "\n") == Parse(["M " + name])
  {
    assert Strip(" M " + name + "\n") == "M " + name by {
      StripOutput(name);
    }
    var line := "M " + name;
    assert '\n' !in line by {
      assert forall i :: 2 <= i < |line| ==> line[i] == name[i - 2];
    }
    SingleLine(line);
  }

  lemma StripOutput(name: string)
    requires name != [] && !IsSpace(name[|name| - 1])
    ensures Strip(" M " + name + "\n") == "M " + name
  {
    var line := "M " + name;
    var raw := " M " + name + "\n";
    assert StripLeft(raw) == line + "\n" by {
      assert raw[1..] == line + "\n";
    }
    assert StripRight(line + "\n") == line by {
      assert (line + "\n")[..|line|] == line;
      assert line[|line| - 1] == name[|name| - 1];
    }
  }

  lemma SingleLine(line: string)
    requires '\n' !in line
    ensures Split(line, '\n') == [line]
  {
    SplitJoin([line], '\n');
  }

  /** The stripped line `M name` is read as a change to `name` without its first character. */
  lemma StrippedLine(name: string)
    requires |name| >= 2 && !IsSpace(name[1]) && !IsSpace(name[|name| - 1])
    ensures LineEntry("M " + name) == Some((Modified, name[1..]))
  {
    StrippedParts(name);
  }

  lemma StrippedParts(name: string)
    requires |name| >= 2 && !IsSpace(name[1]) && !IsSpace(name[|name| - 1])
    ensures var line := "M " + name;
      Strip(line) != [] && Strip(Prefix(line, 2)) == "M" && Strip(Drop(line, 3)) == name[1..]
  {
    StrippedNonBlank(name);
    StrippedStatus(name);
    StrippedName(name);
  }

  lemma StrippedNonBlank(name: string)
    requires |name| >= 1 && !IsSpace(name[|name| - 1])
    ensures Strip("M " + name) != []
  {
    var line := "M " + name;
    assert line[|line| - 1] == name[|name| - 1];
  }

  lemma StrippedStatus(name: string)
    ensures Strip(Prefix("M " + name, 2)) == "M"
  {
    assert Prefix("M " + name, 2) == "M ";
    LetterThenBlank('M');
  }

  lemma StrippedName(name: string)
    requires |name| >= 2 && !IsSpace(name[1]) && !IsSpace(name[|name| - 1])
    ensures Strip(Drop("M " + name, 3)) == name[1..]
  {
    assert Drop("M " + name, 3) == name[1..];
    StripTrimmed(name[1..]);
  }

  lemma LetterThenBlank(c: char)
    requires !IsSpace(c)
    ensures Strip([c, ' ']) == [c]
  {
    assert StripLeft([c, ' ']) == [c, ' '];
    assert [c, ' '][..1] == [c];
    assert StripRight([c, ' ']) == StripRight([c]) == [c];
  }

  lemma ParseOne(line: string)
    ensures Parse([line]) == AddEntry(NoChanges, LineEntry(line))
  {
    assert [line][..0] == [];
  }

  /**
   * The buckets read from git's raw status output when only the lines are
   * stripped: blank lines, the one after the final line break included, are
   * skipped by the parser anyway.
   */
  function StagedChanges(raw: string): Changes {
    Parse(Split(raw, '\n'))
  }

  /**
   * Git's output, status lines each ended by a line break, reads back as those
   * lines, the first one included.
   */
  lemma StagedChangesOfLines(lines: seq<string>)
    requires lines != [] && forall k :: 0 <= k < |lines| ==> '\n' !in lines[k]
    ensures StagedChanges(Join(lines, '\n') + "\n") == Parse(lines)
  {
    OutputLines(lines);
    ReadLines(Join(lines, '\n') + "\n", lines);
  }

  lemma ReadLines(raw: string, lines: seq<string>)
    requires Split(raw, '\n') == lines + [""]
    ensures StagedChanges(raw) == Parse(lines)
  {
    BlankLastLine(lines);
  }

  /** A blank last line adds nothing. */
  lemma BlankLastLine(lines: seq<string>)
    ensures Parse(lines + [""]) == Parse(lines)
  {
    ParseSnoc(lines, "");
  }

  /** Lines each ended by a line break split back into those lines and an empty last one. */
  lemma OutputLines(lines: seq<string>)
    requires lines != [] && forall k :: 0 <= k < |lines| ==> '\n' !in lines[k]
    ensures Split(Join(lines, '\n') + "\n", '\n') == lines + [""]
  {
    assert Join(lines, '\n') + "\n" == Join(lines + [""], '\n') by {
      JoinAppend(lines, [""], '\n');
      assert Join([""], '\n') == "";
    }
    NoBreakWithBlank(lines);
    SplitJoin(lines + [""], '\n');
  }

  lemma NoBreakWithBlank(lines: seq<string>)
    requires forall k :: 0 <= k < |lines| ==> '\n' !in lines[k]
    ensures forall p :: p in lines + [""] ==> '\n' !in p
  {
    forall p | p in lines + [""] ensures '\n' !in p {
      var k :| 0 <= k < |lines + [""]| && (lines + [""])[k] == p;
      if k < |lines| {
        assert p == lines[k];
      }
    }
  }

  // ---------------------------------------------------------------- analysis

  /** The result of `analyze_changes`. */
  datatype Analysis = Analysis(commitType: string, scope: Option<string>, description: string, details: seq<string>)

  /** `os.path.dirname`: what comes before the last `/`, without its trailing slashes unless it is all slashes. */
  function DirName(p: string): string {
    var head := p[..LastIndexOf(p, '/') + 1];
    // `head` is all slashes (or empty) exactly when stripping them leaves nothing
    var stripped := StripSlashes(head);
    if stripped != [] then stripped else head
  }

  /** `s.rstrip('/')`. */
  function StripSlashes(s: string): (r: string)
    ensures r <= s && (r == [] || r[|r| - 1] != '/')
    ensures forall i :: |r| <= i < |s| ==> s[i] == '/'
  {
    if s != [] && s[|s| - 1] == '/' then StripSlashes(s[..|s| - 1]) else s
  }

  /** Top-level directories that never name a scope. */
  const GenericDirs: seq<string> := ["src", "lib", "test", "tests", "docs"]

  /** The scope a file path proposes: the first component of its directory, unless that is generic. */
  function ScopeCandidate(f: string): Option<string> {
    var d := DirName(f);
    if d != [] && d != "." then
      var c := Split(d, '/')[0];
      if c !in GenericDirs then Some(c) else None
    else None
  }

  /** The candidates of `files`, in order. */
  function Candidates(files: seq<string>): seq<string>
    decreases |files|
  {
    if files == [] then []
    else Candidates(files[..|files| - 1]) + (match ScopeCandidate(files[|files| - 1]) case Some(c) => [c] case None => [])
  }

  /** The scope a file proposes is among the candidates. */
  lemma {:induction false} CandidateIn(files: seq<string>, i: nat)
    requires i < |files| && ScopeCandidate(files[i]).Some?
    ensures ScopeCandidate(files[i]).value in Candidates(files)
    decreases |files|
  {
    var init, last := files[..|files| - 1], ScopeCandidate(files[|files| - 1]);
    var tail := match last case Some(c) => [c] case None => [];
    assert Candidates(files) == Candidates(init) + tail;
    if i < |init| {
      assert files[i] == init[i];
      CandidateIn(init, i);
    } else {
      assert i == |files| - 1;
      assert last == ScopeCandidate(files[i]);
    }
  }

  /** Every candidate is the scope some file proposes. */
  lemma {:induction false} CandidateFrom(files: seq<string>, c: string)
    requires c in Candidates(files)
    ensures exists i :: 0 <= i < |files| && ScopeCandidate(files[i]) == Some(c)
    decreases |files|
  {
    var init := files[..|files| - 1];
    if ScopeCandidate(files[|files| - 1]) != Some(c) {
      assert c in Candidates(init);
      CandidateFrom(init, c);
      var i :| 0 <= i < |init| && ScopeCandidate(init[i]) == Some(c);
      assert files[i] == init[i];
    }
  }

  lemma CandidatesStep(files: seq<string>, i: nat)
    requires i < |files|
    ensures Candidates(files[..i + 1]) ==
      Candidates(files[..i]) + (match ScopeCandidate(files[i]) case Some(c) => [c] case None => [])
  {
    assert files[..i + 1][..i] == files[..i];
  }

  /** The scope candidates, over the buckets in dictionary order. */
  method CollectScopes(changes: Changes) returns (scopes: seq<string>)
    ensures scopes == Candidates(changes.AllFiles())
  {
    var files := changes.AllFiles();
    scopes := [];
    for i := 0 to |files|
      invariant scopes == Candidates(files[..i])
    {
      CandidatesStep(files, i);
      var d := DirName(files[i]);
      if d != [] && d != "." {
        var c := Split(d, '/')[0];
        if c !in GenericDirs {
          assert ScopeCandidate(files[i]) == Some(c);
          scopes := scopes + [c];
        } else {
          assert ScopeCandidate(files[i]) == None;
        }
      } else {
        assert ScopeCandidate(files[i]) == None;
      }
    }
    assert files[..|files|] == files;
  }

  /** `xs.count(x)`. */
  function Count(xs: seq<string>, x: string): nat {
    multiset(xs)[x]
  }

  /** No scope when there is no candidate, otherwise a candidate no other one outnumbers. */
  predicate IsScope(scope: Option<string>, scopes: seq<string>) {
    match scope
    case None => scopes == []
    case Some(best) => best in scopes && forall s :: s in scopes ==> Count(scopes, s) <= Count(scopes, best)
  }

  /** `max(set(scopes), key=scopes.count)`: a most frequent candidate. */
  method MostFrequent(scopes: seq<string>) returns (best: string)
    requires scopes != []
    ensures best in scopes
    ensures forall s :: s in scopes ==> Count(scopes, s) <= Count(scopes, best)
  {
    best := scopes[0];
    for i := 1 to |scopes|
      invariant best in scopes
      invariant forall j :: 0 <= j < i ==> Count(scopes, scopes[j]) <= Count(scopes, best)
    {
      if Count(scopes, scopes[i]) > Count(scopes, best) {
        best := scopes[i];
      }
    }
  }

  /** A file name that marks a commit about tests. */
  predicate IsTestFile(f: string) {
    Contains(Lower(f), "test") || Contains(Lower(f), "spec")
  }

  /** A file name that marks a documentation commit. */
  predicate IsDocFile(f: string) {
    EndsWith(f, ".md") || EndsWith(f, ".rst") || EndsWith(f, ".txt") || Contains(Lower(f), "doc")
  }

  predicate AnyTestFile(files: seq<string>) {
    exists i :: 0 <= i < |files| && IsTestFile(files[i])
  }

  predicate AnyDocFile(files: seq<string>) {
    exists i :: 0 <= i < |files| && IsDocFile(files[i])
  }

  predicate MentionsFix(diff: string) {
    var d := Lower(diff);
    Contains(d, "fix") || Contains(d, "error") || Contains(d, "null") || Contains(d, "exception")
  }

  predicate MentionsRefactor(diff: string) {
    var d := Lower(diff);
    Contains(d, "refactor") || Contains(d, "cleanup") || Contains(d, "reorganize")
  }

  /** The commit type: the first of test, docs, feat, fix and refactor whose test passes, else chore. */
  function CommitType(changes: Changes, diff: string): string {
    var files := changes.AllFiles();
    if AnyTestFile(files) then "test"
    else if AnyDocFile(files) then "docs"
    else if changes.added != [] && |diff| > 100 then "feat"
    else if MentionsFix(diff) then "fix"
    else if MentionsRefactor(diff) then "refactor"
    else "chore"
  }

  /** The type is one of six, and the test checks come first whatever the diff says. */
  lemma CommitTypeCases(changes: Changes, diff: string)
    ensures CommitType(changes, diff) in ["test", "docs", "feat", "fix", "refactor", "chore"]
    ensures CommitType(changes, diff) == "test" <==> AnyTestFile(changes.AllFiles())
    ensures CommitType(changes, diff) == "docs" <==> !AnyTestFile(changes.AllFiles()) && AnyDocFile(changes.AllFiles())
    ensures CommitType(changes, diff) == "feat" <==>
      !AnyTestFile(changes.AllFiles()) && !AnyDocFile(changes.AllFiles()) && changes.added != [] && |diff| > 100
  {
  }

  /** A file whose name contains `TEST` in any case makes the commit a test commit. */
  lemma TestFileWins(changes: Changes, diff: string, i: nat)
    requires i < |changes.AllFiles()| && Contains(Lower(changes.AllFiles()[i]), "test")
    ensures CommitType(changes, diff) == "test"
  {
  }

  /** The detail lines: one per non-empty bucket among added, modified and deleted. */
  function Details(changes: Changes): seq<string> {
    (if changes.added != [] then ["Add " + NatToString(|changes.added|) + " new file(s)"] else []) +
    (if changes.modified != [] then ["Modify " + NatToString(|changes.modified|) + " file(s)"] else []) +
    (if changes.deleted != [] then ["Delete " + NatToString(|changes.deleted|) + " file(s)"] else [])
  }

  /** At most three details, one per non-empty bucket, and renamed files never give one. */
  lemma DetailsShape(changes: Changes, renamed: seq<string>)
    ensures |Details(changes)| ==
      (if changes.added != [] then 1 else 0) + (if changes.modified != [] then 1 else 0) + (if changes.deleted != [] then 1 else 0)
    ensures Details(changes.(renamed := renamed)) == Details(changes)
    ensures changes.added != [] ==> Details(changes)[0] == "Add " + NatToString(|changes.added|) + " new file(s)"
  {
  }

  /** `analyze_changes`. */
  method AnalyzeChanges(changes: Changes, diff: string) returns (a: Analysis)
    ensures a.commitType == CommitType(changes, diff)
    ensures IsScope(a.scope, Candidates(changes.AllFiles()))
    ensures a.description == []
    ensures a.details == Details(changes)
  {
    var scope := None;
    var scopes := CollectScopes(changes);
    if scopes != [] {
      var best := MostFrequent(scopes);
      scope := Some(best);
    }
    var commitType := ChooseType(changes, diff);
    var details := CollectDetails(changes);
    a := Analysis(commitType, scope, "", details);
  }

  /** The `if`/`elif` chain over the type, starting from the default `chore`. */
  method ChooseType(changes: Changes, diff: string) returns (t: string)
    ensures t == CommitType(changes, diff)
  {
    t := "chore";
    var files := changes.AllFiles();
    if AnyTestFile(files) {
      t := "test";
    } else if AnyDocFile(files) {
      t := "docs";
    } else if changes.added != [] && |diff| > 100 {
      t := "feat";
    } else if MentionsFix(diff) {
      t := "fix";
    } else if MentionsRefactor(diff) {
      t := "refactor";
    }
  }

  /** The detail lines, appended one bucket at a time. */
  method CollectDetails(changes: Changes) returns (details: seq<string>)
    ensures details == Details(changes)
  {
    details := [];
    if changes.added != [] {
      details := details + ["Add " + NatToString(|changes.added|) + " new file(s)"];
    }
    if changes.modified != [] {
      details := details + ["Modify " + NatToString(|changes.modified|) + " file(s)"];
    }
    if changes.deleted != [] {
      details := details + ["Delete " + NatToString(|changes.deleted|) + " file(s)"];
    }
  }

  // ---------------------------------------------------------------- message

  /** `self.commit_types`, fixed at construction. */
  const CommitTypes: map<string, string> := map[
    "feat" := "A new feature",
    "fix" := "A bug fix",
    "docs" := "Documentation changes",
    "style" := "Code style changes (formatting, " + "missing semi colons, etc)",
    "refactor" := "Code refactoring",
    "test" := "Adding or modifying tests",
    "chore" := "Maintenance tasks, " + "build process, dependencies"
  ]

  /** The lower-cased description of a type, `Maintenance tasks` for an unknown one. */
  function TypeDescription(t: string): string {
    Lower(if t in CommitTypes then CommitTypes[t] else "Maintenance tasks")
  }

  /** The subject line: `type(scope): desc`, or `type: desc` when the scope is missing or empty. */
  function Subject(a: Analysis): string {
    Header(a.commitType, a.scope, TypeDescription(a.commitType))
  }

  function Header(t: string, scope: Option<string>, d: string): string {
    if scope.Some? && scope.value != [] then t + "(" + scope.value + "): " + d
    else t + ": " + d
  }

  /** The message lines: subject, blank line, one `- detail` per detail. */
  function MessageLines(a: Analysis): (r: seq<string>)
    ensures |r| == 2 + |a.details|
  {
    [Subject(a), ""] + DetailLines(a.details)
  }

  /** One `- detail` line per detail. */
  function DetailLines(details: seq<string>): (r: seq<string>)
    ensures |r| == |details|
    ensures forall k :: 0 <= k < |details| ==> r[k] == "- " + details[k]
  {
    seq(|details|, k requires 0 <= k < |details| => "- " + details[k])
  }

  /** `generate_commit_message`. */
  function GenerateCommitMessage(a: Analysis): string {
    Join(MessageLines(a), '\n')
  }

  /**
   * When no part holds a line break, the message reads back as its subject, an
   * empty line and one `- detail` line per detail.
   */
  lemma MessageReadsBack(a: Analysis)
    requires '\n' !in a.commitType && (a.scope.Some? ==> '\n' !in a.scope.value)
    requires forall k :: 0 <= k < |a.details| ==> '\n' !in a.details[k]
    ensures var lines := Split(GenerateCommitMessage(a), '\n');
      |lines| == 2 + |a.details| && lines[0] == Subject(a) && lines[1] == [] &&
      forall k :: 0 <= k < |a.details| ==> lines[2 + k] == "- " + a.details[k]
  {
    SubjectOneLine(a);
    LinesOneLine(Subject(a), a.details);
    SplitJoin(MessageLines(a), '\n');
  }

  lemma LinesOneLine(subject: string, details: seq<string>)
    requires '\n' !in subject
    requires forall k :: 0 <= k < |details| ==> '\n' !in details[k]
    ensures forall p :: p in [subject, ""] + DetailLines(details) ==> '\n' !in p
  {
    var lines := [subject, ""] + DetailLines(details);
    forall p | p in lines ensures '\n' !in p {
      var j :| 0 <= j < |lines| && lines[j] == p;
      if j >= 2 {
        assert p == "- " + details[j - 2];
      }
    }
  }

  /** The subject is a single line when the type and scope are. */
  lemma SubjectOneLine(a: Analysis)
    requires '\n' !in a.commitType && (a.scope.Some? ==> '\n' !in a.scope.value)
    ensures '\n' !in Subject(a)
  {
    DescriptionOneLine(a.commitType);
  }

  /** Every type description is a single line. */
  lemma DescriptionOneLine(t: string)
    ensures '\n' !in TypeDescription(t)
  {
    var d := if t in CommitTypes then CommitTypes[t] else "Maintenance tasks";
    TableOneLine(t);
    var r := TypeDescription(t);
    forall i | 0 <= i < |r| ensures r[i] != '\n' {
      assert d[i] != '\n';
    }
  }

  lemma TableOneLine(t: string)
    ensures '\n' !in (if t in CommitTypes then CommitTypes[t] else "Maintenance tasks")
  {
    if t == "feat" || t == "fix" || t == "docs" {
      ShortDescriptionsOneLine(t);
    } else if t == "style" || t == "refactor" {
      MiddleDescriptionsOneLine(t);
    } else if t == "test" || t == "chore" {
      LastDescriptionsOneLine(t);
    } else {
      assert t !in CommitTypes;
      assert '\n' !in "Maintenance tasks";
    }
  }

  lemma ShortDescriptionsOneLine(t: string)
    requires t == "feat" || t == "fix" || t == "docs"
    ensures t in CommitTypes && '\n' !in CommitTypes[t]
  {
    if t == "feat" {
      assert CommitTypes[t] == "A new feature";
    } else if t == "fix" {
      assert CommitTypes[t] == "A bug fix";
    } else {
      assert CommitTypes[t] == "Documentation changes";
    }
  }

  lemma MiddleDescriptionsOneLine(t: string)
    requires t == "style" || t == "refactor"
    ensures t in CommitTypes && '\n' !in CommitTypes[t]
  {
    if t == "style" {
      assert CommitTypes[t] == "Code style changes (formatting, " + "missing semi colons, etc)";
    } else {
      assert CommitTypes[t] == "Code refactoring";
    }
  }

  lemma LastDescriptionsOneLine(t: string)
    requires t == "test" || t == "chore"
    ensures t in CommitTypes && '\n' !in CommitTypes[t]
  {
    if t == "test" {
      assert CommitTypes[t] == "Adding or modifying tests";
    } else {
      assert CommitTypes[t] == "Maintenance tasks, " + "build process, dependencies";
    }
  }

  /** The subject names the scope exactly when there is a non-empty one. */
  lemma SubjectScope(a: Analysis)
    ensures StartsWith(Subject(a), a.commitType)
    ensures a.scope.Some? && a.scope.value != [] ==>
      Subject(a)[|a.commitType|..] == "(" + a.scope.value + "): " + TypeDescription(a.commitType)
    ensures !(a.scope.Some? && a.scope.value != []) ==> Subject(a)[|a.commitType|..] == ": " + TypeDescription(a.commitType)
  {
    HeaderShape(a.commitType, a.scope, TypeDescription(a.commitType));
  }

  lemma HeaderShape(t: string, scope: Option<string>, d: string)
    ensures StartsWith(Header(t, scope, d), t)
    ensures scope.Some? && scope.value != [] ==> Header(t, scope, d)[|t|..] == "(" + scope.value + "): " + d
    ensures !(scope.Some? && scope.value != []) ==> Header(t, scope, d)[|t|..] == ": " + d
  {
    if scope.Some? && scope.value != [] {
      AfterPrefix(t, "(" + scope.value + "): " + d);
      assert Header(t, scope, d) == t + ("(" + scope.value + "): " + d);
    } else {
      AfterPrefix(t, ": " + d);
      assert Header(t, scope, d) == t + (": " + d);
    }
  }

  lemma AfterPrefix(p: string, q: string)
    ensures StartsWith(p + q, p) && (p + q)[|p|..] == q
  {
    assert (p + q)[..|p|] == p;
  }
}

=== FILE: entry_points.dfy ===
/**
 * `find_entry_points.py`: looking a project up by glob patterns (main files,
 * configuration files, route files) and collecting the API endpoints that the
 * route files declare.
 *
 * The project is the set of relative paths (lists of name parts) of its files
 * and of its directories; the empty path is the project directory itself.
 * `pathlib`'s `glob` and `rglob` are functions on that value.
 */
module EntryPoints {
  import opened Wrappers
  import opened Strings
  import opened Ordering

  /** A path relative to the project directory, one element per name part. */
  type Path = seq<string>

  datatype Project = Project(files: set<Path>, dirs: set<Path>)
  {
    /** `(project_path / p).exists()`. */
    predicate Exists(p: Path) {
      p == [] || p in files || p in dirs
    }

    /** `(project_path / p).is_dir()`. */
    predicate IsDir(p: Path) {
      p == [] || p in dirs
    }
  }

  /** `base / part`: `pathlib` drops an empty part and a `.` part. */
  function Child(base: Path, part: string): Path {
    if part == "" || part == "." then base else base + [part]
  }

  // ---------------------------------------------------------------- glob

  /**
   * Whether `name` matches the glob pattern `pat` (one path part): `*` matches
   * any run of characters, every other character matches itself.
   */
  predicate GlobMatch(pat: string, name: string)
    decreases |pat| + |name|
  {
    if pat == [] then name == []
    else if pat[0] == '*' then GlobMatch(pat[1..], name) || (name != [] && GlobMatch(pat, name[1..]))
    else name != [] && name[0] == pat[0] && GlobMatch(pat[1..], name[1..])
  }

  /** `d.glob(pat)` for a one-part pattern: the entries directly inside `d` whose name matches. */
  function Glob(proj: Project, d: Path, pat: string): set<Path> {
    if proj.IsDir(d) then
      set p | p in proj.files + proj.dirs && |p| == |d| + 1 && p[..|d|] == d && GlobMatch(pat, p[|d|])
    else {}
  }

  /** The entries `md.glob(pat)` finds, over every sub-directory `md` of `d`. */
  function SubdirGlob(proj: Project, d: Path, pat: string): set<Path> {
    set p | p in proj.files + proj.dirs && |p| == |d| + 2 && p[..|d|] == d && p[..|d| + 1] in proj.dirs
      && GlobMatch(pat, p[|d| + 1])
  }

  /** Every directory on the way from the project directory down to `p` (exclusive). */
  predicate Reachable(proj: Project, p: Path) {
    forall k :: 0 <= k < |p| ==> proj.IsDir(p[..k])
  }

  /** `project_path.rglob(pat)`: the entries at any depth whose name matches. */
  function RGlob(proj: Project, pat: string): set<Path> {
    set p | p in proj.files + proj.dirs && p != [] && Reachable(proj, p) && GlobMatch(pat, p[|p| - 1])
  }

  /**
   * What a pattern with directory structure contributes, once its leading
   * directory segments `segs` have been walked down to `base`: a `*` segment
   * globs `fp` in every sub-directory and ends the walk, any other segment must
   * exist, and at the end `fp` is globbed in `base`.
   */
  function Resolve(proj: Project, base: Path, segs: seq<string>, fp: string): set<Path>
    decreases |segs|
  {
    if segs == [] then
      if proj.Exists(base) then Glob(proj, base, fp) else {}
    else if segs[0] == "*" then
      if proj.IsDir(base) then SubdirGlob(proj, base, fp) else {}
    else
      var next := Child(base, segs[0]);
      if proj.Exists(next) then Resolve(proj, next, segs[1..], fp) else {}
  }

  /** The paths one pattern of `find_files_by_pattern` finds. */
  function PatternMatches(proj: Project, pattern: string): set<Path> {
    if '/' in pattern then
      var parts := Split(pattern, '/');
      Resolve(proj, [], parts[..|parts| - 1], parts[|parts| - 1])
    else
      RGlob(proj, pattern)
  }

  /** The paths any of `patterns` finds. */
  function MatchedPaths(proj: Project, patterns: seq<string>): set<Path>
    decreases |patterns|
  {
    if patterns == [] then {}
    else MatchedPaths(proj, patterns[..|patterns| - 1]) + PatternMatches(proj, patterns[|patterns| - 1])
  }

  /** A pattern containing `/` splits into at least one directory segment and the file pattern. */
  lemma SplitSlash(s: string)
    requires '/' in s
    ensures |Split(s, '/')| >= 2
  {
    var k := IndexOf(s, '/');
    assert k < |s|;
  }

  /** One pass of the loop over patterns in `find_files_by_pattern`. */
  method PatternFiles(proj: Project, pattern: string) returns (found: set<Path>)
    ensures found == PatternMatches(proj, pattern)
  {
    found := {};
    if '/' in pattern {
      var parts := Split(pattern, '/');
      SplitSlash(pattern);
      var basePattern := Join(parts[..|parts| - 1], '/');
      var filePattern := parts[|parts| - 1];
      var segs := Split(basePattern, '/');
      SplitJoin(parts[..|parts| - 1], '/');
      var base: Path := [];
      var broke := false;
      var j := 0;
      while j < |segs|
        invariant 0 <= j <= |segs|
        invariant Resolve(proj, [], segs, filePattern) == Resolve(proj, base, segs[j..], filePattern)
        invariant proj.Exists(base)
      {
        var part := segs[j];
        if part == "*" {
          if proj.IsDir(base) {
            found := SubdirGlob(proj, base, filePattern);
          }
          broke := true;
          break;
        }
        base := Child(base, part);
        if !proj.Exists(base) {
          broke := true;
          break;
        }
        j := j + 1;
      }
      if !broke && proj.Exists(base) {
        found := Glob(proj, base, filePattern);
      }
    } else {
      found := RGlob(proj, pattern);
    }
  }

  // ---------------------------------------------------------------- what a pattern can find

  /** A `*` matches every name. */
  lemma {:induction false} StarMatchesAll(name: string)
    ensures GlobMatch("*", name)
    decreases |name|
  {
    if name != [] {
      StarMatchesAll(name[1..]);
    }
  }

  /** Without `*` a pattern matches exactly the name spelled like it. */
  lemma {:induction false} GlobLiteral(pat: string, name: string)
    requires '*' !in pat
    ensures GlobMatch(pat, name) <==> name == pat
    decreases |pat|
  {
    if pat != [] {
      assert pat[0] != '*';
      GlobLiteral(pat[1..], if name == [] then [] else name[1..]);
      if name != [] && name[0] == pat[0] {
        assert name == [name[0]] + name[1..] && pat == [pat[0]] + pat[1..];
      }
    }
  }

  /** A literal followed by `*` (`.env*`, `jest.config.*`) matches the names starting with the literal. */
  lemma {:induction false} GlobPrefix(lit: string, name: string)
    requires '*' !in lit
    ensures GlobMatch(lit + "*", name) <==> StartsWith(name, lit)
    decreases |lit|
  {
    if lit == [] {
      assert lit + "*" == "*";
      StarMatchesAll(name);
    } else {
      assert (lit + "*")[0] == lit[0] && (lit + "*")[1..] == lit[1..] + "*";
      if name != [] {
        GlobPrefix(lit[1..], name[1..]);
        if name[0] == lit[0] && StartsWith(name[1..], lit[1..]) {
          assert name[..|lit|] == [name[0]] + name[1..][..|lit| - 1];
        }
      }
    }
  }

  /** `*` followed by a literal (`*.config.js`, `*.yml`) matches the names ending with the literal. */
  lemma {:induction false} GlobSuffix(lit: string, name: string)
    requires '*' !in lit
    ensures GlobMatch("*" + lit, name) <==> EndsWith(name, lit)
    decreases |name|
  {
    var pat := "*" + lit;
    assert pat[0] == '*' && pat[1..] == lit;
    GlobLiteral(lit, name);
    if name != [] {
      GlobSuffix(lit, name[1..]);
      assert EndsWith(name, lit) <==> name == lit || EndsWith(name[1..], lit) by {
        if |lit| <= |name[1..]| {
          assert name[|name| - |lit|..] == name[1..][|name[1..]| - |lit|..];
        }
      }
    }
  }

  /** A segment that names one directory: not `*`, and not one `pathlib` drops. */
  predicate Plain(seg: string) {
    seg != "*" && seg != "" && seg != "."
  }

  /**
   * Whatever a pattern finds exists, lies under the directory the walk started
   * from, is at most one level deeper than the pattern has segments, and has a
   * name the file pattern matches.
   */
  lemma {:induction false} ResolveFound(proj: Project, base: Path, segs: seq<string>, fp: string, p: Path)
    requires p in Resolve(proj, base, segs, fp)
    ensures p in proj.files + proj.dirs
    ensures |base| < |p| <= |base| + |segs| + 1 && p[..|base|] == base
    ensures GlobMatch(fp, p[|p| - 1])
    decreases |segs|
  {
    if segs != [] && segs[0] != "*" {
      var next := Child(base, segs[0]);
      ResolveFound(proj, next, segs[1..], fp, p);
      assert p[..|base|] == p[..|next|][..|base|];
    }
  }

  /** A pattern whose directory segments are all plain finds only paths spelled by those segments. */
  lemma {:induction false} ResolveLiteral(proj: Project, base: Path, segs: seq<string>, fp: string, p: Path)
    requires forall k :: 0 <= k < |segs| ==> Plain(segs[k])
    requires p in Resolve(proj, base, segs, fp)
    ensures |p| == |base| + |segs| + 1 && p[..|p| - 1] == base + segs
    decreases |segs|
  {
    if segs != [] {
      assert Plain(segs[0]);
      var next := base + [segs[0]];
      ResolveLiteral(proj, next, segs[1..], fp, p);
      assert base + segs == next + segs[1..];
    }
  }

  /** If the directory named by the plain segments `segs[..k + 1]` does not exist, the pattern finds nothing. */
  lemma {:induction false} ResolveMissing(proj: Project, base: Path, segs: seq<string>, fp: string, k: nat)
    requires k < |segs| && forall m :: 0 <= m <= k ==> Plain(segs[m])
    requires !proj.Exists(base + segs[..k + 1])
    ensures Resolve(proj, base, segs, fp) == {}
    decreases |segs|
  {
    assert Plain(segs[0]);
    var next := base + [segs[0]];
    if k > 0 {
      assert next + segs[1..][..k] == base + segs[..k + 1];
      if proj.Exists(next) {
        ResolveMissing(proj, next, segs[1..], fp, k - 1);
      }
    } else {
      assert next == base + segs[..1];
    }
  }

  /** Segments after the first `*` segment are never looked at: the walk ends there. */
  lemma {:induction false} ResolveStopsAtStar(proj: Project, base: Path, segs: seq<string>, fp: string, k: nat)
    requires k < |segs| && segs[k] == "*" && forall m :: 0 <= m < k ==> segs[m] != "*"
    ensures Resolve(proj, base, segs, fp) == Resolve(proj, base, segs[..k + 1], fp)
    decreases |segs|
  {
    if k > 0 {
      assert segs[..k + 1][0] == segs[0] && segs[..k + 1][1..] == segs[1..][..k];
      ResolveStopsAtStar(proj, Child(base, segs[0]), segs[1..], fp, k - 1);
    }
  }

  /** `**` is an ordinary segment here: in a project with no entry named `**`, a pattern reaching one finds nothing. */
  lemma DoubleStarIsLiteral(proj: Project, segs: seq<string>, fp: string, k: nat)
    requires forall p :: p in proj.files + proj.dirs ==> "**" !in p
    requires k < |segs| && segs[k] == "**" && forall m :: 0 <= m < k ==> Plain(segs[m])
    ensures Resolve(proj, [], segs, fp) == {}
  {
    var q := segs[..k + 1];
    assert q[k] == "**" && [] + q == q;
    assert "**" in q && q !in proj.files + proj.dirs;
    ResolveMissing(proj, [], segs, fp, k);
  }

  /** A path belongs to `MatchedPaths` exactly when one of the patterns finds it. */
  lemma {:induction false} MatchedPathsAny(proj: Project, patterns: seq<string>, p: Path)
    ensures p in MatchedPaths(proj, patterns) <==> exists i :: 0 <= i < |patterns| && p in PatternMatches(proj, patterns[i])
    decreases |patterns|
  {
    if patterns != [] {
      var init := patterns[..|patterns| - 1];
      MatchedPathsAny(proj, init, p);
      if (exists i :: 0 <= i < |patterns| && p in PatternMatches(proj, patterns[i])) {
        var i :| 0 <= i < |patterns| && p in PatternMatches(proj, patterns[i]);
        if i < |init| {
          assert init[i] == patterns[i];
        }
      }
      if (exists i :: 0 <= i < |init| && p in PatternMatches(proj, init[i])) {
        var i :| 0 <= i < |init| && p in PatternMatches(proj, init[i]);
        assert patterns[i] == init[i];
      }
    }
  }

  /** `find_files_by_pattern`: every path some pattern finds, once each, in path order. */
  method FindFilesByPattern(proj: Project, patterns: seq<string>) returns (r: seq<Path>)
    ensures StrictlySorted(r, PathLess)
    ensures forall p :: p in r <==> p in MatchedPaths(proj, patterns)
  {
    var found: set<Path> := {};
    for i := 0 to |patterns|
      invariant found == MatchedPaths(proj, patterns[..i])
    {
      var more := PatternFiles(proj, patterns[i]);
      assert patterns[..i + 1][..i] == patterns[..i];
      found := found + more;
    }
    assert patterns[..|patterns|] == patterns;
    PathLessStrictTotal();
    r := SortedSeqOf(found, PathLess);
  }

  // ---------------------------------------------------------------- keyed tables

  /** A row of a pattern table: the key the results go under, and its patterns. */
  type Row = (string, seq<string>)

  /** `ENTRY_POINT_PATTERNS`: per category, per sub-category, the patterns. */
  const EntryPointPatterns: seq<(string, seq<Row>)> := [
    ("Python", [
      ("main", ["main.py", "app.py", "run.py", "server.py", "wsgi.py", "__main__.py"]),
      ("cli", ["cli.py"])]),
    ("JavaScript/TypeScript", [
      ("main", ["index.js", "index.ts", "main.js", "main.ts", "app.js", "app.ts"]),
      ("server", ["server.js", "server.ts"]),
      ("cli", ["cli.js", "cli.ts"])]),
    ("React", [
      ("root", ["App.jsx", "App.tsx", "index.jsx", "index.tsx"]),
      ("entry", ["src/index.js", "src/index.tsx", "src/main.jsx", "src/main.tsx"])]),
    ("Vue", [
      ("root", ["App.vue", "main.js", "main.ts"]),
      ("entry", ["src/main.js", "src/main.ts"])]),
    ("Next.js", [
      ("pages", ["pages/index.js", "pages/index.tsx", "pages/_app.js", "pages/_app.tsx"]),
      ("app", ["app/page.js", "app/page.tsx", "app/layout.js", "app/layout.tsx"])]),
    ("Nuxt", [
      ("pages", ["pages/index.vue"]),
      ("app", ["app.vue"])]),
    ("Go", [
      ("main", ["main.go", "cmd/*/main.go"])]),
    ("Rust", [
      ("main", ["main.rs", "src/main.rs"])]),
    ("Java", [
      ("main", ["src/main/java/*/Main.java", "src/main/java/*/Application.java"])])
  ]

  /** `CONFIG_PATTERNS`: per category, the patterns. */
  const ConfigPatterns: seq<Row> := [
    ("General", [".env*", "*.config.js", "*.config.ts"]),
    ("JavaScript/TypeScript", ["tsconfig.json", "jsconfig.json", ".eslintrc*", ".prettierrc*"]),
    ("Python", ["setup.py", "pyproject.toml", "pytest.ini", "tox.ini", ".flake8"]),
    ("Go", ["go.mod", "go.sum"]),
    ("Rust", ["Cargo.toml", "Cargo.lock"]),
    ("Java", ["pom.xml", "build.gradle", "application.properties", "application.yml"]),
    ("Testing", ["jest.config.*", "vitest.config.*", "cypress.config.*", "playwright.config.*"]),
    ("Docker", ["Dockerfile", "docker-compose.yml", "docker-compose.yaml"]),
    ("CI/CD", [".gitlab-ci.yml", ".github/workflows/*.yml", ".travis.yml", "circleci"])
  ]

  /** The route file patterns of `find_routes`. */
  const RoutePatterns: seq<string> := [
    "routes.py", "urls.py", "views.py", "app/routes.py",
    "routes.js", "routes.ts", "router.js", "router.ts",
    "pages/**/*.js", "pages/**/*.tsx", "app/**/page.js", "app/**/page.tsx",
    "pages/**/*.vue",
    "**/routes.js", "**/routes.tsx",
    "router/*.js", "router/*.ts"
  ]

  /** The dictionary key of a sub-category: `"{category} - {subcategory}"`. */
  function EntryKey(category: string, subcategory: string): string {
    category + " - " + subcategory
  }

  /** The sub-category rows of one category, keyed by `EntryKey`. */
  function KeyedRows(category: string, subs: seq<Row>): (r: seq<Row>)
    ensures |r| == |subs|
    ensures forall k :: 0 <= k < |subs| ==> r[k] == (EntryKey(category, subs[k].0), subs[k].1)
  {
    seq(|subs|, k requires 0 <= k < |subs| => (EntryKey(category, subs[k].0), subs[k].1))
  }

  /** The two-level table read row by row, in order. */
  function EntryRows(table: seq<(string, seq<Row>)>): seq<Row>
    decreases |table|
  {
    if table == [] then []
    else EntryRows(table[..|table| - 1]) + KeyedRows(table[|table| - 1].0, table[|table| - 1].1)
  }

  /**
   * The dictionary a finder builds from `rows`, as (key, paths found) pairs in
   * insertion order: a row whose patterns find nothing leaves no key.
   */
  function Expected(proj: Project, rows: seq<Row>): seq<(string, set<Path>)>
    decreases |rows|
  {
    if rows == [] then []
    else
      var last := rows[|rows| - 1];
      var m := MatchedPaths(proj, last.1);
      Expected(proj, rows[..|rows| - 1]) + (if m == {} then [] else [(last.0, m)])
  }

  /** `r` lists the entries of `e` in order, each set of paths as a strictly sorted list. */
  ghost predicate Lists(r: seq<(string, seq<Path>)>, e: seq<(string, set<Path>)>) {
    |r| == |e| &&
    forall j :: 0 <= j < |r| ==>
      r[j].0 == e[j].0 && StrictlySorted(r[j].1, PathLess) && forall p :: p in r[j].1 <==> p in e[j].1
  }

  /** One more row of `find_entry_points` or `find_config_files`: the key goes in when its list is non-empty. */
  lemma ListsStep(proj: Project, r: seq<(string, seq<Path>)>, rows: seq<Row>, i: nat, found: seq<Path>)
    requires i < |rows| && Lists(r, Expected(proj, rows[..i]))
    requires StrictlySorted(found, PathLess) && forall p :: p in found <==> p in MatchedPaths(proj, rows[i].1)
    ensures Lists(if found != [] then r + [(rows[i].0, found)] else r, Expected(proj, rows[..i + 1]))
  {
    assert rows[..i + 1][..i] == rows[..i] && rows[..i + 1][i] == rows[i];
    if found == [] {
      assert MatchedPaths(proj, rows[i].1) == {};
    } else {
      assert found[0] in MatchedPaths(proj, rows[i].1);
    }
  }

  /** Every key of the dictionary comes from a row whose patterns found something, and holds what they found. */
  lemma {:induction false} ExpectedSound(proj: Project, rows: seq<Row>, j: nat)
    requires j < |Expected(proj, rows)|
    ensures Expected(proj, rows)[j].1 != {}
    ensures exists i :: 0 <= i < |rows| && Expected(proj, rows)[j] == (rows[i].0, MatchedPaths(proj, rows[i].1))
    decreases |rows|
  {
    var init := rows[..|rows| - 1];
    var e0 := Expected(proj, init);
    if j < |e0| {
      ExpectedSound(proj, init, j);
      var i :| 0 <= i < |init| && e0[j] == (init[i].0, MatchedPaths(proj, init[i].1));
      assert rows[i] == init[i];
    } else {
      assert Expected(proj, rows)[j] == (rows[|rows| - 1].0, MatchedPaths(proj, rows[|rows| - 1].1));
    }
  }

  /** Every row whose patterns find something puts its key, with what they found, in the dictionary. */
  lemma {:induction false} ExpectedComplete(proj: Project, rows: seq<Row>, i: nat)
    requires i < |rows| && MatchedPaths(proj, rows[i].1) != {}
    ensures exists j :: 0 <= j < |Expected(proj, rows)| && Expected(proj, rows)[j] == (rows[i].0, MatchedPaths(proj, rows[i].1))
    decreases |rows|
  {
    var init := rows[..|rows| - 1];
    var e0 := Expected(proj, init);
    if i < |init| {
      ExpectedComplete(proj, init, i);
      assert rows[i] == init[i];
      var j :| 0 <= j < |e0| && e0[j] == (init[i].0, MatchedPaths(proj, init[i].1));
      assert Expected(proj, rows)[j] == e0[j];
    } else {
      assert Expected(proj, rows)[|e0|] == (rows[i].0, MatchedPaths(proj, rows[i].1));
    }
  }

  /** The dictionary of one-level table: `find_config_files` over `rows`. */
  method FindGroups(proj: Project, rows: seq<Row>) returns (r: seq<(string, seq<Path>)>)
    ensures Lists(r, Expected(proj, rows))
  {
    r := [];
    for i := 0 to |rows|
      invariant Lists(r, Expected(proj, rows[..i]))
    {
      r := AddGroup(proj, r, rows, i, rows[i].0, rows[i].1);
    }
    assert rows[..|rows|] == rows;
  }

  /** One row of either table: its patterns are searched and the key goes in when they find something. */
  method AddGroup(proj: Project, r0: seq<(string, seq<Path>)>, ghost rows: seq<Row>, ghost i: nat, key: string, patterns: seq<string>)
    returns (r: seq<(string, seq<Path>)>)
    requires i < |rows| && rows[i] == (key, patterns) && Lists(r0, Expected(proj, rows[..i]))
    ensures Lists(r, Expected(proj, rows[..i + 1]))
  {
    var found := FindFilesByPattern(proj, patterns);
    ListsStep(proj, r0, rows, i, found);
    r := r0;
    if found != [] {
      r := r + [(key, found)];
    }
  }

  /** `find_config_files`. */
  method FindConfigFiles(proj: Project) returns (r: seq<(string, seq<Path>)>)
    ensures Lists(r, Expected(proj, ConfigPatterns))
  {
    r := FindGroups(proj, ConfigPatterns);
  }

  /** The inner loop of `find_entry_points`: the sub-categories of one category, added to `r0`. */
  method FindCategory(proj: Project, r0: seq<(string, seq<Path>)>, ghost done: seq<Row>, category: string, subs: seq<Row>)
    returns (r: seq<(string, seq<Path>)>)
    requires Lists(r0, Expected(proj, done))
    ensures Lists(r, Expected(proj, done + KeyedRows(category, subs)))
  {
    r := r0;
    ghost var all := done + KeyedRows(category, subs);
    ghost var n := |done|;
    assert all[..n] == done;
    for k := 0 to |subs|
      invariant n == |done| + k
      invariant Lists(r, Expected(proj, all[..n]))
    {
      var key := EntryKey(category, subs[k].0);
      assert all[n] == (key, subs[k].1);
      r := AddGroup(proj, r, all, n, key, subs[k].1);
      n := n + 1;
    }
    assert all[..n] == all;
  }

  /** `find_entry_points` over a two-level table. */
  method FindEntryPointsIn(proj: Project, table: seq<(string, seq<Row>)>) returns (r: seq<(string, seq<Path>)>)
    ensures Lists(r, Expected(proj, EntryRows(table)))
  {
    r := [];
    for i := 0 to |table|
      invariant Lists(r, Expected(proj, EntryRows(table[..i])))
    {
      r := FindCategory(proj, r, EntryRows(table[..i]), table[i].0, table[i].1);
      assert table[..i + 1][..i] == table[..i];
    }
    assert table[..|table|] == table;
  }

  /** `find_entry_points`. */
  method FindEntryPoints(proj: Project) returns (r: seq<(string, seq<Path>)>)
    ensures Lists(r, Expected(proj, EntryRows(EntryPointPatterns)))
  {
    r := FindEntryPointsIn(proj, EntryPointPatterns);
  }

  /** `find_routes` over a list of route patterns: one key, present exactly when some pattern finds a path. */
  method FindRoutesIn(proj: Project, patterns: seq<string>) returns (r: seq<(string, seq<Path>)>)
    ensures r != [] <==> MatchedPaths(proj, patterns) != {}
    ensures r != [] ==>
      |r| == 1 && r[0].0 == "Route definitions" && StrictlySorted(r[0].1, PathLess) &&
      forall p :: p in r[0].1 <==> p in MatchedPaths(proj, patterns)
  {
    var found := FindFilesByPattern(proj, patterns);
    r := [];
    if found != [] {
      r := [("Route definitions", found)];
      assert found[0] in MatchedPaths(proj, patterns);
    } else {
      assert MatchedPaths(proj, patterns) == {};
    }
  }

  /** `find_routes`. */
  method FindRoutes(proj: Project) returns (r: seq<(string, seq<Path>)>)
    ensures r != [] <==> MatchedPaths(proj, RoutePatterns) != {}
    ensures r != [] ==>
      |r| == 1 && r[0].0 == "Route definitions" && StrictlySorted(r[0].1, PathLess) &&
      forall p :: p in r[0].1 <==> p in MatchedPaths(proj, RoutePatterns)
  {
    r := FindRoutesIn(proj, RoutePatterns);
  }

  // ---------------------------------------------------------------- API endpoints

  /** One endpoint record: `{'method': ..., 'path': ..., 'source': ...}`. */
  datatype Endpoint = Endpoint(httpMethod: string, path: string, source: string)

  /**
   * One item of `re.findall`'s result: the text of the single group of a
   * pattern with at most one group, or the tuple of groups of a pattern with several.
   */
  datatype Capture = Text(text: string) | Tuple(groups: seq<string>)

  /** The Flask, Django and FastAPI patterns, tried first. */
  const PythonPatterns: seq<string> := [
    @"@app\.route\([\'""]([^\'""]+)[\'""]",
    @"@bp\.route\([\'""]([^\'""]+)[\'""]",
    @"@router\.(get|post|put|delete|patch)\([\'""]([^\'""]+)[\'""]",
    @"@api\.(get|post|put|delete|patch)\([\'""]([^\'""]+)[\'""]",
    @"path\([\'""]([^\'""]+)[\'""]",
    @"url\(r[\'""]([^\'""]+)[\'""]"
  ]

  /** The Express patterns, tried after the Python ones. */
  const JsPatterns: seq<string> := [
    @"app\.(get|post|put|delete|patch)\([\'""]([^\'""]+)[\'""]",
    @"router\.(get|post|put|delete|patch)\([\'""]([^\'""]+)[\'""]"
  ]

  /**
   * The record a capture yields, or `None` where building it raises (an index
   * past the end of the capture, or no `source` to give it): the exception ends
   * the scan, and `find_api_endpoints` returns what it had collected.
   * A Python-pattern capture gives a `GET` on its second group (its only group
   * when it has one); an Express capture gives the upper-cased first group as
   * the method and the second as the path.
   */
  function Attempt(c: Capture, js: bool, source: Option<string>): Option<Endpoint> {
    var route: Option<(string, string)> :=
      if js then
        match c
        case Tuple(g) => if |g| >= 2 then Some((Upper(g[0]), g[1])) else None
        case Text(t) => if |t| >= 2 then Some((Upper(t[..1]), t[1..2])) else None
      else
        match c
        case Tuple(g) => if |g| > 1 then Some(("GET", g[1])) else if |g| == 1 then Some(("GET", g[0])) else None
        case Text(t) => Some(("GET", t));
    if route.Some? && source.Some? then Some(Endpoint(route.value.0, route.value.1, source.value)) else None
  }

  /**
   * What a record of the pattern group `js` looks like: it carries the file's
   * display name; a Python pattern's record is a `GET`, an Express pattern's
   * method has no lower-case letter.
   */
  ghost predicate RecordOf(e: Endpoint, js: bool, source: Option<string>) {
    source == Some(e.source) &&
    (!js ==> e.httpMethod == "GET") &&
    (js ==> forall i :: 0 <= i < |e.httpMethod| ==> !('a' <= e.httpMethod[i] <= 'z'))
  }

  /** The attempts for the captures of one pattern, in order. */
  function Tries(caps: seq<Capture>, js: bool, source: Option<string>): seq<Option<Endpoint>> {
    seq(|caps|, k requires 0 <= k < |caps| => Attempt(caps[k], js, source))
  }

  /** The attempts for every pattern of `pats` over `content`, pattern by pattern. */
  function PatTries(findall: (string, string) -> seq<Capture>, pats: seq<string>, content: string, js: bool, source: Option<string>)
    : seq<Option<Endpoint>>
    decreases |pats|
  {
    if pats == [] then []
    else PatTries(findall, pats[..|pats| - 1], content, js, source) + Tries(findall(pats[|pats| - 1], content), js, source)
  }

  /** The records of the attempts before the first one that raises. */
  function UntilFailure(xs: seq<Option<Endpoint>>): seq<Endpoint>
    decreases |xs|
  {
    if xs == [] || xs[0].None? then [] else [xs[0].value] + UntilFailure(xs[1..])
  }

  /**
   * `find_api_endpoints`: the Python patterns' records, then the Express
   * patterns', up to the first failure; nothing when the file cannot be read.
   * `findall` stands for `re.findall`.
   */
  function ApiEndpoints(findall: (string, string) -> seq<Capture>, content: Option<string>, source: Option<string>): seq<Endpoint> {
    if content.None? then []
    else UntilFailure(PatTries(findall, PythonPatterns, content.value, false, source) + PatTries(findall, JsPatterns, content.value, true, source))
  }

  predicate AllSome(xs: seq<Option<Endpoint>>) {
    forall k :: 0 <= k < |xs| ==> xs[k].Some?
  }

  /** The attempts of a prefix of the patterns come first. */
  lemma {:induction false} PatTriesPrefix(findall: (string, string) -> seq<Capture>, pats: seq<string>, content: string, js: bool,
                                          source: Option<string>, i: nat)
    requires i <= |pats|
    ensures PatTries(findall, pats[..i], content, js, source) <= PatTries(findall, pats, content, js, source)
    decreases |pats|
  {
    if i < |pats| {
      PatTriesPrefix(findall, pats[..|pats| - 1], content, js, source, i);
      assert pats[..|pats| - 1][..i] == pats[..i];
    } else {
      assert pats[..i] == pats;
    }
  }

  /** With no failure among `xs`, the scan goes on past them. */
  lemma {:induction false} UntilFailureAppend(xs: seq<Option<Endpoint>>, ys: seq<Option<Endpoint>>)
    requires AllSome(xs)
    ensures UntilFailure(xs + ys) == UntilFailure(xs) + UntilFailure(ys)
    ensures |UntilFailure(xs)| == |xs|
    decreases |xs|
  {
    if xs != [] {
      assert (xs + ys)[0] == xs[0] && (xs + ys)[1..] == xs[1..] + ys;
      UntilFailureAppend(xs[1..], ys);
    } else {
      assert xs + ys == ys;
    }
  }

  /** A failure among `xs` hides everything after `xs`. */
  lemma {:induction false} FailureHides(xs: seq<Option<Endpoint>>, ys: seq<Option<Endpoint>>)
    requires !AllSome(xs)
    ensures UntilFailure(xs + ys) == UntilFailure(xs)
    ensures !AllSome(xs + ys)
    decreases |xs|
  {
    var k :| 0 <= k < |xs| && xs[k].None?;
    assert (xs + ys)[k] == xs[k];
    if xs[0].Some? {
      assert (xs + ys)[0] == xs[0] && (xs + ys)[1..] == xs[1..] + ys;
      assert xs[1..][k - 1] == xs[k];
      FailureHides(xs[1..], ys);
    }
  }

  /** One successful attempt more. */
  lemma TriedOne(done: seq<Option<Endpoint>>, e: Endpoint)
    requires AllSome(done)
    ensures AllSome(done + [Some(e)]) && UntilFailure(done + [Some(e)]) == UntilFailure(done) + [e]
  {
    UntilFailureAppend(done, [Some(e)]);
    assert [Some(e)][1..] == [];
  }

  /** The record of a Python-pattern capture, computed as `find_api_endpoints` does it. */
  method PythonRecord(m: Capture, source: Option<string>) returns (o: Option<Endpoint>)
    ensures o == Attempt(m, false, source)
  {
    var endpoint: string;
    if m.Tuple? {
      if |m.groups| > 1 {
        endpoint := m.groups[1];
      } else if |m.groups| == 1 {
        endpoint := m.groups[0];
      } else {
        return None;
      }
    } else {
      endpoint := m.text;
    }
    if source.None? {
      return None;
    }
    o := Some(Endpoint("GET", endpoint, source.value));
  }

  /** The record of an Express-pattern capture: `match[0].upper()` and `match[1]`. */
  method JsRecord(m: Capture, source: Option<string>) returns (o: Option<Endpoint>)
    ensures o == Attempt(m, true, source)
  {
    var first, second: string;
    if m.Tuple? {
      if |m.groups| < 2 {
        return None;
      }
      first, second := m.groups[0], m.groups[1];
    } else {
      if |m.text| < 2 {
        return None;
      }
      first, second := m.text[..1], m.text[1..2];
    }
    if source.None? {
      return None;
    }
    o := Some(Endpoint(Upper(first), second, source.value));
  }

  /**
   * The loop over one pattern's matches: a record per capture appended to
   * `endpoints`, until a capture whose record raises.
   */
  method ScanCaptures(caps: seq<Capture>, js: bool, source: Option<string>, endpoints0: seq<Endpoint>)
    returns (endpoints: seq<Endpoint>, failed: bool)
    ensures failed <==> !AllSome(Tries(caps, js, source))
    ensures endpoints == endpoints0 + UntilFailure(Tries(caps, js, source))
  {
    endpoints, failed := endpoints0, false;
    for k := 0 to |caps|
      invariant !failed
      invariant AllSome(Tries(caps[..k], js, source))
      invariant endpoints == endpoints0 + UntilFailure(Tries(caps[..k], js, source))
    {
      var o;
      if js {
        o := JsRecord(caps[k], source);
      } else {
        o := PythonRecord(caps[k], source);
      }
      CaptureStep(caps, js, source, k);
      if o.None? {
        failed := true;
        CaptureFails(caps, js, source, k);
        return;
      }
      TriedOne(Tries(caps[..k], js, source), o.value);
      endpoints := endpoints + [o.value];
    }
    assert caps[..|caps|] == caps;
  }

  /** The attempts for the first `k + 1` captures. */
  lemma CaptureStep(caps: seq<Capture>, js: bool, source: Option<string>, k: nat)
    requires k < |caps|
    ensures Tries(caps[..k + 1], js, source) == Tries(caps[..k], js, source) + [Attempt(caps[k], js, source)]
  {
    assert caps[..k + 1][..k] == caps[..k];
  }

  /** A capture whose record raises ends the scan of its pattern's captures with what came before. */
  lemma CaptureFails(caps: seq<Capture>, js: bool, source: Option<string>, k: nat)
    requires k < |caps| && Attempt(caps[k], js, source).None?
    requires AllSome(Tries(caps[..k], js, source))
    ensures !AllSome(Tries(caps, js, source))
    ensures UntilFailure(Tries(caps, js, source)) == UntilFailure(Tries(caps[..k], js, source))
  {
    var all := Tries(caps, js, source);
    var done := Tries(caps[..k], js, source);
    assert all[..k] == done && all[k].None?;
    assert all == done + all[k..] && all[k..][0] == all[k];
    assert UntilFailure(all[k..]) == [];
    UntilFailureAppend(done, all[k..]);
  }

  /** The attempts for the first `i + 1` patterns. */
  lemma PatternStep(findall: (string, string) -> seq<Capture>, pats: seq<string>, content: string, js: bool, source: Option<string>, i: nat)
    requires i < |pats|
    ensures PatTries(findall, pats[..i + 1], content, js, source) ==
      PatTries(findall, pats[..i], content, js, source) + Tries(findall(pats[i], content), js, source)
  {
    assert pats[..i + 1][..i] == pats[..i];
  }

  /** A capture of pattern `i` whose record raises ends the scan of all of `pats`. */
  lemma PatternFails(findall: (string, string) -> seq<Capture>, pats: seq<string>, content: string, js: bool, source: Option<string>, i: nat)
    requires i < |pats|
    requires AllSome(PatTries(findall, pats[..i], content, js, source))
    requires !AllSome(Tries(findall(pats[i], content), js, source))
    ensures !AllSome(PatTries(findall, pats, content, js, source))
    ensures UntilFailure(PatTries(findall, pats, content, js, source)) ==
      UntilFailure(PatTries(findall, pats[..i], content, js, source)) + UntilFailure(Tries(findall(pats[i], content), js, source))
  {
    var done, tries := PatTries(findall, pats[..i], content, js, source), Tries(findall(pats[i], content), js, source);
    var all := PatTries(findall, pats, content, js, source);
    PatternStep(findall, pats, content, js, source, i);
    PatTriesPrefix(findall, pats, content, js, source, i + 1);
    var upto := done + tries;
    var rest := all[|upto|..];
    assert all == upto + rest;
    AllSomeSplit(done, tries);
    FailureHides(upto, rest);
    UntilFailureAppend(done, tries);
  }

  /** A pattern whose captures all yield records: the scan goes on to the next pattern. */
  lemma PatternGoesOn(findall: (string, string) -> seq<Capture>, pats: seq<string>, content: string, js: bool, source: Option<string>,
                      i: nat, done: seq<Option<Endpoint>>, tries: seq<Option<Endpoint>>)
    requires i < |pats| && done == PatTries(findall, pats[..i], content, js, source)
    requires tries == Tries(findall(pats[i], content), js, source)
    requires AllSome(done) && AllSome(tries)
    ensures PatTries(findall, pats[..i + 1], content, js, source) == done + tries
    ensures AllSome(done + tries) && UntilFailure(done + tries) == UntilFailure(done) + UntilFailure(tries)
  {
    PatternStep(findall, pats, content, js, source, i);
    UntilFailureAppend(done, tries);
    AllSomeSplit(done, tries);
  }

  /**
   * The loop over one group of patterns: each pattern's captures scanned in
   * turn, and nothing more once one of them raises.
   */
  method ScanPatterns(findall: (string, string) -> seq<Capture>, pats: seq<string>, content: string, js: bool, source: Option<string>,
                      endpoints0: seq<Endpoint>)
    returns (endpoints: seq<Endpoint>, failed: bool)
    ensures failed <==> !AllSome(PatTries(findall, pats, content, js, source))
    ensures endpoints == endpoints0 + UntilFailure(PatTries(findall, pats, content, js, source))
  {
    endpoints, failed := endpoints0, false;
    ghost var done: seq<Option<Endpoint>> := [];
    for i := 0 to |pats|
      invariant !failed
      invariant done == PatTries(findall, pats[..i], content, js, source)
      invariant AllSome(done) && endpoints == endpoints0 + UntilFailure(done)
    {
      var matches := findall(pats[i], content);
      ghost var tries := Tries(matches, js, source);
      ghost var before := endpoints;
      endpoints, failed := ScanCaptures(matches, js, source, endpoints);
      assert endpoints == endpoints0 + (UntilFailure(done) + UntilFailure(tries)) by {
        assert endpoints == before + UntilFailure(tries);
        assert before == endpoints0 + UntilFailure(done);
      }
      if failed {
        PatternFails(findall, pats, content, js, source, i);
        return;
      }
      PatternGoesOn(findall, pats, content, js, source, i, done, tries);
      done := done + tries;
    }
    assert pats[..|pats|] == pats;
  }

  lemma AllSomeSplit(xs: seq<Option<Endpoint>>, ys: seq<Option<Endpoint>>)
    ensures AllSome(xs + ys) <==> AllSome(xs) && AllSome(ys)
  {
    if AllSome(xs) && AllSome(ys) {
      forall k | 0 <= k < |xs + ys| ensures (xs + ys)[k].Some? {
        if k >= |xs| {
          assert (xs + ys)[k] == ys[k - |xs|];
        }
      }
    }
    if AllSome(xs + ys) {
      forall k | 0 <= k < |ys| ensures ys[k].Some? {
        assert (xs + ys)[|xs| + k] == ys[k];
      }
      forall k | 0 <= k < |xs| ensures xs[k].Some? {
        assert (xs + ys)[k] == xs[k];
      }
    }
  }

  /** `find_api_endpoints` on a file's content (`None` when opening it raises) and its display name. */
  method FindApiEndpoints(findall: (string, string) -> seq<Capture>, content: Option<string>, source: Option<string>)
    returns (endpoints: seq<Endpoint>)
    ensures endpoints == ApiEndpoints(findall, content, source)
  {
    endpoints := [];
    if content.None? {
      return;
    }
    ghost var py := PatTries(findall, PythonPatterns, content.value, false, source);
    ghost var js := PatTries(findall, JsPatterns, content.value, true, source);
    var failed;
    endpoints, failed := ScanPatterns(findall, PythonPatterns, content.value, false, source, []);
    if failed {
      // the exception skips the Express patterns
      FailureHides(py, js);
      return;
    }
    endpoints, failed := ScanPatterns(findall, JsPatterns, content.value, true, source, endpoints);
    UntilFailureAppend(py, js);
  }

  /** Every record the scan of a pattern group keeps has that group's shape. */
  lemma {:induction false} ScanRecords(findall: (string, string) -> seq<Capture>, pats: seq<string>, content: string, js: bool,
                                       source: Option<string>)
    ensures forall e :: e in UntilFailure(PatTries(findall, pats, content, js, source)) ==> RecordOf(e, js, source)
  {
    var xs := PatTries(findall, pats, content, js, source);
    PatTriesRecords(findall, pats, content, js, source);
    forall e | e in UntilFailure(xs) ensures RecordOf(e, js, source) {
      UntilFailureFrom(xs, e);
    }
  }

  lemma {:induction false} PatTriesRecords(findall: (string, string) -> seq<Capture>, pats: seq<string>, content: string, js: bool,
                                           source: Option<string>)
    ensures forall o :: o in PatTries(findall, pats, content, js, source) && o.Some? ==> RecordOf(o.value, js, source)
    decreases |pats|
  {
    if pats != [] {
      PatTriesRecords(findall, pats[..|pats| - 1], content, js, source);
      var caps := findall(pats[|pats| - 1], content);
      forall o | o in Tries(caps, js, source) && o.Some? ensures RecordOf(o.value, js, source) {
        var k :| 0 <= k < |caps| && o == Attempt(caps[k], js, source);
      }
    }
  }

  /** A kept record is one of the attempts. */
  lemma {:induction false} UntilFailureFrom(xs: seq<Option<Endpoint>>, e: Endpoint)
    requires e in UntilFailure(xs)
    ensures Some(e) in xs
    decreases |xs|
  {
    if e != xs[0].value {
      UntilFailureFrom(xs[1..], e);
    }
  }

  /**
   * `find_api_endpoints` keeps the Python patterns' records first; the Express
   * patterns' records follow only when no Python capture raised.
   */
  lemma ApiEndpointsParts(findall: (string, string) -> seq<Capture>, content: string, source: Option<string>)
    ensures var py := PatTries(findall, PythonPatterns, content, false, source);
      var js := PatTries(findall, JsPatterns, content, true, source);
      ApiEndpoints(findall, Some(content), source) == UntilFailure(py) + (if AllSome(py) then UntilFailure(js) else [])
  {
    var py := PatTries(findall, PythonPatterns, content, false, source);
    var js := PatTries(findall, JsPatterns, content, true, source);
    if AllSome(py) {
      UntilFailureAppend(py, js);
    } else {
      FailureHides(py, js);
      assert UntilFailure(py) + [] == UntilFailure(py);
    }
  }

  // ---------------------------------------------------------------- analyze_routes

  /** Python's `s[:n]`. */
  function Take<T>(s: seq<T>, n: nat): (r: seq<T>)
    ensures |r| <= n && r <= s
    ensures |s| <= n ==> r == s
    ensures |r| == if |s| <= n then |s| else n
  {
    if |s| <= n then s else s[..n]
  }

  /** The endpoints of `files`, file after file; `contentOf` and `sourceOf` stand for reading a file and naming it. */
  function RouteEndpoints(findall: (string, string) -> seq<Capture>, contentOf: Path -> Option<string>, sourceOf: Path -> Option<string>,
                          files: seq<Path>): seq<Endpoint>
    decreases |files|
  {
    if files == [] then []
    else
      var last := files[|files| - 1];
      RouteEndpoints(findall, contentOf, sourceOf, files[..|files| - 1]) + ApiEndpoints(findall, contentOf(last), sourceOf(last))
  }

  /**
   * `analyze_routes`: the endpoints of the first ten route files, counted in
   * `total`, of which the first twenty are returned.
   */
  method AnalyzeRoutes(findall: (string, string) -> seq<Capture>, contentOf: Path -> Option<string>, sourceOf: Path -> Option<string>,
                       routeFiles: seq<Path>)
    returns (total: nat, endpoints: seq<Endpoint>)
    ensures total == |RouteEndpoints(findall, contentOf, sourceOf, Take(routeFiles, 10))|
    ensures endpoints == Take(RouteEndpoints(findall, contentOf, sourceOf, Take(routeFiles, 10)), 20)
    ensures |endpoints| <= 20 && |endpoints| <= total
  {
    var files := Take(routeFiles, 10);
    var all: seq<Endpoint> := [];
    for i := 0 to |files|
      invariant all == RouteEndpoints(findall, contentOf, sourceOf, files[..i])
    {
      var fileEndpoints := FindApiEndpoints(findall, contentOf(files[i]), sourceOf(files[i]));
      all := all + fileEndpoints;
      assert files[..i + 1][..i] == files[..i];
    }
    assert files[..|files|] == files;
    total := |all|;
    endpoints := Take(all, 20);
  }
}

=== FILE: filesystem.dfy ===
/**
 * The directory tree the scripts read through `pathlib` and `os.walk`, as an
 * immutable value: a file with the number of lines `count_lines` would report,
 * a readable directory with its entries in the order the operating system lists
 * them, or a directory whose listing raises `PermissionError`.
 */
module FileSystem {
  import opened Strings

  datatype FsEntry =
    | FsFile(name: string, lineCount: nat)
    | FsDir(name: string, entries: seq<FsEntry>)
    | FsUnreadable(name: string)
  {
    /** `Path.is_dir()`. */
    predicate IsDir() {
      !FsFile?
    }
  }

  /**
   * `Path(name).suffix.lstrip('.').lower()`: the lower-cased text after the last dot,
   * provided that dot is neither the first nor the last character of the name.
   */
  function Extension(name: string): (ext: string)
    ensures '.' !in ext
    ensures ext != [] ==>
      && |ext| + 1 < |name|
      && name[|name| - |ext| - 1] == '.'
      && ext == Lower(name[|name| - |ext|..])
    ensures ext == [] ==>
      var i := LastIndexOf(name, '.'); i <= 0 || i == |name| - 1
  {
    var i := LastIndexOf(name, '.');
    if 0 < i < |name| - 1 then
      Lower(name[i + 1..])
    else []
  }

  /** `Path(path).name`: the text after the last `/`. */
  function BaseName(path: string): (r: string)
    ensures '/' !in r
    ensures |r| <= |path| && r == path[|path| - |r|..]
  {
    var i := LastIndexOf(path, '/');
    path[i + 1..]
  }

  /** `str(base / name)` for a directory path `base` and an entry name. */
  function ChildPath(base: string, name: string): (r: string)
    ensures EndsWith(r, name)
    ensures BaseName(r) == name <== '/' !in name
  {
    var r := if base != [] && base[|base| - 1] == '/' then base + name else base + "/" + name;
    assert r[|r| - |name|..] == name;
    if '/' !in name then
      assert LastIndexOf(r, '/') == |r| - |name| - 1 by {
        assert r[|r| - |name| - 1] == '/';
        forall j | |r| - |name| - 1 < j < |r| ensures r[j] != '/' {
          assert r[j] == name[j - (|r| - |name|)];
        }
      }
      r
    else r
  }
}

=== FILE: ordering.dfy ===
/**
 * Python's ordering of strings (code point by code point) and of `pathlib` paths
 * (part by part), both as instances of one lexicographic order on sequences, and
 * `sorted(set(xs))`: a strictly increasing sequence holding exactly the elements of xs.
 */
module Ordering {

  /** `less` is a strict total order: irreflexive, transitive, and relates any two distinct values. */
  ghost predicate StrictTotal<T(!new)>(less: (T, T) -> bool) {
    && (forall x :: !less(x, x))
    && (forall x, y, z :: less(x, y) && less(y, z) ==> less(x, z))
    && (forall x, y :: x != y ==> less(x, y) || less(y, x))
  }

  predicate CharLess(a: char, b: char) {
    a < b
  }

  /** Lexicographic order: a proper prefix comes first, otherwise the first difference decides. */
  predicate SeqLess<T(==)>(a: seq<T>, b: seq<T>, less: (T, T) -> bool) {
    if a == [] then b != []
    else if b == [] then false
    else if a[0] != b[0] then less(a[0], b[0])
    else SeqLess(a[1..], b[1..], less)
  }

  /** Python's `<` on `str`. */
  predicate StrLess(a: string, b: string) {
    SeqLess(a, b, CharLess)
  }

  /** Python's `<` on `PurePosixPath`: the lists of parts are compared, not the strings. */
  predicate PathLess(a: seq<string>, b: seq<string>) {
    SeqLess(a, b, StrLess)
  }

  lemma {:induction false} SeqLessIrreflexive<T(!new)>(a: seq<T>, less: (T, T) -> bool)
    requires StrictTotal(less)
    ensures !SeqLess(a, a, less)
  {
    if a != [] {
      SeqLessIrreflexive(a[1..], less);
    }
  }

  lemma {:induction false} SeqLessTransitive<T(!new)>(a: seq<T>, b: seq<T>, c: seq<T>, less: (T, T) -> bool)
    requires StrictTotal(less)
    requires SeqLess(a, b, less) && SeqLess(b, c, less)
    ensures SeqLess(a, c, less)
  {
    if a != [] && b != [] && c != [] && a[0] == b[0] && b[0] == c[0] {
      SeqLessTransitive(a[1..], b[1..], c[1..], less);
    }
  }

  lemma {:induction false} SeqLessTotal<T(!new)>(a: seq<T>, b: seq<T>, less: (T, T) -> bool)
    requires StrictTotal(less)
    requires a != b
    ensures SeqLess(a, b, less) || SeqLess(b, a, less)
  {
    if a != [] && b != [] && a[0] == b[0] {
      assert a == [a[0]] + a[1..] && b == [b[0]] + b[1..];
      SeqLessTotal(a[1..], b[1..], less);
    }
  }

  /** Lifting a strict total order on elements gives one on sequences. */
  lemma SeqLessStrictTotal<T(!new)>(less: (T, T) -> bool)
    requires StrictTotal(less)
    ensures forall a: seq<T> :: !SeqLess(a, a, less)
    ensures forall a: seq<T>, b, c :: SeqLess(a, b, less) && SeqLess(b, c, less) ==> SeqLess(a, c, less)
    ensures forall a: seq<T>, b :: a != b ==> SeqLess(a, b, less) || SeqLess(b, a, less)
  {
    forall a: seq<T> ensures !SeqLess(a, a, less) {
      SeqLessIrreflexive(a, less);
    }
    forall a: seq<T>, b, c | SeqLess(a, b, less) && SeqLess(b, c, less) ensures SeqLess(a, c, less) {
      SeqLessTransitive(a, b, c, less);
    }
    forall a: seq<T>, b | a != b ensures SeqLess(a, b, less) || SeqLess(b, a, less) {
      SeqLessTotal(a, b, less);
    }
  }

  lemma StrLessStrictTotal()
    ensures StrictTotal(StrLess)
  {
    SeqLessStrictTotal(CharLess);
  }

  lemma PathLessStrictTotal()
    ensures StrictTotal(PathLess)
  {
    StrLessStrictTotal();
    SeqLessStrictTotal(StrLess);
  }

  // ---------------------------------------------------------------- sorted sets

  predicate StrictlySorted<T>(s: seq<T>, less: (T, T) -> bool) {
    forall i, j :: 0 <= i < j < |s| ==> less(s[i], s[j])
  }

  /** A strictly sorted sequence has no duplicates. */
  lemma StrictlySortedDistinct<T(!new)>(s: seq<T>, less: (T, T) -> bool)
    requires StrictTotal(less) && StrictlySorted(s, less)
    ensures forall i, j :: 0 <= i < |s| && 0 <= j < |s| && i != j ==> s[i] != s[j]
  {
    forall i, j | 0 <= i < |s| && 0 <= j < |s| && i != j ensures s[i] != s[j] {
      if i < j { assert less(s[i], s[j]); } else { assert less(s[j], s[i]); }
    }
  }

  /** Adds `x` to a strictly sorted sequence, keeping it strictly sorted. */
  function Insert<T(!new, ==)>(x: T, s: seq<T>, less: (T, T) -> bool): (r: seq<T>)
    requires StrictTotal(less) && StrictlySorted(s, less)
    ensures StrictlySorted(r, less)
    ensures forall y :: y in r <==> y in s || y == x
  {
    if s == [] then [x]
    else if x == s[0] then s
    else if less(x, s[0]) then [x] + s
    else
      var tail := Insert(x, s[1..], less);
      assert forall y :: y in tail ==> less(s[0], y) by {
        forall y | y in tail ensures less(s[0], y) {
          if y != x {
            var j :| 1 <= j < |s| && s[j] == y;
          }
        }
      }
      [s[0]] + tail
  }

  /** The first element of a strictly sorted sequence is its least element. */
  lemma SortedHeadIsLeast<T(!new)>(s: seq<T>, less: (T, T) -> bool)
    requires StrictlySorted(s, less) && s != []
    ensures forall y :: y in s ==> y == s[0] || less(s[0], y)
  {
  }

  /** Two strictly sorted sequences with the same elements are equal: `sorted(set(xs))` is determined. */
  lemma {:induction false} SortedUnique<T(!new)>(a: seq<T>, b: seq<T>, less: (T, T) -> bool)
    requires StrictTotal(less) && StrictlySorted(a, less) && StrictlySorted(b, less)
    requires forall y :: y in a <==> y in b
    ensures a == b
  {
    assert a != [] ==> a[0] in a;
    assert b != [] ==> b[0] in b;
    if a != [] && b != [] {
      SortedHeadIsLeast(a, less);
      SortedHeadIsLeast(b, less);
      assert a[0] == b[0];
      forall y ensures y in a[1..] <==> y in b[1..] {
        StrictlySortedDistinct(a, less);
        StrictlySortedDistinct(b, less);
        if y in a[1..] {
          var i :| 1 <= i < |a| && a[i] == y;
          assert y != a[0];
          assert y in b;
          var k :| 0 <= k < |b| && b[k] == y;
          assert b[1..][k - 1] == y;
        }
        if y in b[1..] {
          var i :| 1 <= i < |b| && b[i] == y;
          assert y != b[0];
          assert y in a;
          var k :| 0 <= k < |a| && a[k] == y;
          assert a[1..][k - 1] == y;
        }
      }
      SortedUnique(a[1..], b[1..], less);
      assert a == [a[0]] + a[1..] && b == [b[0]] + b[1..];
    }
  }

  /** `sorted(xs)` for a set: the elements of `xs` in strictly increasing order. */
  method SortedSeqOf<T(!new, ==)>(xs: set<T>, less: (T, T) -> bool) returns (r: seq<T>)
    requires StrictTotal(less)
    ensures StrictlySorted(r, less)
    ensures forall y :: y in r <==> y in xs
  {
    r := [];
    var rest := xs;
    while rest != {}
      invariant rest <= xs
      invariant StrictlySorted(r, less)
      invariant forall y :: y in r <==> y in xs && y !in rest
      decreases rest
    {
      var x :| x in rest;
      r := Insert(x, r, less);
      rest := rest - {x};
    }
  }
}

=== FILE: strings.dfy ===
/**
 * The handful of Python `str` operations the scripts rely on: `strip`, `lower`,
 * `upper`, `startswith`, `endswith`, `in`, `split(sep)`, `split()` and
 * `sep.join(...)`, written over `string == seq<char>`.
 *
 * Character classes are the ASCII ones: `IsSpace` is what Python's `str.isspace`
 * says of the first 128 code points, and case mapping only touches `A`-`Z`/`a`-`z`.
 */
module Strings {

  /** Python's whitespace among the ASCII code points (space, \t \n \v \f \r and \x1c-\x1f). */
  predicate IsSpace(c: char) {
    c == ' ' || ('\t' <= c <= '\r') || ('\U{1C}' <= c <= '\U{1F}')
  }

  predicate IsDigit(c: char) {
    '0' <= c <= '9'
  }

  /** The characters matched by the regular-expression class `\w` (ASCII part). */
  predicate IsWordChar(c: char) {
    ('a' <= c <= 'z') || ('A' <= c <= 'Z') || IsDigit(c) || c == '_'
  }

  // ---------------------------------------------------------------- prefixes

  predicate StartsWith(s: string, prefix: string) {
    |prefix| <= |s| && s[..|prefix|] == prefix
  }

  predicate EndsWith(s: string, suffix: string) {
    |suffix| <= |s| && s[|s| - |suffix|..] == suffix
  }

  /** Python's `sub in s` for strings. */
  predicate Contains(s: string, sub: string)
    decreases |s|
  {
    StartsWith(s, sub) || (s != [] && Contains(s[1..], sub))
  }

  // ---------------------------------------------------------------- strip

  /** `s.lstrip()`: the longest suffix of `s` that does not start with whitespace. */
  function StripLeft(s: string): (r: string)
    ensures |r| <= |s| && r == s[|s| - |r|..]
    ensures r == [] || !IsSpace(r[0])
    ensures forall i :: 0 <= i < |s| - |r| ==> IsSpace(s[i])
  {
    if s != [] && IsSpace(s[0]) then StripLeft(s[1..]) else s
  }

  /** `s.rstrip()`: the longest prefix of `s` that does not end with whitespace. */
  function StripRight(s: string): (r: string)
    ensures |r| <= |s| && r == s[..|r|]
    ensures r == [] || !IsSpace(r[|r| - 1])
    ensures forall i :: |r| <= i < |s| ==> IsSpace(s[i])
  {
    if s != [] && IsSpace(s[|s| - 1]) then StripRight(s[..|s| - 1]) else s
  }

  /** Nothing but whitespace. */
  predicate AllSpace(s: string) {
    forall i :: 0 <= i < |s| ==> IsSpace(s[i])
  }

  /** `r` is the slice of `s` from `a` on, with nothing but whitespace before and after it. */
  predicate StrippedAt(s: string, a: int, r: string) {
    && 0 <= a <= |s| - |r| && r == s[a..a + |r|]
    && (forall i :: 0 <= i < a ==> IsSpace(s[i]))
    && (forall i :: a + |r| <= i < |s| ==> IsSpace(s[i]))
  }

  /**
   * `s.strip()`: no whitespace at either end, and empty exactly when `s` is all whitespace;
   * `StripIsSlice` says which slice of `s` it is.
   */
  function Strip(s: string): (r: string)
    ensures |r| <= |s|
    ensures r == [] || (!IsSpace(r[0]) && !IsSpace(r[|r| - 1]))
    ensures r == [] <==> AllSpace(s)
  {
    var l := StripLeft(s);
    var r := StripRight(l);
    StripParts(s, l, r);
    r
  }

  /** What `strip` leaves is the slice of `s` between its leading and its trailing whitespace. */
  lemma StripIsSlice(s: string)
    ensures exists a :: StrippedAt(s, a, Strip(s))
  {
    var l := StripLeft(s);
    var r := StripRight(l);
    StripParts(s, l, r);
    assert Strip(s) == r;
    var a :| StrippedAt(s, a, r);
    assert StrippedAt(s, a, Strip(s));
  }

  /** The two halves of `strip` put together: the slice between the whitespace runs. */
  lemma StripParts(s: string, l: string, r: string)
    requires l == StripLeft(s) && r == StripRight(l)
    ensures |r| <= |s|
    ensures r == [] || (!IsSpace(r[0]) && !IsSpace(r[|r| - 1]))
    ensures r == [] <==> AllSpace(s)
    ensures exists a :: StrippedAt(s, a, r)
  {
    var a := |s| - |l|;
    SliceOfSuffix(s, a, l, r);
    assert forall i :: 0 <= i < a ==> IsSpace(s[i]);
    assert forall i :: a + |r| <= i < |s| ==> IsSpace(s[i]) by {
      forall i | a + |r| <= i < |s|
        ensures IsSpace(s[i])
      {
        assert s[i] == l[i - a];
      }
    }
    if l != [] {
      assert !IsSpace(s[a]);
    }
    assert StrippedAt(s, a, r);
  }

  /** A prefix of a suffix is a slice. */
  lemma SliceOfSuffix(s: string, a: nat, l: string, r: string)
    requires a <= |s| && l == s[a..] && |r| <= |l| && r == l[..|r|]
    ensures r == s[a..a + |r|]
  {
  }

  // ---------------------------------------------------------------- case

  function LowerChar(c: char): (d: char)
    ensures !('A' <= d <= 'Z')
    ensures !('A' <= c <= 'Z') ==> d == c
  {
    if 'A' <= c <= 'Z' then (c as int + 32) as char else c
  }

  function UpperChar(c: char): (d: char)
    ensures !('a' <= d <= 'z')
    ensures !('a' <= c <= 'z') ==> d == c
  {
    if 'a' <= c <= 'z' then (c as int - 32) as char else c
  }

  /** `s.lower()`: same length, no upper-case letter left, every other character kept. */
  function Lower(s: string): (r: string)
    ensures |r| == |s|
    ensures forall i :: 0 <= i < |s| ==> r[i] == LowerChar(s[i])
  {
    seq(|s|, i requires 0 <= i < |s| => LowerChar(s[i]))
  }

  /** `s.upper()`. */
  function Upper(s: string): (r: string)
    ensures |r| == |s|
    ensures forall i :: 0 <= i < |s| ==> r[i] == UpperChar(s[i])
  {
    seq(|s|, i requires 0 <= i < |s| => UpperChar(s[i]))
  }

  // ---------------------------------------------------------------- split / join

  /** Index of the first occurrence of `c` in `s`, or `|s|` when there is none. */
  function IndexOf(s: string, c: char): (k: nat)
    ensures k <= |s|
    ensures k < |s| ==> s[k] == c
    ensures forall i :: 0 <= i < k ==> s[i] != c
  {
    if s == [] then 0
    else if s[0] == c then 0
    else 1 + IndexOf(s[1..], c)
  }

  /** Index of the last occurrence of `c` in `s` (`s.rfind(c)`), or -1 when there is none. */
  function LastIndexOf(s: string, c: char): (k: int)
    ensures -1 <= k < |s|
    ensures k >= 0 ==> s[k] == c
    ensures forall i :: k < i < |s| ==> s[i] != c
  {
    if s == [] then -1
    else if s[|s| - 1] == c then |s| - 1
    else LastIndexOf(s[..|s| - 1], c)
  }

  /** `sep.join(parts)`. */
  function Join(parts: seq<string>, sep: char): (r: string)
    ensures parts == [] ==> r == []
  {
    if parts == [] then []
    else if |parts| == 1 then parts[0]
    else parts[0] + [sep] + Join(parts[1..], sep)
  }

  /** Joining two non-empty lists joins their joins with one more separator. */
  lemma {:induction false} JoinAppend(a: seq<string>, b: seq<string>, sep: char)
    requires a != [] && b != []
    ensures Join(a + b, sep) == Join(a, sep) + [sep] + Join(b, sep)
  {
    if |a| == 1 {
      assert (a + b)[0] == a[0] && (a + b)[1..] == b;
    } else {
      JoinAppend(a[1..], b, sep);
      assert (a + b)[0] == a[0] && (a + b)[1..] == a[1..] + b;
    }
  }

  /** The joined text starts with the first part. */
  lemma JoinStartsWith(parts: seq<string>, sep: char)
    requires parts != []
    ensures StartsWith(Join(parts, sep), parts[0])
  {
    var r := Join(parts, sep);
    if |parts| > 1 {
      assert r[..|parts[0]|] == parts[0];
    }
  }

  /** `' ' * n`. */
  function Spaces(n: nat): (r: string)
    ensures |r| == n && forall i :: 0 <= i < n ==> r[i] == ' '
  {
    seq(n, _ => ' ')
  }

  /** `s.split(sep)` for a one-character separator: the pieces between separators, empties kept. */
  function Split(s: string, sep: char): (r: seq<string>)
    ensures |r| >= 1
    ensures forall p :: p in r ==> sep !in p
    decreases |s|
  {
    var k := IndexOf(s, sep);
    if k == |s| then [s] else [s[..k]] + Split(s[k + 1..], sep)
  }

  /** Splitting undoes joining when no part contains the separator. */
  lemma {:induction false} SplitJoin(parts: seq<string>, sep: char)
    requires |parts| >= 1
    requires forall p :: p in parts ==> sep !in p
    ensures Split(Join(parts, sep), sep) == parts
  {
    if |parts| == 1 {
      assert parts[0] in parts;
      assert IndexOf(parts[0], sep) == |parts[0]|;
    } else {
      var s := Join(parts, sep);
      var rest := Join(parts[1..], sep);
      assert s == parts[0] + [sep] + rest;
      assert IndexOf(s, sep) == |parts[0]| by {
        assert parts[0] in parts;
        assert forall i :: 0 <= i < |parts[0]| ==> s[i] == parts[0][i];
        assert s[|parts[0]|] == sep;
      }
      assert s[..|parts[0]|] == parts[0];
      assert s[|parts[0]| + 1..] == rest;
      SplitJoin(parts[1..], sep);
    }
  }

  /** Joining undoes splitting. */
  lemma {:induction false} JoinSplit(s: string, sep: char)
    ensures Join(Split(s, sep), sep) == s
    decreases |s|
  {
    var k := IndexOf(s, sep);
    if k < |s| {
      var head, rest := s[..k], s[k + 1..];
      SplitAt(s, sep);
      JoinSplit(rest, sep);
      JoinCons(head, Split(rest, sep), sep);
    }
  }

  /** A separator at `IndexOf(s, sep)` cuts `s` into its first piece and the rest. */
  lemma SplitAt(s: string, sep: char)
    requires IndexOf(s, sep) < |s|
    ensures var k := IndexOf(s, sep);
      Split(s, sep) == [s[..k]] + Split(s[k + 1..], sep) && s == s[..k] + [sep] + s[k + 1..]
  {
    CutAt(s, IndexOf(s, sep));
  }

  /** `s` is what comes before index `k`, the character at `k`, and what comes after. */
  lemma CutAt(s: string, k: nat)
    requires k < |s|
    ensures s == s[..k] + [s[k]] + s[k + 1..]
  {
    assert s[k..] == [s[k]] + s[k + 1..];
    assert s == s[..k] + s[k..];
  }

  /** Joining a part in front of a non-empty list. */
  lemma JoinCons(head: string, tail: seq<string>, sep: char)
    requires tail != []
    ensures Join([head] + tail, sep) == head + [sep] + Join(tail, sep)
  {
    assert ([head] + tail)[0] == head && ([head] + tail)[1..] == tail;
  }

  /** A non-empty run of non-whitespace characters. */
  predicate IsWord(t: string) {
    t != [] && forall i :: 0 <= i < |t| ==> !IsSpace(t[i])
  }

  /** `s.split()` with no argument: the maximal runs of non-whitespace characters. */
  function SplitWhitespace(s: string): (r: seq<string>)
    ensures forall j :: 0 <= j < |r| ==> IsWord(r[j])
    ensures r == [] <==> AllSpace(s)
    decreases |s|
  {
    if s == [] then []
    else if IsSpace(s[0]) then
      assert forall i :: 0 <= i < |s| - 1 ==> s[1..][i] == s[i + 1];
      SplitWhitespace(s[1..])
    else
      var k := FirstSpace(s);
      var word := s[..k];
      assert IsWord(word);
      [word] + SplitWhitespace(s[k..])
  }

  /** Whitespace in front of the text is skipped. */
  lemma {:induction false} SplitWhitespaceSkip(sp: string, s: string)
    requires forall i :: 0 <= i < |sp| ==> IsSpace(sp[i])
    ensures SplitWhitespace(sp + s) == SplitWhitespace(s)
    decreases |sp|
  {
    if sp != [] {
      assert (sp + s)[0] == sp[0] && IsSpace(sp[0]);
      assert (sp + s)[1..] == sp[1..] + s;
      assert forall i :: 0 <= i < |sp| - 1 ==> sp[1..][i] == sp[i + 1];
      SplitWhitespaceSkip(sp[1..], s);
    } else {
      assert sp + s == s;
    }
  }

  /** A word, a run of whitespace and the rest: the word comes first, then the rest's words. */
  lemma SplitWhitespaceWord(w: string, sp: string, s: string)
    requires IsWord(w)
    requires sp != [] && forall i :: 0 <= i < |sp| ==> IsSpace(sp[i])
    ensures SplitWhitespace(w + sp + s) == [w] + SplitWhitespace(s)
  {
    var t := w + sp + s;
    assert FirstSpace(t) == |w| by {
      assert t[|w|] == sp[0];
      assert forall i :: 0 <= i < |w| ==> t[i] == w[i];
    }
    assert t[..|w|] == w && t[|w|..] == sp + s;
    SplitWhitespaceSkip(sp, s);
  }

  /** Words joined by single spaces split back into the same words, in the same order. */
  lemma {:induction false} SplitWhitespaceJoin(words: seq<string>)
    requires forall j :: 0 <= j < |words| ==> IsWord(words[j])
    ensures SplitWhitespace(Join(words, ' ')) == words
  {
    if |words| == 1 {
      var w := words[0];
      assert IsWord(w) && Join(words, ' ') == w;
      assert FirstSpace(w) == |w| && w[..|w|] == w && w[|w|..] == [];
    } else if |words| > 1 {
      JoinCons(words[0], words[1..], ' ');
      assert [words[0]] + words[1..] == words;
      assert IsWord(words[0]);
      SplitWhitespaceWord(words[0], [' '], Join(words[1..], ' '));
      SplitWhitespaceJoin(words[1..]);
    }
  }

  /** Index of the first whitespace character of `s`, or `|s|`. */
  function FirstSpace(s: string): (k: nat)
    ensures k <= |s|
    ensures k < |s| ==> IsSpace(s[k])
    ensures forall i :: 0 <= i < k ==> !IsSpace(s[i])
  {
    if s == [] then 0
    else if IsSpace(s[0]) then 0
    else 1 + FirstSpace(s[1..])
  }

  // ---------------------------------------------------------------- numbers

  /** The number a string of decimal digits denotes. */
  function DecimalValue(r: string): int
    requires forall i :: 0 <= i < |r| ==> IsDigit(r[i])
  {
    if r == [] then 0 else 10 * DecimalValue(r[..|r| - 1]) + (r[|r| - 1] as int - '0' as int)
  }

  /** Python's `str(n)` for a natural number: the decimal digits that denote `n`, no leading zero. */
  function NatToString(n: nat): (r: string)
    ensures r != []
    ensures forall i :: 0 <= i < |r| ==> IsDigit(r[i])
    ensures |r| > 1 ==> r[0] != '0'
    ensures DecimalValue(r) == n
  {
    if n < 10 then [Digit(n)]
    else
      var r := NatToString(n / 10) + [Digit(n % 10)];
      assert r[..|r| - 1] == NatToString(n / 10);
      r
  }

  function Digit(d: nat): (c: char)
    requires d < 10
    ensures IsDigit(c)
  {
    ('0' as int + d) as char
  }
}

=== FILE: structure_render.dfy ===
/**
 * The two renderings of a structure tree: the indented text tree of
 * `generate_text_tree` and the outline of `generate_mermaid_tree`. Each is the
 * source's nested `'\n'.join` of lines and of the children's renderings, shown
 * equal to joining one flat list of lines, about which the properties are stated.
 */
module StructureRender {
  import opened Strings
  import opened StructureTree
  import opened StructureReport

  // The connectors are the characters the script contains: UTF-8 box-drawing bytes
  // that were decoded as Windows-1252 once, so each box character is three code points.

  /** Connector in front of the last child. */
  const LastConnector: string := "\U{E2}\U{201D}\U{201D}\U{E2}\U{201D}\U{20AC}\U{E2}\U{201D}\U{20AC} "
  /** Connector in front of every other child. */
  const MiddleConnector: string := "\U{E2}\U{201D}\U{153}\U{E2}\U{201D}\U{20AC}\U{E2}\U{201D}\U{20AC} "
  /** Indentation below a child that is not the last one. */
  const PipeIndent: string := "\U{E2}\U{201D}\U{201A}   "
  /** Indentation below the last child. */
  const BlankIndent: string := "    "

  function Connector(isLast: bool): string {
    if isLast then LastConnector else MiddleConnector
  }

  function Indent(isLast: bool): string {
    if isLast then BlankIndent else PipeIndent
  }

  /** `KEY_DIRECTORIES.get(name.lower(), '')`. */
  function KeyDescription(name: string): string {
    var k := Lower(name);
    if k in KeyDirectories then KeyDirectories[k] else ""
  }

  // ---------------------------------------------------------------- generate_text_tree

  /** `generate_text_tree(structure, prefix, is_last)`. */
  function TextTree(n: Node, prefix: string, isLast: bool): string
    decreases n
  {
    var ext := Indent(isLast);
    var head := [prefix + Connector(isLast) + n.name]
      + (if n.isDir && n.isKey then [prefix + ext + "# " + KeyDescription(n.name)] else []);
    Join(head + TextTreeItems(n.children, prefix + ext, 0), '\n')
  }

  /** The renderings of `cs[i..]`, each knowing whether it is the last of `cs`. */
  function TextTreeItems(cs: seq<Child>, prefix: string, i: nat): seq<string>
    requires i <= |cs|
    decreases cs, |cs| - i
  {
    if i == |cs| then [] else [TextTreeItem(cs[i], prefix, i == |cs| - 1)] + TextTreeItems(cs, prefix, i + 1)
  }

  /** A marker is one line under the prefix; a node is rendered recursively. */
  function TextTreeItem(c: Child, prefix: string, isLast: bool): string
    decreases c
  {
    match c
    case Marker(t) => prefix + t
    case Entry(m) => TextTree(m, prefix, isLast)
  }

  /** The lines of `TextTree`, as one flat list. */
  function TreeLines(n: Node, prefix: string, isLast: bool): (r: seq<string>)
    ensures r != []
    decreases n
  {
    var ext := Indent(isLast);
    [prefix + Connector(isLast) + n.name]
      + (if n.isDir && n.isKey then [prefix + ext + "# " + KeyDescription(n.name)] else [])
      + TreeLinesFrom(n.children, prefix + ext, 0)
  }

  function TreeLinesFrom(cs: seq<Child>, prefix: string, i: nat): seq<string>
    requires i <= |cs|
    decreases cs, |cs| - i
  {
    if i == |cs| then [] else ItemLines(cs[i], prefix, i == |cs| - 1) + TreeLinesFrom(cs, prefix, i + 1)
  }

  function ItemLines(c: Child, prefix: string, isLast: bool): (r: seq<string>)
    ensures r != []
    decreases c
  {
    match c
    case Marker(t) => [prefix + t]
    case Entry(m) => TreeLines(m, prefix, isLast)
  }

  /** The nested joins of `generate_text_tree` produce the flat lines joined by newlines. */
  lemma {:induction false} TextTreeIsJoin(n: Node, prefix: string, isLast: bool)
    ensures TextTree(n, prefix, isLast) == Join(TreeLines(n, prefix, isLast), '\n')
    decreases n
  {
    var ext := Indent(isLast);
    var head := [prefix + Connector(isLast) + n.name]
      + (if n.isDir && n.isKey then [prefix + ext + "# " + KeyDescription(n.name)] else []);
    var items := TextTreeItems(n.children, prefix + ext, 0);
    var lines := TreeLinesFrom(n.children, prefix + ext, 0);
    TextTreeItemsAreJoin(n.children, prefix + ext, 0);
    assert TreeLines(n, prefix, isLast) == head + lines;
    if items != [] {
      JoinAppend(head, items, '\n');
      JoinAppend(head, lines, '\n');
    } else {
      assert head + items == head && head + lines == head;
    }
  }

  lemma {:induction false} TextTreeItemsAreJoin(cs: seq<Child>, prefix: string, i: nat)
    requires i <= |cs|
    ensures TextTreeItems(cs, prefix, i) == [] <==> TreeLinesFrom(cs, prefix, i) == []
    ensures Join(TextTreeItems(cs, prefix, i), '\n') == Join(TreeLinesFrom(cs, prefix, i), '\n')
    decreases cs, |cs| - i
  {
    if i < |cs| {
      var last := i == |cs| - 1;
      TextTreeItemIsJoin(cs[i], prefix, last);
      TextTreeItemsAreJoin(cs, prefix, i + 1);
      var item := TextTreeItem(cs[i], prefix, last);
      var rest := TextTreeItems(cs, prefix, i + 1);
      var own := ItemLines(cs[i], prefix, last);
      var more := TreeLinesFrom(cs, prefix, i + 1);
      if rest != [] {
        JoinAppend([item], rest, '\n');
        JoinAppend(own, more, '\n');
      } else {
        assert own + more == own;
      }
    }
  }

  lemma {:induction false} TextTreeItemIsJoin(c: Child, prefix: string, isLast: bool)
    ensures TextTreeItem(c, prefix, isLast) == Join(ItemLines(c, prefix, isLast), '\n')
    decreases c
  {
    match c
    case Marker(t) =>
    case Entry(m) => TextTreeIsJoin(m, prefix, isLast);
  }

  /**
   * The text tree has one line per node, one per key directory and one per marker; the
   * first is the prefix, the connector and the name, and every line starts with the prefix.
   */
  lemma {:induction false} TreeLinesShape(n: Node, prefix: string, isLast: bool)
    ensures var k := CensusOf(n);
      |TreeLines(n, prefix, isLast)| == k.dirs + k.files + k.keyDirs + k.markers
    ensures TreeLines(n, prefix, isLast)[0] == prefix + Connector(isLast) + n.name
    ensures forall l :: l in TreeLines(n, prefix, isLast) ==> StartsWith(l, prefix)
    decreases n
  {
    var ext := Indent(isLast);
    TreeLinesFromShape(n.children, prefix + ext, 0);
    forall l | l in TreeLines(n, prefix, isLast) ensures StartsWith(l, prefix) {
      if l in TreeLinesFrom(n.children, prefix + ext, 0) {
        assert StartsWith(l, prefix + ext);
        assert l[..|prefix|] == (prefix + ext)[..|prefix|];
      }
    }
  }

  lemma {:induction false} TreeLinesFromShape(cs: seq<Child>, prefix: string, i: nat)
    requires i <= |cs|
    ensures var k := CensusIn(cs[i..]);
      |TreeLinesFrom(cs, prefix, i)| == k.dirs + k.files + k.keyDirs + k.markers
    ensures forall l :: l in TreeLinesFrom(cs, prefix, i) ==> StartsWith(l, prefix)
    decreases cs, |cs| - i
  {
    if i < |cs| {
      ItemLinesShape(cs[i], prefix, i == |cs| - 1);
      TreeLinesFromShape(cs, prefix, i + 1);
      assert cs[i..][1..] == cs[i + 1..];
    }
  }

  lemma {:induction false} ItemLinesShape(c: Child, prefix: string, isLast: bool)
    ensures var k := CensusOfChild(c);
      |ItemLines(c, prefix, isLast)| == k.dirs + k.files + k.keyDirs + k.markers
    ensures forall l :: l in ItemLines(c, prefix, isLast) ==> StartsWith(l, prefix)
    decreases c
  {
    match c
    case Marker(t) =>
    case Entry(m) => TreeLinesShape(m, prefix, isLast);
  }

  /** The rendered text tree starts with the prefix, the connector and the root's name. */
  lemma TextTreeFirstLine(n: Node, prefix: string, isLast: bool)
    ensures StartsWith(TextTree(n, prefix, isLast), prefix + Connector(isLast) + n.name)
  {
    TextTreeIsJoin(n, prefix, isLast);
    TreeLinesShape(n, prefix, isLast);
    JoinStartsWith(TreeLines(n, prefix, isLast), '\n');
  }

  // ---------------------------------------------------------------- generate_mermaid_tree

  /** `f" ({n} lines)"` when `n > 0`, otherwise nothing. */
  function LineInfo(n: nat): string {
    if n > 0 then " (" + NatToString(n) + " lines)" else ""
  }

  /** `generate_mermaid_tree(structure, indent)`. */
  function MermaidTree(n: Node, indent: nat): string
    decreases n
  {
    var prefix := Spaces(2 * indent);
    if n.isDir then Join([prefix + n.name] + MermaidItems(n.children, indent + 1), '\n')
    else Join([prefix + n.name + LineInfo(n.lineCount)], '\n')
  }

  /** The renderings of the nodes among `cs`; markers are skipped. */
  function MermaidItems(cs: seq<Child>, indent: nat): seq<string>
    decreases cs
  {
    if cs == [] then [] else MermaidItem(cs[0], indent) + MermaidItems(cs[1..], indent)
  }

  function MermaidItem(c: Child, indent: nat): seq<string>
    decreases c
  {
    match c
    case Marker(_) => []
    case Entry(m) => [MermaidTree(m, indent)]
  }

  /** The lines of `MermaidTree`, as one flat list. */
  function MermaidLines(n: Node, indent: nat): (r: seq<string>)
    ensures r != []
    decreases n
  {
    var prefix := Spaces(2 * indent);
    if n.isDir then [prefix + n.name] + MermaidLinesIn(n.children, indent + 1)
    else [prefix + n.name + LineInfo(n.lineCount)]
  }

  function MermaidLinesIn(cs: seq<Child>, indent: nat): seq<string>
    decreases cs
  {
    if cs == [] then [] else MermaidItemLines(cs[0], indent) + MermaidLinesIn(cs[1..], indent)
  }

  function MermaidItemLines(c: Child, indent: nat): seq<string>
    decreases c
  {
    match c
    case Marker(_) => []
    case Entry(m) => MermaidLines(m, indent)
  }

  /** The nested joins of `generate_mermaid_tree` produce the flat lines joined by newlines. */
  lemma {:induction false} MermaidIsJoin(n: Node, indent: nat)
    ensures MermaidTree(n, indent) == Join(MermaidLines(n, indent), '\n')
    decreases n
  {
    if n.isDir {
      var head := [Spaces(2 * indent) + n.name];
      var items := MermaidItems(n.children, indent + 1);
      var lines := MermaidLinesIn(n.children, indent + 1);
      MermaidItemsAreJoin(n.children, indent + 1);
      if items != [] {
        JoinAppend(head, items, '\n');
        JoinAppend(head, lines, '\n');
      } else {
        assert head + items == head && head + lines == head;
      }
    }
  }

  lemma {:induction false} MermaidItemsAreJoin(cs: seq<Child>, indent: nat)
    ensures MermaidItems(cs, indent) == [] <==> MermaidLinesIn(cs, indent) == []
    ensures Join(MermaidItems(cs, indent), '\n') == Join(MermaidLinesIn(cs, indent), '\n')
    decreases cs
  {
    if cs != [] {
      MermaidItemIsJoin(cs[0], indent);
      MermaidItemsAreJoin(cs[1..], indent);
      var item := MermaidItem(cs[0], indent);
      var rest := MermaidItems(cs[1..], indent);
      var own := MermaidItemLines(cs[0], indent);
      var more := MermaidLinesIn(cs[1..], indent);
      if item == [] {
        assert item + rest == rest && own + more == more;
      } else if rest == [] {
        assert item + rest == item && own + more == own;
      } else {
        JoinAppend(item, rest, '\n');
        JoinAppend(own, more, '\n');
      }
    }
  }

  lemma {:induction false} MermaidItemIsJoin(c: Child, indent: nat)
    ensures MermaidItem(c, indent) == [] <==> MermaidItemLines(c, indent) == []
    ensures Join(MermaidItem(c, indent), '\n') == Join(MermaidItemLines(c, indent), '\n')
    decreases c
  {
    match c
    case Marker(_) =>
    case Entry(m) => MermaidIsJoin(m, indent);
  }

  /**
   * The outline has one line per node and none for markers; every line starts with two
   * spaces per level of `indent`, and the lines below the first with two more.
   */
  lemma {:induction false} MermaidLinesShape(n: Node, indent: nat)
    requires FilesAreLeaves(n)
    ensures |MermaidLines(n, indent)| == CensusOf(n).dirs + CensusOf(n).files
    ensures forall l :: l in MermaidLines(n, indent) ==> StartsWith(l, Spaces(2 * indent))
    ensures forall j :: 1 <= j < |MermaidLines(n, indent)| ==> StartsWith(MermaidLines(n, indent)[j], Spaces(2 * indent + 2))
    decreases n
  {
    if n.isDir {
      MermaidLinesInShape(n.children, indent + 1);
      var lines := MermaidLines(n, indent);
      forall l | l in lines ensures StartsWith(l, Spaces(2 * indent)) {
        if l != lines[0] {
          assert StartsWith(l, Spaces(2 * indent + 2));
          assert l[..2 * indent] == Spaces(2 * indent + 2)[..2 * indent];
        }
      }
      forall j | 1 <= j < |lines| ensures StartsWith(lines[j], Spaces(2 * indent + 2)) {
        assert lines[j] in MermaidLinesIn(n.children, indent + 1);
      }
    } else {
      assert CensusIn(n.children) == Nobody;
    }
  }

  lemma {:induction false} MermaidLinesInShape(cs: seq<Child>, indent: nat)
    requires forall i :: 0 <= i < |cs| && cs[i].Entry? ==> FilesAreLeaves(cs[i].node)
    ensures |MermaidLinesIn(cs, indent)| == CensusIn(cs).dirs + CensusIn(cs).files
    ensures forall l :: l in MermaidLinesIn(cs, indent) ==> StartsWith(l, Spaces(2 * indent))
    decreases cs
  {
    if cs != [] {
      if cs[0].Entry? {
        MermaidItemLinesShape(cs[0], indent);
      }
      MermaidLinesInShape(cs[1..], indent);
    }
  }

  lemma {:induction false} MermaidItemLinesShape(c: Child, indent: nat)
    requires c.Entry? && FilesAreLeaves(c.node)
    ensures |MermaidItemLines(c, indent)| == CensusOfChild(c).dirs + CensusOfChild(c).files
    ensures forall l :: l in MermaidItemLines(c, indent) ==> StartsWith(l, Spaces(2 * indent))
    decreases c
  {
    MermaidLinesShape(c.node, indent);
  }

  /** A file's outline line ends in ` (N lines)` exactly when it has N > 0 lines; otherwise it is the bare name. */
  lemma MermaidFileLine(n: Node, indent: nat)
    requires !n.isDir
    ensures n.lineCount > 0 ==>
      MermaidTree(n, indent) == Spaces(2 * indent) + n.name + " (" + NatToString(n.lineCount) + " lines)"
    ensures n.lineCount == 0 ==> MermaidTree(n, indent) == Spaces(2 * indent) + n.name
  {
  }
}

=== FILE: structure_report.dfy ===
/**
 * What the structure analyser reports about a tree built by `analyze_directory`:
 * the statistics `calculate_stats` accumulates in a shared counter object, the
 * indented text tree of `generate_text_tree` and the mermaid outline of
 * `generate_mermaid_tree`.
 */
module StructureReport {
  import opened Wrappers
  import opened Strings
  import opened FileSystem
  import opened StructureTree

  // ---------------------------------------------------------------- reference counts

  /**
   * How many directories, files and code files a tree holds, its files' total line count,
   * how many of its directories are key directories and how many string markers it holds.
   */
  datatype Census = Census(dirs: nat, files: nat, codeFiles: nat, lines: nat, keyDirs: nat, markers: nat)

  const Nobody: Census := Census(0, 0, 0, 0, 0, 0)

  function Plus(a: Census, b: Census): Census {
    Census(a.dirs + b.dirs, a.files + b.files, a.codeFiles + b.codeFiles, a.lines + b.lines,
      a.keyDirs + b.keyDirs, a.markers + b.markers)
  }

  /** The census of a tree, summed structurally over its nodes. */
  function CensusOf(n: Node): Census
    decreases n
  {
    var own := if n.isDir then Census(1, 0, 0, 0, if n.isKey then 1 else 0, 0)
      else Census(0, 1, if n.lineCount > 0 then 1 else 0, n.lineCount, 0, 0);
    Plus(own, CensusIn(n.children))
  }

  function CensusIn(cs: seq<Child>): Census
    decreases cs
  {
    if cs == [] then Nobody else Plus(CensusOfChild(cs[0]), CensusIn(cs[1..]))
  }

  /** A string marker counts for nothing. */
  function CensusOfChild(c: Child): Census
    decreases c
  {
    match c
    case Marker(_) => Nobody.(markers := 1)
    case Entry(m) => CensusOf(m)
  }

  // ---------------------------------------------------------------- the lines-by-language table

  /** The `by_language` dictionary: extensions with their line totals, in insertion order. */
  type Table = seq<(string, nat)>

  predicate KeysDistinct(t: Table) {
    forall i, j :: 0 <= i < j < |t| ==> t[i].0 != t[j].0
  }

  /** `table.get(key)`. */
  function Lookup(t: Table, key: string): Option<nat> {
    if t == [] then None
    else if t[0].0 == key then Some(t[0].1)
    else Lookup(t[1..], key)
  }

  /** Sum of the table's values. */
  function Total(t: Table): nat {
    if t == [] then 0 else t[0].1 + Total(t[1..])
  }

  /** `table[key] = table.get(key, 0) + n`; a new key is appended. */
  function Bump(t: Table, key: string, n: nat): Table {
    if t == [] then [(key, n)]
    else if t[0].0 == key then [(key, t[0].1 + n)] + t[1..]
    else [t[0]] + Bump(t[1..], key, n)
  }

  /** The entry for `key` grows by `n`, a new key is appended at the end, and every other entry is unchanged. */
  lemma {:induction false} BumpLookup(t: Table, key: string, n: nat)
    ensures Lookup(Bump(t, key, n), key) == Some(Lookup(t, key).GetOr(0) + n)
    ensures forall k :: k != key ==> Lookup(Bump(t, key, n), k) == Lookup(t, k)
    ensures |Bump(t, key, n)| == |t| + (if Lookup(t, key).None? then 1 else 0)
  {
    if t != [] {
      if t[0].0 != key {
        BumpLookup(t[1..], key, n);
        assert ([t[0]] + Bump(t[1..], key, n))[1..] == Bump(t[1..], key, n);
      } else {
        assert ([(key, t[0].1 + n)] + t[1..])[1..] == t[1..];
      }
    }
  }

  /** The values' sum grows by `n`, and keys that were distinct stay distinct. */
  lemma {:induction false} BumpTotal(t: Table, key: string, n: nat)
    ensures Total(Bump(t, key, n)) == Total(t) + n
    ensures KeysDistinct(t) ==> KeysDistinct(Bump(t, key, n))
  {
    if t != [] {
      if t[0].0 != key {
        var rest := Bump(t[1..], key, n);
        BumpTotal(t[1..], key, n);
        assert ([t[0]] + rest)[1..] == rest;
        if KeysDistinct(t) {
          BumpLookup(t[1..], key, n);
          LookupNoneNotKey(t[1..], t[0].0);
          LookupNoneNotKey(rest, t[0].0);
        }
      } else {
        assert ([(key, t[0].1 + n)] + t[1..])[1..] == t[1..];
      }
    }
  }

  /** A key is absent from a table whose first entries all differ from it, and conversely. */
  lemma {:induction false} LookupNoneNotKey(t: Table, key: string)
    ensures Lookup(t, key).None? <==> forall i :: 0 <= i < |t| ==> t[i].0 != key
  {
    if t != [] {
      LookupNoneNotKey(t[1..], key);
      assert forall i :: 1 <= i < |t| ==> t[i] == t[1..][i - 1];
    }
  }

  // ---------------------------------------------------------------- the fold

  /** The five counters of `calculate_stats`. */
  datatype Counts = Counts(totalFiles: nat, codeFiles: nat, totalLines: nat, directories: nat, byLanguage: Table)

  const NoCounts: Counts := Counts(0, 0, 0, 0, [])

  /** The counters after `traverse(n)` starting from `c`, children visited in order. */
  function Visit(c: Counts, n: Node): Counts
    decreases n
  {
    if n.isDir then VisitAll(c.(directories := c.directories + 1), n.children) else VisitFile(c, n)
  }

  /** The counters after `traverse(n)` for a file node `n`. */
  function VisitFile(c: Counts, n: Node): Counts {
    if n.lineCount > 0 then
      c.(totalFiles := c.totalFiles + 1, codeFiles := c.codeFiles + 1, totalLines := c.totalLines + n.lineCount,
         byLanguage := Bump(c.byLanguage, Extension(BaseName(n.path)), n.lineCount))
    else
      c.(totalFiles := c.totalFiles + 1)
  }

  /** `traverse` over a list of children, in order. */
  function VisitAll(c: Counts, cs: seq<Child>): Counts
    decreases cs
  {
    if cs == [] then c else VisitAll(VisitChild(c, cs[0]), cs[1..])
  }

  /** `traverse(child)`: a string marker returns at once. */
  function VisitChild(c: Counts, child: Child): Counts
    decreases child
  {
    match child
    case Marker(_) => c
    case Entry(m) => Visit(c, m)
  }

  /** Visiting the children from `i` on is visiting child `i`, then the ones after it. */
  lemma VisitAllStep(c: Counts, cs: seq<Child>, i: nat)
    requires i < |cs|
    ensures VisitAll(c, cs[i..]) == VisitAll(VisitChild(c, cs[i]), cs[i + 1..])
  {
    assert cs[i..][1..] == cs[i + 1..];
  }

  /** A file node has no children; this is how `analyze_directory` builds them. */
  ghost predicate FilesAreLeaves(n: Node)
    decreases n
  {
    && (!n.isDir ==> n.children == [])
    && forall i :: 0 <= i < |n.children| && n.children[i].Entry? ==> FilesAreLeaves(n.children[i].node)
  }

  /** The fold's counters grow by exactly the tree's census; the table's sum grows with the lines, keys stay distinct. */
  lemma {:induction false} VisitCounts(c: Counts, n: Node)
    requires FilesAreLeaves(n)
    ensures var k := CensusOf(n);
      && Visit(c, n).directories == c.directories + k.dirs
      && Visit(c, n).totalFiles == c.totalFiles + k.files
      && Visit(c, n).codeFiles == c.codeFiles + k.codeFiles
      && Visit(c, n).totalLines == c.totalLines + k.lines
      && Total(Visit(c, n).byLanguage) == Total(c.byLanguage) + k.lines
    ensures KeysDistinct(c.byLanguage) ==> KeysDistinct(Visit(c, n).byLanguage)
    decreases n
  {
    if n.isDir {
      var d := c.(directories := c.directories + 1);
      VisitAllCounts(d, n.children);
      assert d.byLanguage == c.byLanguage && Visit(c, n) == VisitAll(d, n.children);
    } else {
      VisitFileCounts(c, n);
      assert CensusIn(n.children) == Nobody;
    }
  }

  /** The file case: one more file, and a code file's lines added to the counters and to the table. */
  lemma VisitFileCounts(c: Counts, n: Node)
    requires !n.isDir
    ensures Visit(c, n).directories == c.directories
    ensures Visit(c, n).totalFiles == c.totalFiles + 1
    ensures Visit(c, n).codeFiles == c.codeFiles + (if n.lineCount > 0 then 1 else 0)
    ensures Visit(c, n).totalLines == c.totalLines + n.lineCount
    ensures Total(Visit(c, n).byLanguage) == Total(c.byLanguage) + n.lineCount
    ensures KeysDistinct(c.byLanguage) ==> KeysDistinct(Visit(c, n).byLanguage)
  {
    if n.lineCount > 0 {
      BumpTotal(c.byLanguage, Extension(BaseName(n.path)), n.lineCount);
    }
  }

  lemma {:induction false} VisitAllCounts(c: Counts, cs: seq<Child>)
    requires forall i :: 0 <= i < |cs| && cs[i].Entry? ==> FilesAreLeaves(cs[i].node)
    ensures var k := CensusIn(cs);
      && VisitAll(c, cs).directories == c.directories + k.dirs
      && VisitAll(c, cs).totalFiles == c.totalFiles + k.files
      && VisitAll(c, cs).codeFiles == c.codeFiles + k.codeFiles
      && VisitAll(c, cs).totalLines == c.totalLines + k.lines
      && Total(VisitAll(c, cs).byLanguage) == Total(c.byLanguage) + k.lines
    ensures KeysDistinct(c.byLanguage) ==> KeysDistinct(VisitAll(c, cs).byLanguage)
    decreases cs
  {
    if cs != [] {
      VisitChildCounts(c, cs[0]);
      VisitAllCounts(VisitChild(c, cs[0]), cs[1..]);
    }
  }

  lemma {:induction false} VisitChildCounts(c: Counts, child: Child)
    requires child.Entry? ==> FilesAreLeaves(child.node)
    ensures var k := CensusOfChild(child);
      && VisitChild(c, child).directories == c.directories + k.dirs
      && VisitChild(c, child).totalFiles == c.totalFiles + k.files
      && VisitChild(c, child).codeFiles == c.codeFiles + k.codeFiles
      && VisitChild(c, child).totalLines == c.totalLines + k.lines
      && Total(VisitChild(c, child).byLanguage) == Total(c.byLanguage) + k.lines
    ensures KeysDistinct(c.byLanguage) ==> KeysDistinct(VisitChild(c, child).byLanguage)
    decreases child
  {
    match child
    case Marker(_) =>
    case Entry(m) => VisitCounts(c, m);
  }

  // ---------------------------------------------------------------- the table, extension by extension

  /** Lines of the tree's files with a positive line count whose name has extension `ext`. */
  function ExtLines(n: Node, ext: string): nat
    decreases n
  {
    (if !n.isDir && n.lineCount > 0 && Extension(BaseName(n.path)) == ext then n.lineCount else 0)
      + ExtLinesIn(n.children, ext)
  }

  function ExtLinesIn(cs: seq<Child>, ext: string): nat
    decreases cs
  {
    if cs == [] then 0 else ExtLinesOfChild(cs[0], ext) + ExtLinesIn(cs[1..], ext)
  }

  function ExtLinesOfChild(c: Child, ext: string): nat
    decreases c
  {
    match c
    case Marker(_) => 0
    case Entry(m) => ExtLines(m, ext)
  }

  /** A table entry `o` after `k` more lines: a key appears only once some lines were added. */
  function AddLines(o: Option<nat>, k: nat): Option<nat> {
    if k == 0 then o else Some(o.GetOr(0) + k)
  }

  lemma AddLinesTwice(o: Option<nat>, a: nat, b: nat)
    ensures AddLines(AddLines(o, a), b) == AddLines(o, a + b)
  {
  }

  /** The table entry of every extension grows by exactly that extension's lines in the tree. */
  lemma {:induction false} VisitExt(c: Counts, n: Node, ext: string)
    requires FilesAreLeaves(n)
    ensures Lookup(Visit(c, n).byLanguage, ext) == AddLines(Lookup(c.byLanguage, ext), ExtLines(n, ext))
    decreases n
  {
    if n.isDir {
      var d := c.(directories := c.directories + 1);
      assert Visit(c, n) == VisitAll(d, n.children);
      assert ExtLines(n, ext) == ExtLinesIn(n.children, ext);
      assert Lookup(VisitAll(d, n.children).byLanguage, ext) == AddLines(Lookup(c.byLanguage, ext), ExtLinesIn(n.children, ext)) by {
        assert forall i :: 0 <= i < |n.children| && n.children[i].Entry? ==> FilesAreLeaves(n.children[i].node);
        VisitAllExt(d, n.children, ext);
      }
    } else {
      assert Visit(c, n) == VisitFile(c, n);
      assert ExtLinesIn(n.children, ext) == 0 by {
        assert n.children == [];
      }
      VisitFileExt(c, n, ext);
    }
  }

  /** A file adds its lines to its own extension's entry and leaves the others alone. */
  lemma VisitFileExt(c: Counts, n: Node, ext: string)
    ensures Lookup(VisitFile(c, n).byLanguage, ext) ==
      AddLines(Lookup(c.byLanguage, ext), if n.lineCount > 0 && Extension(BaseName(n.path)) == ext then n.lineCount else 0)
  {
    if n.lineCount > 0 {
      BumpLookup(c.byLanguage, Extension(BaseName(n.path)), n.lineCount);
    }
  }

  lemma {:induction false} VisitAllExt(c: Counts, cs: seq<Child>, ext: string)
    requires forall i :: 0 <= i < |cs| && cs[i].Entry? ==> FilesAreLeaves(cs[i].node)
    ensures Lookup(VisitAll(c, cs).byLanguage, ext) == AddLines(Lookup(c.byLanguage, ext), ExtLinesIn(cs, ext))
    decreases cs
  {
    if cs != [] {
      var c1 := VisitChild(c, cs[0]);
      var o, a, b := Lookup(c.byLanguage, ext), ExtLinesOfChild(cs[0], ext), ExtLinesIn(cs[1..], ext);
      assert Lookup(c1.byLanguage, ext) == AddLines(o, a) by {
        VisitChildExt(c, cs[0], ext);
      }
      assert Lookup(VisitAll(c1, cs[1..]).byLanguage, ext) == AddLines(AddLines(o, a), b) by {
        VisitAllExt(c1, cs[1..], ext);
      }
      AddLinesTwice(o, a, b);
    }
  }

  lemma {:induction false} VisitChildExt(c: Counts, child: Child, ext: string)
    requires child.Entry? ==> FilesAreLeaves(child.node)
    ensures Lookup(VisitChild(c, child).byLanguage, ext) == AddLines(Lookup(c.byLanguage, ext), ExtLinesOfChild(child, ext))
    decreases child
  {
    match child
    case Marker(_) =>
    case Entry(m) => VisitExt(c, m, ext);
  }

  /** From the empty table, an extension has an entry exactly when its files have lines, and the entry is their sum. */
  lemma ByLanguageOfTree(n: Node)
    requires FilesAreLeaves(n)
    ensures forall ext :: Lookup(Visit(NoCounts, n).byLanguage, ext) == if ExtLines(n, ext) > 0 then Some(ExtLines(n, ext)) else None
  {
    forall ext
      ensures Lookup(Visit(NoCounts, n).byLanguage, ext) == if ExtLines(n, ext) > 0 then Some(ExtLines(n, ext)) else None
    {
      VisitExt(NoCounts, n, ext);
    }
  }

  /** Every tree `analyze_directory` returns has files as leaves. */
  lemma {:induction false} SoundFilesAreLeaves(t: Tables, n: Node, maxDepth: int, depth: nat, includeHidden: bool)
    requires Sound(t, n, maxDepth, depth, includeHidden)
    ensures FilesAreLeaves(n)
    decreases n
  {
    forall i | 0 <= i < |n.children| && n.children[i].Entry?
      ensures FilesAreLeaves(n.children[i].node)
    {
      SoundFilesAreLeaves(t, n.children[i].node, maxDepth, depth + 1, includeHidden);
    }
  }

  /** With line counts summed upwards, the lines of a tree's files add up to its root's line count. */
  lemma {:induction false} CensusLinesOfAggregate(n: Node)
    requires LinesAggregate(n) && FilesAreLeaves(n)
    ensures CensusOf(n).lines == n.lineCount
    decreases n
  {
    if n.isDir {
      CensusInLinesOfAggregate(n.children);
    }
  }

  lemma {:induction false} CensusInLinesOfAggregate(cs: seq<Child>)
    requires forall i :: 0 <= i < |cs| && cs[i].Entry? ==> LinesAggregate(cs[i].node) && FilesAreLeaves(cs[i].node)
    ensures CensusIn(cs).lines == ChildLines(cs)
    decreases cs
  {
    if cs != [] {
      if cs[0].Entry? {
        CensusChildLines(cs[0]);
      }
      CensusInLinesOfAggregate(cs[1..]);
    }
  }

  lemma {:induction false} CensusChildLines(child: Child)
    requires child.Entry? && LinesAggregate(child.node) && FilesAreLeaves(child.node)
    ensures CensusOfChild(child).lines == child.node.lineCount
    decreases child
  {
    CensusLinesOfAggregate(child.node);
  }

  // ---------------------------------------------------------------- calculate_stats

  /** The `stats` dictionary that `traverse` updates in place. */
  class Stats {
    var totalFiles: nat
    var codeFiles: nat
    var totalLines: nat
    var directories: nat
    var byLanguage: Table

    function Snapshot(): Counts
      reads this
    {
      Counts(totalFiles, codeFiles, totalLines, directories, byLanguage)
    }

    constructor()
      ensures Snapshot() == NoCounts
    {
      totalFiles, codeFiles, totalLines, directories, byLanguage := 0, 0, 0, 0, [];
    }

    /** The nested `traverse(node)`. */
    method Traverse(n: Node)
      modifies this
      ensures Snapshot() == Visit(old(Snapshot()), n)
      decreases n
    {
      if n.isDir {
        ghost var goal := Visit(old(Snapshot()), n);
        directories := directories + 1;
        var cs := n.children;
        assert cs[0..] == cs;
        var i := 0;
        while i < |cs|
          invariant 0 <= i <= |cs|
          invariant VisitAll(Snapshot(), cs[i..]) == goal
        {
          ghost var before := Snapshot();
          VisitAllStep(before, cs, i);
          if cs[i].Entry? {
            Traverse(cs[i].node);
          }
          i := i + 1;
        }
      } else {
        CountFile(n);
      }
    }

    /** The file branch of `traverse`: one more file, and a code file's lines go to its extension. */
    method CountFile(n: Node)
      modifies this
      ensures Snapshot() == VisitFile(old(Snapshot()), n)
    {
      ghost var before := Snapshot();
      if n.lineCount > 0 {
        var ext := Extension(BaseName(n.path));
        totalFiles, codeFiles, totalLines := totalFiles + 1, codeFiles + 1, totalLines + n.lineCount;
        byLanguage := Bump(byLanguage, ext, n.lineCount);
        assert Snapshot() == before.(totalFiles := before.totalFiles + 1, codeFiles := before.codeFiles + 1,
          totalLines := before.totalLines + n.lineCount, byLanguage := Bump(before.byLanguage, ext, n.lineCount));
      } else {
        totalFiles := totalFiles + 1;
      }
    }
  }

  /** `calculate_stats(structure)` for a tree built by `analyze_directory`. */
  method CalculateStats(t: Tables, root: Node, maxDepth: int, depth: nat, includeHidden: bool) returns (s: Counts)
    requires Sound(t, root, maxDepth, depth, includeHidden)
    ensures var k := CensusOf(root);
      s.directories == k.dirs && s.totalFiles == k.files && s.codeFiles == k.codeFiles && s.totalLines == k.lines
    ensures s.totalLines == root.lineCount
    ensures Total(s.byLanguage) == s.totalLines && KeysDistinct(s.byLanguage)
    ensures forall ext :: Lookup(s.byLanguage, ext) == if ExtLines(root, ext) > 0 then Some(ExtLines(root, ext)) else None
  {
    var stats := new Stats();
    stats.Traverse(root);
    s := stats.Snapshot();
    SoundFilesAreLeaves(t, root, maxDepth, depth, includeHidden);
    SoundLinesAggregate(t, root, maxDepth, depth, includeHidden);
    VisitCounts(NoCounts, root);
    CensusLinesOfAggregate(root);
    ByLanguageOfTree(root);
  }
}

=== FILE: structure_tree.dfy ===
/**
 * `analyze_directory` of the structure analyser: the recursive walk that turns a
 * directory into a tree of nodes, cut off below a maximum depth, without hidden
 * directories (unless asked for), with generated directories replaced by a
 * `<skipped>` marker, unreadable ones by `<permission denied>`, children listed
 * directories first and then by name, and each directory's line count the sum of
 * its children's.
 */
module StructureTree {
  import opened Wrappers
  import opened Strings
  import opened Ordering
  import opened FileSystem

  /** Directory names (lower-cased) that are reported as key directories, with their description. */
  const KeyDirectories: map<string, string> := map[
    "src" := "Source code",
    "lib" := "Library code",
    "app" := "Application code",
    "components" := "UI components",
    "pages" := "Page components",
    "views" := "View components",
    "api" := "API endpoints",
    "routes" := "Route definitions",
    "controllers" := "Controller logic",
    "services" := "Business logic services",
    "models" := "Data models",
    "utils" := "Utility functions",
    "helpers" := "Helper functions",
    "config" := "Configuration files",
    "tests" := "Test files",
    "test" := "Test files",
    "__tests__" := "Test files",
    "spec" := "Test specifications",
    "docs" := "Documentation",
    "assets" := "Static assets",
    "public" := "Public files",
    "static" := "Static files",
    "styles" := "Stylesheets",
    "scripts" := "Build/deploy scripts",
    "dist" := "Distribution files",
    "build" := "Build output",
    "node_modules" := "Node dependencies",
    ".git" := "Git version control",
    "vendor" := "Third-party dependencies"
  ]

  /** Extensions of the files whose lines are counted. */
  const CodeExtensions: set<string> := {
    "py", "js", "ts", "jsx", "tsx", "vue", "svelte",
    "java", "kt", "kts", "go", "rs", "c", "cpp", "h", "hpp",
    "cs", "swift", "rb", "php", "scala", "dart",
    "html", "css", "scss", "sass", "less",
    "json", "yaml", "yml", "xml", "toml", "ini"
  }

  /** Generated directories that are shown but not descended into. */
  const SkipDirs: set<string> := {"node_modules", "__pycache__", ".git", "dist", "build", ".next", ".nuxt"}

  /**
   * The three tables the walk consults; the walk and its properties are stated for any
   * tables, and the script's own are `ScriptTables`.
   */
  datatype Tables = Tables(keyDirectories: map<string, string>, codeExtensions: set<string>, skipDirs: set<string>)

  const ScriptTables: Tables := Tables(KeyDirectories, CodeExtensions, SkipDirs)

  /** A directory reported as a key directory: its lower-cased name is in the table. */
  predicate IsKeyName(t: Tables, name: string) {
    Lower(name) in t.keyDirectories
  }

  /** A file whose lines are counted: its extension is a code extension. */
  predicate IsCodeName(t: Tables, name: string) {
    Extension(name) in t.codeExtensions
  }

  const Skipped: string := "<skipped>"
  const PermissionDenied: string := "<permission denied>"

  /** One node of the result: the dictionary with keys name, type, path, children, line_count, is_key. */
  datatype Node = Node(name: string, isDir: bool, path: string, children: seq<Child>, lineCount: nat, isKey: bool)

  /** An entry of a `children` list: a nested node, or one of the string markers. */
  datatype Child = Marker(text: string) | Entry(node: Node)

  predicate IsHidden(name: string) {
    StartsWith(name, ".") && name != "."
  }

  // ---------------------------------------------------------------- sorting the listing

  /** The sort key `(not is_dir, name)` of `a` is at most that of `b`. */
  predicate EntryBefore(a: FsEntry, b: FsEntry) {
    (a.IsDir() && !b.IsDir()) || (a.IsDir() == b.IsDir() && !StrLess(b.name, a.name))
  }

  predicate EntriesSorted(s: seq<FsEntry>) {
    forall i, j :: 0 <= i < j < |s| ==> EntryBefore(s[i], s[j])
  }

  lemma EntryBeforeTotalPreorder()
    ensures forall a, b :: EntryBefore(a, b) || EntryBefore(b, a)
    ensures forall a, b, c :: EntryBefore(a, b) && EntryBefore(b, c) ==> EntryBefore(a, c)
  {
    StrLessStrictTotal();
  }

  /** Puts `x` before the first element whose key is not smaller, so equal keys keep their order. */
  function InsertEntry(x: FsEntry, s: seq<FsEntry>): seq<FsEntry> {
    if s == [] then [x]
    else if EntryBefore(x, s[0]) then [x] + s
    else [s[0]] + InsertEntry(x, s[1..])
  }

  /** Inserting adds `x` and keeps everything else. */
  lemma {:induction false} InsertEntryPermutes(x: FsEntry, s: seq<FsEntry>)
    ensures multiset(InsertEntry(x, s)) == multiset(s) + multiset{x}
  {
    if s != [] && !EntryBefore(x, s[0]) {
      InsertEntryPermutes(x, s[1..]);
      assert s == [s[0]] + s[1..];
    }
  }

  /** Inserting into a sorted listing keeps it sorted. */
  lemma {:induction false} InsertEntrySorted(x: FsEntry, s: seq<FsEntry>)
    requires EntriesSorted(s)
    ensures EntriesSorted(InsertEntry(x, s))
  {
    if s != [] {
      if EntryBefore(x, s[0]) {
        InsertFront(x, s);
      } else {
        InsertEntrySorted(x, s[1..]);
        InsertEntryPermutes(x, s[1..]);
        InsertBehind(x, s, InsertEntry(x, s[1..]));
      }
    }
  }

  /** `x` goes in front when its key is at most the first one's. */
  lemma InsertFront(x: FsEntry, s: seq<FsEntry>)
    requires s != [] && EntriesSorted(s) && EntryBefore(x, s[0])
    ensures EntriesSorted([x] + s)
  {
    EntryBeforeTotalPreorder();
    var r := [x] + s;
    forall i, j | 0 <= i < j < |r| ensures EntryBefore(r[i], r[j]) {
      if i == 0 {
        assert r[j] == s[j - 1];
        if j > 1 {
          assert EntryBefore(s[0], s[j - 1]);
        }
      } else {
        assert r[i] == s[i - 1] && r[j] == s[j - 1];
      }
    }
  }

  /** `x` goes behind the first element when its key is larger; `tail` is the rest with `x` inserted. */
  lemma InsertBehind(x: FsEntry, s: seq<FsEntry>, tail: seq<FsEntry>)
    requires s != [] && EntriesSorted(s) && !EntryBefore(x, s[0])
    requires EntriesSorted(tail) && multiset(tail) == multiset(s[1..]) + multiset{x}
    ensures EntriesSorted([s[0]] + tail)
    ensures multiset([s[0]] + tail) == multiset(s) + multiset{x}
  {
    assert s == [s[0]] + s[1..];
    HeadBeforeAll(x, s, tail);
    var r := [s[0]] + tail;
    forall i, j | 0 <= i < j < |r| ensures EntryBefore(r[i], r[j]) {
      if i == 0 {
        assert r[j] == tail[j - 1];
      } else {
        assert r[i] == tail[i - 1] && r[j] == tail[j - 1];
      }
    }
  }

  /** The first element's key is at most that of `x` and of everything after it. */
  lemma HeadBeforeAll(x: FsEntry, s: seq<FsEntry>, tail: seq<FsEntry>)
    requires s != [] && EntriesSorted(s) && !EntryBefore(x, s[0])
    requires multiset(tail) == multiset(s[1..]) + multiset{x}
    ensures forall k :: 0 <= k < |tail| ==> EntryBefore(s[0], tail[k])
  {
    EntryBeforeTotalPreorder();
    forall k | 0 <= k < |tail| ensures EntryBefore(s[0], tail[k]) {
      var y := tail[k];
      assert y in multiset(tail);
      if y != x {
        assert y in s[1..];
        var j :| 0 <= j < |s[1..]| && s[1..][j] == y;
        assert s[j + 1] == y;
      }
    }
  }

  /** `sorted(items, key=lambda x: (not x.is_dir(), x.name))`, as a stable insertion sort. */
  function SortEntries(es: seq<FsEntry>): seq<FsEntry> {
    if es == [] then [] else InsertEntry(es[0], SortEntries(es[1..]))
  }

  /** The listing comes out sorted by its key and is a permutation of the directory's entries. */
  lemma {:induction false} SortEntriesSorted(es: seq<FsEntry>)
    ensures EntriesSorted(SortEntries(es))
    ensures multiset(SortEntries(es)) == multiset(es)
  {
    if es != [] {
      SortEntriesSorted(es[1..]);
      InsertEntrySorted(es[0], SortEntries(es[1..]));
      InsertEntryPermutes(es[0], SortEntries(es[1..]));
      assert es == [es[0]] + es[1..];
    }
  }

  /** Sorting keeps only entries of the listing. */
  lemma SortEntriesMembers(es: seq<FsEntry>)
    ensures forall x :: x in SortEntries(es) ==> x in es
  {
    SortEntriesSorted(es);
    forall x | x in SortEntries(es) ensures x in es {
      assert x in multiset(SortEntries(es));
    }
  }

  // ---------------------------------------------------------------- the walk

  /** What the loop over the sorted listing has built: the kept children and the summed line count. */
  datatype Collected = Collected(children: seq<Child>, lines: nat)

  /**
   * `analyze_directory(root_path, max_depth, include_hidden, current_depth)`; `None` is
   * Python's `None`.
   */
  function Analyze(t: Tables, e: FsEntry, path: string, maxDepth: int, includeHidden: bool, depth: nat): (r: Option<Node>)
    ensures r.None? <==> depth > maxDepth || (e.IsDir() && !includeHidden && IsHidden(e.name))
    ensures r.Some? ==> r.value.name == e.name && r.value.isDir == e.IsDir() && r.value.path == path
    ensures r.Some? && e.FsFile? ==>
      r.value.children == [] && r.value.lineCount == (if IsCodeName(t, e.name) then e.lineCount else 0)
    ensures r.Some? && e.IsDir() && e.name in t.skipDirs ==>
      r.value.children == [Marker(Skipped)] && r.value.lineCount == 0
    ensures r.Some? && e.FsUnreadable? && e.name !in t.skipDirs ==>
      r.value.children == [Marker(PermissionDenied)] && r.value.lineCount == 0
    decreases e
  {
    if depth > maxDepth then None
    else if e.FsFile? then
      Some(Node(e.name, false, path, [], if IsCodeName(t, e.name) then e.lineCount else 0, false))
    else
      var isKey := IsKeyName(t, e.name);
      if !includeHidden && IsHidden(e.name) then None
      else if e.name in t.skipDirs then Some(Node(e.name, true, path, [Marker(Skipped)], 0, isKey))
      else if e.FsUnreadable? then Some(Node(e.name, true, path, [Marker(PermissionDenied)], 0, isKey))
      else
        SortEntriesMembers(e.entries);
        var c := AnalyzeChildren(t, e, SortEntries(e.entries), path, maxDepth, includeHidden, depth + 1);
        Some(Node(e.name, true, path, c.children, c.lines, isKey))
  }

  /** The `for item in items` loop of a readable directory `dir` at `path`; `depth` is the children's depth. */
  function AnalyzeChildren(t: Tables, dir: FsEntry, items: seq<FsEntry>, path: string, maxDepth: int, includeHidden: bool, depth: nat): (c: Collected)
    requires dir.FsDir?
    requires forall x :: x in items ==> x in dir.entries
    decreases dir, |items|
  {
    if items == [] then Collected([], 0)
    else
      assert items[0] in dir.entries;
      var rest := AnalyzeChildren(t, dir, items[1..], path, maxDepth, includeHidden, depth);
      match Analyze(t, items[0], ChildPath(path, items[0].name), maxDepth, includeHidden, depth)
      case None => rest
      case Some(child) => Collected([Entry(child)] + rest.children, child.lineCount + rest.lines)
  }

  // ---------------------------------------------------------------- properties of the result

  /** Sum of the `line_count` of the nested nodes; markers count for nothing. */
  function ChildLines(cs: seq<Child>): nat {
    if cs == [] then 0
    else (if cs[0].Entry? then cs[0].node.lineCount else 0) + ChildLines(cs[1..])
  }

  /** Every directory's line count is the sum of its children's. */
  ghost predicate LinesAggregate(n: Node) {
    && (n.isDir ==> n.lineCount == ChildLines(n.children))
    && forall i :: 0 <= i < |n.children| && n.children[i].Entry? ==> LinesAggregate(n.children[i].node)
  }

  /** Sort key of a result node, as for the listing it came from. */
  predicate NodeBefore(a: Node, b: Node) {
    (a.isDir && !b.isDir) || (a.isDir == b.isDir && !StrLess(b.name, a.name))
  }

  /** Children are listed directories first, then files, each group by ascending name; recursively. */
  ghost predicate Ordered(n: Node) {
    && (forall i, j :: 0 <= i < j < |n.children| && n.children[i].Entry? && n.children[j].Entry? ==>
          NodeBefore(n.children[i].node, n.children[j].node))
    && forall i :: 0 <= i < |n.children| && n.children[i].Entry? ==> Ordered(n.children[i].node)
  }

  /**
   * What holds of one node at `depth` when the walk stops below `maxDepth`: the depth is
   * within the bound, a directory's line count is its children's sum, a directory is not
   * hidden (unless hidden ones are included), only directories whose lower-cased name is
   * in the table are key directories, and a file has no children and counts lines only
   * with a code extension.
   */
  predicate NodeSound(t: Tables, n: Node, maxDepth: int, depth: nat, includeHidden: bool) {
    && depth <= maxDepth
    && (n.isDir ==> n.lineCount == ChildLines(n.children))
    && (n.isDir && !includeHidden ==> !IsHidden(n.name))
    && (n.isKey <==> n.isDir && IsKeyName(t, n.name))
    && (!n.isDir ==> n.children == [] && (n.lineCount > 0 ==> IsCodeName(t, n.name)))
  }

  /** `NodeSound` at every node of the tree, children one level deeper than their parent. */
  ghost predicate Sound(t: Tables, n: Node, maxDepth: int, depth: nat, includeHidden: bool) {
    && NodeSound(t, n, maxDepth, depth, includeHidden)
    && forall i :: 0 <= i < |n.children| && n.children[i].Entry? ==> Sound(t, n.children[i].node, maxDepth, depth + 1, includeHidden)
  }

  /** A sound tree sums its line counts upwards. */
  lemma {:induction false} SoundLinesAggregate(t: Tables, n: Node, maxDepth: int, depth: nat, includeHidden: bool)
    requires Sound(t, n, maxDepth, depth, includeHidden)
    ensures LinesAggregate(n)
    decreases n
  {
    forall i | 0 <= i < |n.children| && n.children[i].Entry?
      ensures LinesAggregate(n.children[i].node)
    {
      SoundLinesAggregate(t, n.children[i].node, maxDepth, depth + 1, includeHidden);
    }
  }

  /** Every child is a nested node satisfying `Sound`. */
  ghost predicate AllSound(t: Tables, cs: seq<Child>, maxDepth: int, depth: nat, includeHidden: bool) {
    forall i :: 0 <= i < |cs| ==> cs[i].Entry? && Sound(t, cs[i].node, maxDepth, depth, includeHidden)
  }

  /** Every child is a nested node, itself ordered, and the nodes are listed in sort-key order. */
  ghost predicate AllOrdered(cs: seq<Child>) {
    && (forall i :: 0 <= i < |cs| ==> cs[i].Entry? && Ordered(cs[i].node))
    && (forall i, j :: 0 <= i < j < |cs| ==> NodeBefore(cs[i].node, cs[j].node))
  }

  /** Every child is a nested node whose key is at least that of `x`. */
  ghost predicate AllFollow(x: FsEntry, cs: seq<Child>) {
    forall i :: 0 <= i < |cs| ==> cs[i].Entry? && Follows(x, cs[i].node)
  }

  predicate OnlyMarkers(cs: seq<Child>) {
    forall i :: 0 <= i < |cs| ==> cs[i].Marker?
  }

  /** The nodes `analyze_directory` builds respect the depth bound, sum their lines, hide what is hidden and mark key directories. */
  lemma {:induction false} AnalyzeSound(t: Tables, e: FsEntry, path: string, maxDepth: int, includeHidden: bool, depth: nat)
    requires Analyze(t, e, path, maxDepth, includeHidden, depth).Some?
    ensures Sound(t, Analyze(t, e, path, maxDepth, includeHidden, depth).value, maxDepth, depth, includeHidden)
    decreases e, 2
  {
    var n := Analyze(t, e, path, maxDepth, includeHidden, depth).value;
    if e.FsFile? {
      assert n.children == [];
    } else if e.name in t.skipDirs || e.FsUnreadable? {
      assert ChildLines(n.children) == 0 by {
        assert n.children[1..] == [];
      }
    } else {
      AnalyzeDirSound(t, e, path, maxDepth, includeHidden, depth);
    }
  }

  /** The case of a readable directory that is walked. */
  lemma {:induction false} AnalyzeDirSound(t: Tables, e: FsEntry, path: string, maxDepth: int, includeHidden: bool, depth: nat)
    requires e.FsDir? && e.name !in t.skipDirs
    requires Analyze(t, e, path, maxDepth, includeHidden, depth).Some?
    ensures Sound(t, Analyze(t, e, path, maxDepth, includeHidden, depth).value, maxDepth, depth, includeHidden)
    decreases e, 1
  {
    var n := Analyze(t, e, path, maxDepth, includeHidden, depth).value;
    var items := SortEntries(e.entries);
    SortEntriesMembers(e.entries);
    var c := AnalyzeChildren(t, e, items, path, maxDepth, includeHidden, depth + 1);
    AnalyzeChildrenSound(t, e, items, path, maxDepth, includeHidden, depth + 1);
    assert n.children == c.children && n.lineCount == c.lines;
  }

  lemma {:induction false} AnalyzeChildrenSound(t: Tables, dir: FsEntry, items: seq<FsEntry>, path: string, maxDepth: int, includeHidden: bool, depth: nat)
    requires dir.FsDir?
    requires forall x :: x in items ==> x in dir.entries
    ensures AnalyzeChildren(t, dir, items, path, maxDepth, includeHidden, depth).lines
      == ChildLines(AnalyzeChildren(t, dir, items, path, maxDepth, includeHidden, depth).children)
    ensures AllSound(t, AnalyzeChildren(t, dir, items, path, maxDepth, includeHidden, depth).children, maxDepth, depth, includeHidden)
    decreases dir, 0, |items|
  {
    if items != [] {
      assert items[0] in dir.entries;
      AnalyzeChildrenSound(t, dir, items[1..], path, maxDepth, includeHidden, depth);
      var p := ChildPath(path, items[0].name);
      var r := Analyze(t, items[0], p, maxDepth, includeHidden, depth);
      if r.Some? {
        AnalyzeSound(t, items[0], p, maxDepth, includeHidden, depth);
        var rest := AnalyzeChildren(t, dir, items[1..], path, maxDepth, includeHidden, depth);
        AllSoundCons(t, r.value, rest.children, maxDepth, depth, includeHidden);
        assert AnalyzeChildren(t, dir, items, path, maxDepth, includeHidden, depth).children == [Entry(r.value)] + rest.children;
      }
    }
  }

  /** A sound node in front of sound children. */
  lemma AllSoundCons(t: Tables, n: Node, rest: seq<Child>, maxDepth: int, depth: nat, includeHidden: bool)
    requires Sound(t, n, maxDepth, depth, includeHidden) && AllSound(t, rest, maxDepth, depth, includeHidden)
    ensures AllSound(t, [Entry(n)] + rest, maxDepth, depth, includeHidden)
    ensures ChildLines([Entry(n)] + rest) == n.lineCount + ChildLines(rest)
  {
    assert ([Entry(n)] + rest)[1..] == rest;
  }

  /** Children come directories first, then files, each group by ascending name, at every level. */
  lemma {:induction false} AnalyzeOrdered(t: Tables, e: FsEntry, path: string, maxDepth: int, includeHidden: bool, depth: nat)
    requires Analyze(t, e, path, maxDepth, includeHidden, depth).Some?
    ensures Ordered(Analyze(t, e, path, maxDepth, includeHidden, depth).value)
    decreases e
  {
    if e.FsDir? && e.name !in t.skipDirs {
      var items := SortEntries(e.entries);
      SortEntriesMembers(e.entries);
      SortEntriesSorted(e.entries);
      AnalyzeChildrenOrdered(t, e, items, path, maxDepth, includeHidden, depth + 1);
    }
  }

  /** Key of node `n` is at least that of entry `x`. */
  predicate Follows(x: FsEntry, n: Node) {
    (x.IsDir() && !n.isDir) || (x.IsDir() == n.isDir && !StrLess(n.name, x.name))
  }

  lemma {:induction false} AnalyzeChildrenOrdered(t: Tables, dir: FsEntry, items: seq<FsEntry>, path: string, maxDepth: int, includeHidden: bool, depth: nat)
    requires dir.FsDir?
    requires forall x :: x in items ==> x in dir.entries
    requires EntriesSorted(items)
    ensures AllOrdered(AnalyzeChildren(t, dir, items, path, maxDepth, includeHidden, depth).children)
    decreases dir, |items|
  {
    if items != [] {
      assert items[0] in dir.entries;
      AnalyzeChildrenOrdered(t, dir, items[1..], path, maxDepth, includeHidden, depth);
      var p := ChildPath(path, items[0].name);
      var r := Analyze(t, items[0], p, maxDepth, includeHidden, depth);
      if r.Some? {
        AnalyzeOrdered(t, items[0], p, maxDepth, includeHidden, depth);
        AnalyzeChildrenFollow(t, dir, items[1..], items[0], path, maxDepth, includeHidden, depth);
        OrderedCons(items[0], r.value, AnalyzeChildren(t, dir, items[1..], path, maxDepth, includeHidden, depth).children);
      }
    }
  }

  /** The node of entry `x`, ordered itself, in front of ordered children that all follow `x`. */
  lemma OrderedCons(x: FsEntry, n: Node, rest: seq<Child>)
    requires n.name == x.name && n.isDir == x.IsDir()
    requires Ordered(n) && AllOrdered(rest) && AllFollow(x, rest)
    ensures AllOrdered([Entry(n)] + rest)
  {
    var cs := [Entry(n)] + rest;
    forall i | 0 <= i < |cs| ensures cs[i].Entry? && Ordered(cs[i].node) {
      if i > 0 {
        assert cs[i] == rest[i - 1];
      }
    }
    forall i, j | 0 <= i < j < |cs| ensures NodeBefore(cs[i].node, cs[j].node) {
      assert cs[j] == rest[j - 1];
      if i == 0 {
        assert Follows(x, rest[j - 1].node);
      } else {
        assert cs[i] == rest[i - 1];
      }
    }
  }

  /** Every child built from entries that all come after `x` also comes after `x`. */
  lemma {:induction false} AnalyzeChildrenFollow(t: Tables, dir: FsEntry, items: seq<FsEntry>, x: FsEntry, path: string, maxDepth: int, includeHidden: bool, depth: nat)
    requires dir.FsDir?
    requires forall y :: y in items ==> y in dir.entries
    requires forall k :: 0 <= k < |items| ==> EntryBefore(x, items[k])
    ensures AllFollow(x, AnalyzeChildren(t, dir, items, path, maxDepth, includeHidden, depth).children)
    decreases |items|
  {
    if items != [] {
      assert items[0] in dir.entries;
      AnalyzeChildrenFollow(t, dir, items[1..], x, path, maxDepth, includeHidden, depth);
      var r := Analyze(t, items[0], ChildPath(path, items[0].name), maxDepth, includeHidden, depth);
      if r.Some? {
        assert EntryBefore(x, items[0]);
        FollowCons(x, r.value, AnalyzeChildren(t, dir, items[1..], path, maxDepth, includeHidden, depth).children);
      }
    }
  }

  /** A node that follows `x` in front of children that all follow `x`. */
  lemma FollowCons(x: FsEntry, n: Node, rest: seq<Child>)
    requires Follows(x, n) && AllFollow(x, rest)
    ensures AllFollow(x, [Entry(n)] + rest)
  {
    var cs := [Entry(n)] + rest;
    forall i | 0 <= i < |cs| ensures cs[i].Entry? && Follows(x, cs[i].node) {
      if i > 0 {
        assert cs[i] == rest[i - 1];
      }
    }
  }

  // ---------------------------------------------------------------- which children are kept

  /** The walked node of each listed item that gives one, in listing order (`if child: append(child)`). */
  function KeptNodes(t: Tables, items: seq<FsEntry>, path: string, maxDepth: int, includeHidden: bool, depth: nat): seq<Child> {
    if items == [] then []
    else
      var rest := KeptNodes(t, items[1..], path, maxDepth, includeHidden, depth);
      match ChildOf(t, items[0], path, maxDepth, includeHidden, depth)
      case None => rest
      case Some(n) => [Entry(n)] + rest
  }

  /** The node item `x` gives under a directory at `path`, one level down, if any. */
  function ChildOf(t: Tables, x: FsEntry, path: string, maxDepth: int, includeHidden: bool, depth: nat): Option<Node> {
    Analyze(t, x, ChildPath(path, x.name), maxDepth, includeHidden, depth)
  }

  /** Every item that gives a node has that node among the kept ones, and every kept child is such a node. */
  lemma {:induction false} KeptNodesMembers(t: Tables, items: seq<FsEntry>, path: string, maxDepth: int, includeHidden: bool, depth: nat)
    ensures forall x :: x in items && ChildOf(t, x, path, maxDepth, includeHidden, depth).Some? ==>
      Entry(ChildOf(t, x, path, maxDepth, includeHidden, depth).value) in KeptNodes(t, items, path, maxDepth, includeHidden, depth)
    ensures forall c :: c in KeptNodes(t, items, path, maxDepth, includeHidden, depth) ==>
      c.Entry? && exists x :: x in items && ChildOf(t, x, path, maxDepth, includeHidden, depth) == Some(c.node)
  {
    if items != [] {
      var rest := KeptNodes(t, items[1..], path, maxDepth, includeHidden, depth);
      var k := KeptNodes(t, items, path, maxDepth, includeHidden, depth);
      var r := ChildOf(t, items[0], path, maxDepth, includeHidden, depth);
      KeptNodesMembers(t, items[1..], path, maxDepth, includeHidden, depth);
      assert k == if r.Some? then [Entry(r.value)] + rest else rest;
      forall x | x in items && ChildOf(t, x, path, maxDepth, includeHidden, depth).Some?
        ensures Entry(ChildOf(t, x, path, maxDepth, includeHidden, depth).value) in k
      {
        if x != items[0] {
          assert x in items[1..];
        }
      }
      forall c | c in k
        ensures c.Entry? && exists x :: x in items && ChildOf(t, x, path, maxDepth, includeHidden, depth) == Some(c.node)
      {
        if c in rest {
          var x :| x in items[1..] && ChildOf(t, x, path, maxDepth, includeHidden, depth) == Some(c.node);
          assert x in items;
        } else {
          assert c == Entry(r.value);
          assert items[0] in items;
        }
      }
    }
  }

  /** The loop keeps exactly the kept nodes, in order. */
  lemma {:induction false} AnalyzeChildrenKept(t: Tables, dir: FsEntry, items: seq<FsEntry>, path: string, maxDepth: int, includeHidden: bool, depth: nat)
    requires dir.FsDir?
    requires forall x :: x in items ==> x in dir.entries
    ensures AnalyzeChildren(t, dir, items, path, maxDepth, includeHidden, depth).children == KeptNodes(t, items, path, maxDepth, includeHidden, depth)
    decreases |items|
  {
    if items != [] {
      assert items[0] in dir.entries;
      AnalyzeChildrenKept(t, dir, items[1..], path, maxDepth, includeHidden, depth);
    }
  }

  /**
   * A walked directory's children are the nodes of its sorted listing's items that give one,
   * in that order; so every entry that gives a node appears, and nothing else does.
   */
  lemma AnalyzeKeepsChildren(t: Tables, e: FsEntry, path: string, maxDepth: int, includeHidden: bool, depth: nat)
    requires e.FsDir? && e.name !in t.skipDirs
    requires Analyze(t, e, path, maxDepth, includeHidden, depth).Some?
    ensures Analyze(t, e, path, maxDepth, includeHidden, depth).value.children
      == KeptNodes(t, SortEntries(e.entries), path, maxDepth, includeHidden, depth + 1)
    ensures forall x :: x in e.entries && ChildOf(t, x, path, maxDepth, includeHidden, depth + 1).Some? ==>
      Entry(ChildOf(t, x, path, maxDepth, includeHidden, depth + 1).value) in Analyze(t, e, path, maxDepth, includeHidden, depth).value.children
    ensures forall c :: c in Analyze(t, e, path, maxDepth, includeHidden, depth).value.children ==>
      c.Entry? && exists x :: x in e.entries && ChildOf(t, x, path, maxDepth, includeHidden, depth + 1) == Some(c.node)
  {
    var items := SortEntries(e.entries);
    SortEntriesMembers(e.entries);
    SortEntriesSorted(e.entries);
    AnalyzeChildrenKept(t, e, items, path, maxDepth, includeHidden, depth + 1);
    KeptNodesMembers(t, items, path, maxDepth, includeHidden, depth + 1);
    forall x | x in e.entries ensures x in items {
      assert x in multiset(e.entries);
    }
  }

  /**
   * Below the depth limit a walked directory keeps a node for every file, hidden or not, and
   * for every directory that is not hidden (or for every directory when hidden ones are included).
   */
  lemma AnalyzeKeepsVisible(t: Tables, e: FsEntry, path: string, maxDepth: int, includeHidden: bool, depth: nat)
    requires e.FsDir? && e.name !in t.skipDirs && depth < maxDepth
    requires Analyze(t, e, path, maxDepth, includeHidden, depth).Some?
    ensures forall x :: x in e.entries && (x.FsFile? || includeHidden || !IsHidden(x.name)) ==>
      ChildOf(t, x, path, maxDepth, includeHidden, depth + 1).Some? &&
      Entry(ChildOf(t, x, path, maxDepth, includeHidden, depth + 1).value) in Analyze(t, e, path, maxDepth, includeHidden, depth).value.children
  {
    AnalyzeKeepsChildren(t, e, path, maxDepth, includeHidden, depth);
  }

  /** With `max_depth = 0` the root keeps no nested node (at most a marker), and a root directory counts no lines. */
  lemma MaxDepthZero(t: Tables, e: FsEntry, path: string, includeHidden: bool)
    requires Analyze(t, e, path, 0, includeHidden, 0).Some?
    ensures Analyze(t, e, path, 0, includeHidden, 0).value.isDir ==> Analyze(t, e, path, 0, includeHidden, 0).value.lineCount == 0
    ensures OnlyMarkers(Analyze(t, e, path, 0, includeHidden, 0).value.children)
  {
    var n := Analyze(t, e, path, 0, includeHidden, 0).value;
    AnalyzeSound(t, e, path, 0, includeHidden, 0);
    assert forall i :: 0 <= i < |n.children| && n.children[i].Entry? ==> Sound(t, n.children[i].node, 0, 1, includeHidden);
    if n.isDir {
      ChildLinesOfMarkers(n.children);
    }
  }

  lemma {:induction false} ChildLinesOfMarkers(cs: seq<Child>)
    requires OnlyMarkers(cs)
    ensures ChildLines(cs) == 0
  {
    if cs != [] {
      ChildLinesOfMarkers(cs[1..]);
    }
  }
}

=== FILE: tech_stack.dfy ===
/**
 * The tech-stack detector: which package manager a project uses (first dependency
 * file found, in table order), which languages its files are written in (counted
 * by extension over a walk that prunes generated directories), which dependencies
 * its manifest declares (package.json, requirements.txt, go.mod or Cargo.toml, in
 * that priority), and which frameworks and build tools those dependencies reveal.
 */
module TechStack {
  import opened Wrappers
  import opened Strings
  import opened Ordering
  import opened FileSystem

  // ---------------------------------------------------------------- tables

  /** Dependency files and the package manager each one reveals, in table order. */
  const DependencyFiles: seq<(string, string)> := [
    ("package.json", "npm/yarn/pnpm"),
    ("package-lock.json", "npm"),
    ("yarn.lock", "yarn"),
    ("pnpm-lock.yaml", "pnpm"),
    ("requirements.txt", "pip"),
    ("setup.py", "pip"),
    ("pyproject.toml", "pip/pep518"),
    ("Pipfile", "pipenv"),
    ("poetry.lock", "poetry"),
    ("go.mod", "go modules"),
    ("go.sum", "go modules"),
    ("Cargo.toml", "cargo"),
    ("Cargo.lock", "cargo"),
    ("pom.xml", "maven"),
    ("build.gradle", "gradle"),
    ("build.gradle.kts", "gradle"),
    ("Gemfile", "bundler"),
    ("Gemfile.lock", "bundler"),
    ("composer.json", "composer")
  ]

  /** Frameworks and the dependency names that reveal them; a `*` makes a prefix pattern. */
  const FrameworkPatterns: seq<(string, seq<string>)> := [
    ("react", ["react", "@types/react"]),
    ("vue", ["vue", "@vue/*"]),
    ("angular", ["@angular/*"]),
    ("svelte", ["svelte"]),
    ("next.js", ["next"]),
    ("nuxt", ["nuxt"]),
    ("gatsby", ["gatsby"]),
    ("express", ["express"]),
    ("koa", ["koa"]),
    ("nest", ["@nestjs/*"]),
    ("remix", ["@remix-run/*"]),
    ("astro", ["astro"]),
    ("solid", ["solid-js"]),
    ("preact", ["preact"]),
    ("vite", ["vite"]),
    ("webpack", ["webpack"]),
    ("rollup", ["rollup"]),
    ("esbuild", ["esbuild"]),
    ("tailwind", ["tailwindcss", "@tailwindcss/*"]),
    ("bootstrap", ["bootstrap"]),
    ("material-ui", ["@mui/*", "@material-ui/*"]),
    ("ant-design", ["antd"]),
    ("chakra-ui", ["@chakra-ui/*"]),
    ("django", ["django"]),
    ("flask", ["flask"]),
    ("fastapi", ["fastapi"]),
    ("tornado", ["tornado"]),
    ("pyramid", ["pyramid"]),
    ("sanic", ["sanic"]),
    ("aiohttp", ["aiohttp"]),
    ("celery", ["celery"]),
    ("sqlalchemy", ["sqlalchemy"]),
    ("pandas", ["pandas"]),
    ("numpy", ["numpy"]),
    ("scikit-learn", ["scikit-learn", "sklearn"]),
    ("pytest", ["pytest"]),
    ("black", ["black"]),
    ("mypy", ["mypy"]),
    ("gin", ["github.com/gin-gonic/gin"]),
    ("echo", ["github.com/labstack/echo"]),
    ("fiber", ["github.com/gofiber/fiber"]),
    ("gorilla", ["github.com/gorilla/*"]),
    ("actix", ["actix-web", "actix-*"]),
    ("rocket", ["rocket"]),
    ("tokio", ["tokio"]),
    ("serde", ["serde"]),
    ("spring", ["org.springframework.*"]),
    ("spring-boot", ["org.springframework.boot"]),
    ("hibernate", ["org.hibernate"]),
    ("junit", ["junit"]),
    ("mockito", ["org.mockito"]),
    ("rails", ["rails"]),
    ("sinatra", ["sinatra"]),
    ("rspec", ["rspec"]),
    ("rubocop", ["rubocop"]),
    ("laravel", ["laravel/*"]),
    ("symfony", ["symfony/*"]),
    ("wordpress", ["wordpress"])
  ]

  /** Language of each counted extension (the table lists `swift` twice, with the same language). */
  const LanguageExtensions: map<string, string> := map[
    "py" := "Python",
    "js" := "JavaScript",
    "jsx" := "JavaScript (React)",
    "ts" := "TypeScript",
    "tsx" := "TypeScript (React)",
    "vue" := "Vue",
    "go" := "Go",
    "rs" := "Rust",
    "java" := "Java",
    "kt" := "Kotlin",
    "kts" := "Kotlin",
    "c" := "C",
    "cpp" := "C++",
    "h" := "C",
    "hpp" := "C++",
    "cs" := "C#",
    "swift" := "Swift",
    "rb" := "Ruby",
    "php" := "PHP",
    "scala" := "Scala",
    "dart" := "Dart",
    "lua" := "Lua",
    "r" := "R",
    "m" := "Objective-C",
    "mm" := "Objective-C++",
    "sql" := "SQL",
    "sh" := "Shell",
    "bash" := "Bash",
    "zsh" := "Zsh",
    "ps1" := "PowerShell"
  ]

  /** Directory names the language walk does not descend into. */
  const IgnoredDirs: set<string> := {
    "node_modules", "__pycache__", ".git", "vendor", "dist", "build", ".next", ".nuxt", "target", "bin"
  }

  /** Build tools and the exact dependency names that reveal them, in report order. */
  const BuildToolIndicators: seq<(string, seq<string>)> := [
    ("webpack", ["webpack", "webpack-cli"]),
    ("rollup", ["rollup"]),
    ("vite", ["vite"]),
    ("esbuild", ["esbuild"]),
    ("parcel", ["parcel"]),
    ("turbopack", ["turbo"]),
    ("gulp", ["gulp"]),
    ("grunt", ["grunt"]),
    ("babel", ["@babel/core", "babel-core"]),
    ("typescript", ["typescript"]),
    ("jest", ["jest"]),
    ("cypress", ["cypress"]),
    ("playwright", ["@playwright/test"])
  ]

  /** The package.json sections merged into the dependencies, later ones overriding earlier ones. */
  const PackageJsonSections: seq<string> := ["dependencies", "devDependencies", "peerDependencies"]

  // ---------------------------------------------------------------- detect_package_manager

  /** Index of the first entry of `files` that is present, or `|files|` when none is. */
  function FirstPresent(files: seq<(string, string)>, present: set<string>): (k: nat)
    ensures k <= |files|
    ensures k < |files| ==> files[k].0 in present
    ensures forall j :: 0 <= j < k ==> files[j].0 !in present
  {
    if files == [] || files[0].0 in present then 0 else 1 + FirstPresent(files[1..], present)
  }

  /** The table walk of `detect_package_manager`: the manager of the first file present, else `Unknown`. */
  method ManagerOf(files: seq<(string, string)>, present: set<string>) returns (manager: string)
    ensures FirstPresent(files, present) < |files| ==> manager == files[FirstPresent(files, present)].1
    ensures FirstPresent(files, present) == |files| ==> manager == "Unknown"
  {
    var i := 0;
    while i < |files|
      invariant 0 <= i <= |files|
      invariant forall j :: 0 <= j < i ==> files[j].0 !in present
    {
      if files[i].0 in present {
        return files[i].1;
      }
      i := i + 1;
    }
    return "Unknown";
  }

  /** `detect_package_manager`, over the names present in the project directory. */
  method DetectPackageManager(present: set<string>) returns (manager: string)
    ensures FirstPresent(DependencyFiles, present) < |DependencyFiles| ==>
      manager == DependencyFiles[FirstPresent(DependencyFiles, present)].1
    ensures FirstPresent(DependencyFiles, present) == |DependencyFiles| ==> manager == "Unknown"
  {
    manager := ManagerOf(DependencyFiles, present);
  }

  /** A package.json decides the manager, whatever lockfiles sit beside it. */
  lemma PackageJsonWins(present: set<string>)
    requires "package.json" in present
    ensures FirstPresent(DependencyFiles, present) == 0 && DependencyFiles[0].1 == "npm/yarn/pnpm"
  {
  }

  /** `Unknown` is no table entry's manager, so it is reported exactly when no dependency file is present. */
  lemma UnknownMeansNone(present: set<string>)
    ensures forall i :: 0 <= i < |DependencyFiles| ==> DependencyFiles[i].1 != "Unknown"
    ensures FirstPresent(DependencyFiles, present) == |DependencyFiles| <==>
      forall i :: 0 <= i < |DependencyFiles| ==> DependencyFiles[i].0 !in present
  {
  }

  // ---------------------------------------------------------------- detect_languages

  /** Language of a file name, by its lower-cased extension. */
  function LanguageOf(fileName: string): Option<string> {
    var ext := Extension(fileName);
    if ext in LanguageExtensions then Some(LanguageExtensions[ext]) else None
  }

  /** Number of files of language `lang` that `os.walk(d)` reaches with the pruning applied. */
  function Tally(d: FsEntry, lang: string): nat
    decreases d, 0
  {
    match d
    case FsDir(_, es) => TallyIn(es, lang)
    case _ => 0
  }

  function TallyIn(es: seq<FsEntry>, lang: string): nat
    decreases es
  {
    if es == [] then 0 else TallyIn(es[..|es| - 1], lang) + TallyEntry(es[|es| - 1], lang)
  }

  /** A file counts once for its language; an ignored directory is not walked. */
  function TallyEntry(e: FsEntry, lang: string): nat
    decreases e, 1
  {
    if e.FsFile? then (if LanguageOf(e.name) == Some(lang) then 1 else 0)
    else if e.name in IgnoredDirs then 0
    else Tally(e, lang)
  }

  function Get(m: map<string, nat>, k: string): nat {
    if k in m then m[k] else 0
  }

  /** `r` is `base` with the files of language `lang` counted `n` more times. */
  predicate AddsCount(r: map<string, nat>, base: map<string, nat>, lang: string, n: nat) {
    Get(r, lang) == Get(base, lang) + n && (lang in r <==> lang in base || n > 0)
  }

  /** Counting one more entry after a prefix of a directory's entries. */
  lemma WalkStep(r0: map<string, nat>, r1: map<string, nat>, base: map<string, nat>, done: seq<FsEntry>, e: FsEntry)
    requires forall lang :: AddsCount(r0, base, lang, TallyIn(done, lang))
    requires forall lang :: AddsCount(r1, r0, lang, TallyEntry(e, lang))
    ensures forall lang :: AddsCount(r1, base, lang, TallyIn(done + [e], lang))
  {
    assert (done + [e])[..|done|] == done;
  }

  /** The walk below `d`, adding the counts found there to `counts`. */
  method Walk(d: FsEntry, counts: map<string, nat>) returns (r: map<string, nat>)
    ensures forall lang :: Get(r, lang) == Get(counts, lang) + Tally(d, lang)
    ensures forall lang :: lang in r <==> lang in counts || Tally(d, lang) > 0
    decreases d, 0
  {
    r := counts;
    if d.FsDir? {
      var es := d.entries;
      var i := 0;
      while i < |es|
        invariant 0 <= i <= |es|
        invariant forall lang :: AddsCount(r, counts, lang, TallyIn(es[..i], lang))
      {
        ghost var prev := r;
        r := WalkEntry(es[i], r);
        WalkStep(prev, r, counts, es[..i], es[i]);
        assert es[..i + 1] == es[..i] + [es[i]];
        i := i + 1;
      }
      assert es[..i] == es;
      assert forall lang :: AddsCount(r, counts, lang, Tally(d, lang));
    }
  }

  /** One entry of a walked directory: a file bumps its language, a non-ignored directory is walked. */
  method WalkEntry(e: FsEntry, counts: map<string, nat>) returns (r: map<string, nat>)
    ensures forall lang :: AddsCount(r, counts, lang, TallyEntry(e, lang))
    decreases e, 1
  {
    r := counts;
    if e.FsFile? {
      var language := LanguageOf(e.name);
      if language.Some? {
        r := r[language.value := Get(r, language.value) + 1];
      }
    } else if e.name !in IgnoredDirs {
      r := Walk(e, r);
    }
  }

  /** A language is a key exactly when some file under `root` is written in it, and holds that file count. */
  ghost predicate LanguagesTallied(counts: map<string, nat>, root: FsEntry) {
    && (forall lang :: lang in counts <==> Tally(root, lang) > 0)
    && (forall lang :: lang in counts ==> counts[lang] == Tally(root, lang))
  }

  /** `detect_languages`: each language maps to the number of its files, and only counted languages appear. */
  method DetectLanguages(root: FsEntry) returns (counts: map<string, nat>)
    ensures LanguagesTallied(counts, root)
  {
    counts := Walk(root, map[]);
  }

  /** Only languages of the extension table are ever counted. */
  lemma {:induction false} TallyOnlyKnown(d: FsEntry, lang: string)
    requires lang !in LanguageExtensions.Values
    ensures Tally(d, lang) == 0
    decreases d, 0
  {
    if d.FsDir? {
      TallyInOnlyKnown(d.entries, lang);
    }
  }

  lemma {:induction false} TallyInOnlyKnown(es: seq<FsEntry>, lang: string)
    requires lang !in LanguageExtensions.Values
    ensures TallyIn(es, lang) == 0
    decreases es
  {
    if es != [] {
      TallyInOnlyKnown(es[..|es| - 1], lang);
      var e := es[|es| - 1];
      if e.FsFile? {
        var ext := Extension(e.name);
        if ext in LanguageExtensions {
          assert LanguageExtensions[ext] in LanguageExtensions.Values;
        }
      } else if e.name !in IgnoredDirs {
        TallyOnlyKnown(e, lang);
      }
    }
  }

  // ---------------------------------------------------------------- dictionaries filled line by line

  /** The dictionary built by setting `deps[k] = v` for each entry in turn; `None` entries set nothing. */
  function Collect(es: seq<Option<(string, string)>>): map<string, string>
    decreases es
  {
    if es == [] then map[]
    else
      var m := Collect(es[..|es| - 1]);
      match es[|es| - 1]
      case None => m
      case Some(kv) => m[kv.0 := kv.1]
  }

  predicate SetsKey(e: Option<(string, string)>, k: string) {
    e.Some? && e.value.0 == k
  }

  /** A key is present iff some entry sets it, and its value is the one set by the last such entry. */
  lemma {:induction false} CollectLastWins(es: seq<Option<(string, string)>>, k: string)
    ensures k in Collect(es) <==> exists i :: 0 <= i < |es| && SetsKey(es[i], k)
    ensures k in Collect(es) ==>
      exists i :: 0 <= i < |es| && es[i] == Some((k, Collect(es)[k]))
        && forall j :: i < j < |es| ==> !SetsKey(es[j], k)
    decreases es
  {
    if es != [] {
      var init := es[..|es| - 1];
      var last := |es| - 1;
      assert forall i :: 0 <= i < last ==> es[i] == init[i];
      CollectLastWins(init, k);
      if SetsKey(es[last], k) {
        assert es[last] == Some((k, Collect(es)[k]));
      } else if k in Collect(init) {
        var i := LastSetter(es, k);
      } else {
        assert k !in Collect(es);
      }
    }
  }

  /** The index of the entry a collected key's value comes from. */
  lemma {:induction false} LastSetter(es: seq<Option<(string, string)>>, k: string) returns (i: nat)
    requires k in Collect(es)
    ensures i < |es| && es[i] == Some((k, Collect(es)[k]))
    ensures forall j :: i < j < |es| ==> !SetsKey(es[j], k)
    decreases es
  {
    var init := es[..|es| - 1];
    var last := |es| - 1;
    if SetsKey(es[last], k) {
      i := last;
    } else {
      i := LastSetter(init, k);
      assert es[i] == init[i];
      assert forall j :: i < j < last ==> es[j] == init[j];
    }
  }

  // ---------------------------------------------------------------- parse_package_json

  /**
   * A loaded package.json: its top-level keys, each with the dependency object found
   * there, or `None` for a value that `dict.update` refuses (a number, say), so merging it raises.
   */
  type PackageJson = map<string, Option<map<string, string>>>

  /** `parse_package_json` from section `i` on, given what was merged so far. */
  function MergeSections(data: PackageJson, i: nat, deps: map<string, string>): Option<map<string, string>>
    requires i <= |PackageJsonSections|
    decreases |PackageJsonSections| - i
  {
    if i == |PackageJsonSections| then Some(deps)
    else
      var key := PackageJsonSections[i];
      if key !in data then MergeSections(data, i + 1, deps)
      else if data[key].None? then None
      else MergeSections(data, i + 1, deps + data[key].value)
  }

  /** The dependencies of a package.json; `None` is a file that cannot be read or parsed. */
  function PackageJsonDeps(data: Option<PackageJson>): map<string, string> {
    if data.None? then map[] else MergeSections(data.value, 0, map[]).GetOr(map[])
  }

  method ParsePackageJson(data: Option<PackageJson>) returns (deps: map<string, string>)
    ensures deps == PackageJsonDeps(data)
  {
    deps := map[];
    if data.None? {
      return;
    }
    var sections := data.value;
    var i := 0;
    while i < |PackageJsonSections|
      invariant 0 <= i <= |PackageJsonSections|
      invariant MergeSections(sections, i, deps) == MergeSections(sections, 0, map[])
    {
      var key := PackageJsonSections[i];
      if key in sections {
        if sections[key].None? {
          return map[];
        }
        deps := deps + sections[key].value;
      }
      i := i + 1;
    }
  }

  /** A section holding a name, read without error, gives that name its value from the last such section. */
  lemma PackageJsonOverride(data: PackageJson, name: string)
    requires forall s :: s in PackageJsonSections && s in data ==> data[s].Some?
    ensures var deps := PackageJsonDeps(Some(data));
      && (name in deps <==> exists s :: s in PackageJsonSections && s in data && name in data[s].value)
      && ("peerDependencies" in data && name in data["peerDependencies"].value ==>
            deps[name] == data["peerDependencies"].value[name])
      && ("devDependencies" in data && name in data["devDependencies"].value
          && !("peerDependencies" in data && name in data["peerDependencies"].value) ==>
            deps[name] == data["devDependencies"].value[name])
      && ("dependencies" in data && name in data["dependencies"].value
          && !("devDependencies" in data && name in data["devDependencies"].value)
          && !("peerDependencies" in data && name in data["peerDependencies"].value) ==>
            deps[name] == data["dependencies"].value[name])
  {
    var d0 := if "dependencies" in data then data["dependencies"].value else map[];
    var d1 := if "devDependencies" in data then data["devDependencies"].value else map[];
    var d2 := if "peerDependencies" in data then data["peerDependencies"].value else map[];
    assert PackageJsonSections[0] == "dependencies" && PackageJsonSections[1] == "devDependencies"
      && PackageJsonSections[2] == "peerDependencies";
    assert d0 + d1 + map[] == d0 + d1 && d0 + map[] == d0;
    assert MergeSections(data, 3, d0 + d1 + d2) == Some(d0 + d1 + d2);
    assert MergeSections(data, 2, d0 + d1) == Some(d0 + d1 + d2);
    assert MergeSections(data, 1, d0) == Some(d0 + d1 + d2);
    assert map[] + d0 == d0;
    assert MergeSections(data, 0, map[]) == Some(d0 + d1 + d2);
  }

  /** A section whose merge raises spoils the whole file: nothing is reported. */
  lemma PackageJsonBadSection(data: PackageJson, s: string)
    requires s in PackageJsonSections && s in data && data[s].None?
    ensures PackageJsonDeps(Some(data)) == map[]
  {
  }

  // ---------------------------------------------------------------- parse_requirements_txt

  /** Characters that end a requirement's name: `<>=!~` and whitespace. */
  predicate IsVersionSep(c: char) {
    c == '<' || c == '>' || c == '=' || c == '!' || c == '~' || IsSpace(c)
  }

  /** Index of the first separator in `s`, or `|s|`. */
  function FirstVersionSep(s: string): (k: nat)
    ensures k <= |s|
    ensures k < |s| ==> IsVersionSep(s[k])
    ensures forall i :: 0 <= i < k ==> !IsVersionSep(s[i])
  {
    if s == [] || IsVersionSep(s[0]) then 0 else 1 + FirstVersionSep(s[1..])
  }

  /**
   * What one line of requirements.txt sets: the lower-cased name before the first
   * separator, with the whole stripped line; blank lines, comments and lines without a
   * name set nothing.
   */
  function RequirementEntry(line: string): (e: Option<(string, string)>)
    ensures e.Some? ==>
      && e.value.1 == Strip(line) && e.value.1 != [] && e.value.1[0] != '#'
      && 0 < |e.value.0| <= |e.value.1| && e.value.0 == Lower(e.value.1[..|e.value.0|])
      && (forall i :: 0 <= i < |e.value.0| ==> !IsVersionSep(e.value.1[i]))
      && (|e.value.0| < |e.value.1| ==> IsVersionSep(e.value.1[|e.value.0|]))
    ensures e.None? ==> Strip(line) == [] || Strip(line)[0] == '#' || IsVersionSep(Strip(line)[0])
  {
    var s := Strip(line);
    if s == [] || s[0] == '#' then None
    else
      var name := Lower(s[..FirstVersionSep(s)]);
      if name == [] then None else Some((name, s))
  }

  function RequirementEntries(lines: seq<string>): (es: seq<Option<(string, string)>>)
    ensures |es| == |lines| && forall i :: 0 <= i < |lines| ==> es[i] == RequirementEntry(lines[i])
  {
    seq(|lines|, i requires 0 <= i < |lines| => RequirementEntry(lines[i]))
  }

  /** `parse_requirements_txt`; `None` is a file that cannot be opened. */
  method ParseRequirements(lines: Option<seq<string>>) returns (deps: map<string, string>)
    ensures lines.None? ==> deps == map[]
    ensures lines.Some? ==> deps == Collect(RequirementEntries(lines.value))
  {
    deps := map[];
    if lines.None? {
      return;
    }
    var ls := lines.value;
    var i := 0;
    while i < |ls|
      invariant 0 <= i <= |ls|
      invariant deps == Collect(RequirementEntries(ls[..i]))
    {
      RequirementEntriesSnoc(ls, i);
      deps := AddRequirement(RequirementEntries(ls[..i]), deps, ls[i]);
      i := i + 1;
    }
    assert ls[..i] == ls;
  }

  /** One line of the `requirements.txt` loop: a package line sets its package to the line. */
  method AddRequirement(ghost es: seq<Option<(string, string)>>, deps: map<string, string>, raw: string)
    returns (d: map<string, string>)
    requires deps == Collect(es)
    ensures d == Collect(es + [RequirementEntry(raw)])
  {
    CollectSnoc(es, RequirementEntry(raw));
    d := deps;
    var line := Strip(raw);
    if line != [] && line[0] != '#' {
      var package := Lower(line[..FirstVersionSep(line)]);
      if package != [] {
        d := deps[package := line];
      }
    }
  }

  lemma RequirementEntriesSnoc(ls: seq<string>, i: nat)
    requires i < |ls|
    ensures RequirementEntries(ls[..i + 1]) == RequirementEntries(ls[..i]) + [RequirementEntry(ls[i])]
  {
    assert ls[..i + 1][i] == ls[i];
  }

  /** Every name requirements.txt yields is non-empty, and its value is the last line naming it. */
  lemma RequirementsLastWins(lines: seq<string>, k: string)
    requires k in Collect(RequirementEntries(lines))
    ensures k != []
    ensures exists i :: (0 <= i < |lines| && RequirementEntry(lines[i]) == Some((k, Collect(RequirementEntries(lines))[k]))
      && forall j :: i < j < |lines| ==> !SetsKey(RequirementEntry(lines[j]), k))
  {
    var es := RequirementEntries(lines);
    var i := LastSetter(es, k);
    assert RequirementEntry(lines[i]).Some?;
  }

  // ---------------------------------------------------------------- parse_go_mod / parse_cargo_toml

  /**
   * How the section loops of `parse_go_mod` and `parse_cargo_toml` read a line: it opens
   * the section (and is skipped wherever it appears), it would close the section, or it
   * lies inside and may name a dependency.
   */
  datatype LineKind = Opening | Closing | Inside(entry: Option<(string, string)>)

  /** `package version`: the first two whitespace-separated tokens. */
  function GoEntry(line: string): (e: Option<(string, string)>)
    ensures e.Some? ==> exists rest :: SplitWhitespace(line) == [e.value.0, e.value.1] + rest
    ensures e.None? <==> |SplitWhitespace(line)| < 2
  {
    var parts := SplitWhitespace(line);
    if |parts| >= 2 then
      assert parts == [parts[0], parts[1]] + parts[2..];
      Some((parts[0], parts[1]))
    else None
  }

  /** Number of leading word characters (`\w`) of `s`. */
  function WordRun(s: string): (k: nat)
    ensures k <= |s| && (forall i :: 0 <= i < k ==> IsWordChar(s[i])) && (k < |s| ==> !IsWordChar(s[k]))
  {
    if s == [] || !IsWordChar(s[0]) then 0 else 1 + WordRun(s[1..])
  }

  /** Number of leading whitespace characters of `s`. */
  function SpaceRun(s: string): (k: nat)
    ensures k <= |s| && (forall i :: 0 <= i < k ==> IsSpace(s[i])) && (k < |s| ==> !IsSpace(s[k]))
  {
    if s == [] || !IsSpace(s[0]) then 0 else 1 + SpaceRun(s[1..])
  }
  /** A run of word characters ended by another character, or by the end, is `WordRun`. */
  lemma {:induction false} WordRunIs(s: string, k: nat)
    requires k <= |s| && (forall i :: 0 <= i < k ==> IsWordChar(s[i])) && (k < |s| ==> !IsWordChar(s[k]))
    ensures WordRun(s) == k
  {
  }

  /** A run of whitespace ended by another character, or by the end, is `SpaceRun`. */
  lemma {:induction false} SpaceRunIs(s: string, k: nat)
    requires k <= |s| && (forall i :: 0 <= i < k ==> IsSpace(s[i])) && (k < |s| ==> !IsSpace(s[k]))
    ensures SpaceRun(s) == k
  {
  }


  /** A non-empty run of `\w` characters. */
  predicate IsWordName(t: string) {
    t != [] && forall i :: 0 <= i < |t| ==> IsWordChar(t[i])
  }

  predicate IsQuote(c: char) {
    c == '"' || c == '\''
  }

  /** `line` reads `name`, whitespace, `=`, whitespace and then a quote: what `^(\w+)\s*=\s*["\']` accepts. */
  predicate CargoLine(line: string, name: string, s1: string, s2: string, rest: string) {
    && line == name + s1 + "=" + s2 + rest
    && IsWordName(name) && AllSpace(s1) && AllSpace(s2)
    && rest != [] && IsQuote(rest[0])
  }

  /**
   * `re.match(r'^(\w+)\s*=\s*["\']', line)`: the name and the whole line, or nothing. The name
   * is the whole leading run of word characters; `CargoEntryIsMatch` and `CargoEntryOfLine`
   * say that a result is given exactly for the lines the pattern accepts.
   */
  function CargoEntry(line: string): (e: Option<(string, string)>)
    ensures e.Some? ==> e.value.1 == line && e.value.0 == line[..WordRun(line)] && e.value.0 != []
    ensures line == [] || !IsWordChar(line[0]) ==> e.None?
  {
    var k := WordRun(line);
    if k == 0 then None else CargoAfterName(line, k)
  }

  /** The rest of the match once the name `line[..k]` is read: whitespace and `=`. */
  function CargoAfterName(line: string, k: nat): (e: Option<(string, string)>)
    requires k <= |line|
    ensures e.Some? ==> e == Some((line[..k], line))
  {
    var j := k + SpaceRun(line[k..]);
    if j == |line| || line[j] != '=' then None else CargoAfterEquals(line, k, j)
  }

  /** The rest of the match once the `=` at `j` is read: whitespace and a quote. */
  function CargoAfterEquals(line: string, k: nat, j: nat): (e: Option<(string, string)>)
    requires k <= j < |line|
    ensures e.Some? ==> e == Some((line[..k], line))
  {
    var q := j + 1 + SpaceRun(line[j + 1..]);
    if q < |line| && IsQuote(line[q]) then Some((line[..k], line)) else None
  }

  /** Every line that gives an entry is one the pattern accepts, under the entry's name. */
  lemma CargoEntryIsMatch(line: string)
    requires CargoEntry(line).Some?
    ensures exists s1, s2, rest :: CargoLine(line, CargoEntry(line).value.0, s1, s2, rest)
  {
    var k := WordRun(line);
    var j := k + SpaceRun(line[k..]);
    var q := j + 1 + SpaceRun(line[j + 1..]);
    assert k != 0 && j < |line| && line[j] == '=' && q < |line| && IsQuote(line[q]) by {
      assert CargoAfterName(line, k).Some?;
      assert CargoAfterEquals(line, k, j).Some?;
    }
    assert CargoLine(line, line[..k], line[k..j], line[j + 1..q], line[q..]) by {
      CargoSplit(line, k, j, q);
    }
    CargoWitness(line, CargoEntry(line).value.0, line[k..j], line[j + 1..q], line[q..]);
  }

  lemma CargoWitness(line: string, name: string, s1: string, s2: string, rest: string)
    requires CargoLine(line, name, s1, s2, rest)
    ensures exists s1', s2', rest' :: CargoLine(line, name, s1', s2', rest')
  {
  }

  /** The witnesses of a match, cut out of the line at the indices `CargoEntry` finds. */
  lemma CargoSplit(line: string, k: nat, j: nat, q: nat)
    requires 0 < k == WordRun(line) && k <= j < q < |line|
    requires j == k + SpaceRun(line[k..]) && line[j] == '='
    requires q == j + 1 + SpaceRun(line[j + 1..]) && IsQuote(line[q])
    ensures CargoLine(line, line[..k], line[k..j], line[j + 1..q], line[q..])
  {
    WordPrefix(line, k);
    SpacePrefix(line, k, j);
    SpacePrefix(line, j + 1, q);
    CutAround(line, k, j, q);
  }

  lemma WordPrefix(line: string, k: nat)
    requires 0 < k == WordRun(line)
    ensures IsWordName(line[..k])
  {
    RunPrefix(line, k, IsWordChar);
  }

  lemma SpacePrefix(line: string, k: nat, j: nat)
    requires k <= j <= |line| && j == k + SpaceRun(line[k..])
    ensures AllSpace(line[k..j])
  {
    RunPrefix(line[k..], j - k, IsSpace);
    assert line[k..][..j - k] == line[k..j];
  }

  lemma CutAround(line: string, k: nat, j: nat, q: nat)
    requires k <= j < q <= |line| && line[j] == '='
    ensures line == line[..k] + line[k..j] + "=" + line[j + 1..q] + line[q..]
  {
    CutFive(line, k, j, q);
    assert [line[j]] == "=";
  }

  /** The first `k` elements of `s` all satisfy `p`, as a prefix. */
  lemma RunPrefix<T>(s: seq<T>, k: nat, p: T -> bool)
    requires k <= |s| && forall i :: 0 <= i < k ==> p(s[i])
    ensures forall i :: 0 <= i < |s[..k]| ==> p(s[..k][i])
  {
  }

  /** A sequence cut at three places, the middle cut dropping one element. */
  lemma CutFive<T>(line: seq<T>, k: nat, j: nat, q: nat)
    requires k <= j < q <= |line|
    ensures line == line[..k] + line[k..j] + [line[j]] + line[j + 1..q] + line[q..]
  {
    assert line[j..] == [line[j]] + line[j + 1..q] + line[q..];
    assert line == line[..k] + line[k..j] + line[j..];
  }

  /** The pieces of a sequence put together from five, read back by position. */
  lemma Uncut<T>(line: seq<T>, a: seq<T>, b: seq<T>, m: T, c: seq<T>, d: seq<T>)
    requires line == a + b + [m] + c + d
    ensures var j := |a| + |b|;
      && line[..|a|] == a && line[|a|..] == b + [m] + c + d
      && line[j] == m && line[j + 1..] == c + d && line[j + 1 + |c|..] == d
  {
    assert line[..|a|] == a;
    assert line[|a|..] == b + [m] + c + d;
    assert line[|a| + |b|..] == [m] + c + d;
    assert line[|a| + |b| + 1..] == c + d;
  }

  /** Every line the pattern accepts gives its name, the whole leading word, and the line. */
  lemma CargoEntryOfLine(line: string, name: string, s1: string, s2: string, rest: string)
    requires CargoLine(line, name, s1, s2, rest)
    ensures CargoEntry(line) == Some((name, line))
  {
    CargoRuns(line, name, s1, s2, rest);
    CargoPieces(line, name, s1, s2, rest);
    CargoEntryAt(line, |name|, |name| + |s1|, |name| + |s1| + 1 + |s2|);
  }

  /** The entry of a line whose runs and marks sit at the given places. */
  lemma CargoEntryAt(line: string, k: nat, j: nat, q: nat)
    requires 0 < k == WordRun(line) && k <= j < q < |line|
    requires j == k + SpaceRun(line[k..]) && line[j] == '='
    requires q == j + 1 + SpaceRun(line[j + 1..]) && IsQuote(line[q])
    ensures CargoEntry(line) == Some((line[..k], line))
  {
    assert CargoAfterEquals(line, k, j).Some?;
    assert CargoAfterName(line, k).Some?;
  }

  /** Where the name, the `=` and the quote of a matching line sit. */
  lemma CargoPieces(line: string, name: string, s1: string, s2: string, rest: string)
    requires CargoLine(line, name, s1, s2, rest)
    ensures var j := |name| + |s1|;
      && line[..|name|] == name && j < |line| && line[j] == '='
      && j + 1 + |s2| < |line| && IsQuote(line[j + 1 + |s2|])
  {
    Uncut(line, name, s1, '=', s2, rest);
  }

  /** The runs `CargoEntry` measures on a matching line have the lengths of its pieces. */
  lemma CargoRuns(line: string, name: string, s1: string, s2: string, rest: string)
    requires CargoLine(line, name, s1, s2, rest)
    ensures WordRun(line) == |name|
    ensures SpaceRun(line[|name|..]) == |s1|
    ensures SpaceRun(line[|name| + |s1| + 1..]) == |s2|
  {
    Uncut(line, name, s1, '=', s2, rest);
    assert WordRun(line) == |name| by {
      assert !IsWordChar((s1 + "=" + s2 + rest)[0]);
      WordRunIs(line, |name|);
    }
    SpaceRunIs(line[|name|..], |s1|);
    SpaceRunIs(line[|name| + |s1| + 1..], |s2|);
  }



  /** A go.mod line, once stripped: `require` opens the block, `)` closes it. */
  function GoKind(line: string): LineKind {
    var l := Strip(line);
    if StartsWith(l, "require") then Opening else if l == ")" then Closing else Inside(GoEntry(l))
  }

  /** A Cargo.toml line, once stripped: `[dependencies]` opens the table, any other `[` header closes it. */
  function CargoKind(line: string): LineKind {
    var l := Strip(line);
    if StartsWith(l, "[dependencies]") then Opening
    else if StartsWith(l, "[") then Closing
    else Inside(CargoEntry(l))
  }

  /** The kind of every line, in order. */
  function KindsOf(classify: string -> LineKind, lines: seq<string>): (ks: seq<LineKind>)
    ensures |ks| == |lines|
  {
    seq(|lines|, i requires 0 <= i < |lines| => classify(lines[i]))
  }

  /** Index of the first opening line from `from` on, or `|ks|`. */
  function SectionStart(ks: seq<LineKind>, from: nat): (s: nat)
    requires from <= |ks|
    ensures from <= s <= |ks| && (s < |ks| ==> ks[s].Opening?)
    ensures forall j :: from <= j < s ==> !ks[j].Opening?
    decreases |ks| - from
  {
    if from == |ks| || ks[from].Opening? then from else SectionStart(ks, from + 1)
  }

  /** Index of the first closing line from `from` on, or `|ks|`. */
  function SectionEnd(ks: seq<LineKind>, from: nat): (e: nat)
    requires from <= |ks|
    ensures from <= e <= |ks| && (e < |ks| ==> ks[e].Closing?)
    ensures forall j :: from <= j < e ==> !ks[j].Closing?
    decreases |ks| - from
  {
    if from == |ks| || ks[from].Closing? then from else SectionEnd(ks, from + 1)
  }

  /** What a line sets when read inside the section: an opening line sets nothing. */
  function EntryOf(k: LineKind): Option<(string, string)> {
    if k.Inside? then k.entry else None
  }

  /** What lines `lo` to `hi - 1` set, in order. */
  function WindowEntries(ks: seq<LineKind>, lo: nat, hi: nat): (es: seq<Option<(string, string)>>)
    requires lo <= hi <= |ks|
    ensures |es| == hi - lo
    decreases hi - lo
  {
    if hi == lo then [] else WindowEntries(ks, lo, hi - 1) + [EntryOf(ks[hi - 1])]
  }

  lemma {:induction false} WindowEntryAt(ks: seq<LineKind>, lo: nat, hi: nat, i: nat)
    requires lo <= hi <= |ks| && i < hi - lo
    ensures WindowEntries(ks, lo, hi)[i] == EntryOf(ks[lo + i])
    decreases hi - lo
  {
    if i < hi - 1 - lo {
      WindowEntryAt(ks, lo, hi - 1, i);
    }
  }

  /** What the lines strictly between the first opening line and the closing line after it set. */
  function Section(ks: seq<LineKind>): seq<Option<(string, string)>> {
    var s := SectionStart(ks, 0);
    if s == |ks| then [] else WindowEntries(ks, s + 1, SectionEnd(ks, s + 1))
  }

  function SectionEntries(classify: string -> LineKind, lines: seq<string>): seq<Option<(string, string)>> {
    Section(KindsOf(classify, lines))
  }

  /** Adding one entry to the end of the list adds (at most) one key. */
  lemma CollectSnoc(es: seq<Option<(string, string)>>, x: Option<(string, string)>)
    ensures Collect(es + [x]) == if x.Some? then Collect(es)[x.value.0 := x.value.1] else Collect(es)
  {
    assert (es + [x])[..|es|] == es;
  }

  /**
   * What the loop ends with when it reads `ks[i..]` holding `deps`, inside the section or
   * not: it is the state machine of the loop, used to carry its invariant.
   */
  function Scan(ks: seq<LineKind>, i: nat, inSection: bool, deps: map<string, string>): map<string, string>
    requires i <= |ks|
    decreases |ks| - i
  {
    if i == |ks| then deps
    else match ks[i]
      case Opening => Scan(ks, i + 1, true, deps)
      case Closing => if inSection then deps else Scan(ks, i + 1, false, deps)
      case Inside(e) =>
        if !inSection then Scan(ks, i + 1, false, deps)
        else if e.Some? then Scan(ks, i + 1, true, deps[e.value.0 := e.value.1])
        else Scan(ks, i + 1, true, deps)
  }

  /** Before the section, scanning skips to the first opening line. */
  lemma {:induction false} ScanBefore(ks: seq<LineKind>, i: nat)
    requires i <= |ks|
    ensures var s := SectionStart(ks, i);
      Scan(ks, i, false, map[]) == if s == |ks| then map[] else Scan(ks, s + 1, true, map[])
    decreases |ks| - i
  {
    if i < |ks| && !ks[i].Opening? {
      ScanBefore(ks, i + 1);
    }
  }

  /** Inside the section, scanning collects up to the closing line. */
  lemma {:induction false} ScanInside(ks: seq<LineKind>, lo: nat, i: nat, m: map<string, string>)
    requires lo <= |ks| && lo <= i <= SectionEnd(ks, lo)
    requires m == Collect(WindowEntries(ks, lo, i))
    ensures Scan(ks, i, true, m) == Collect(WindowEntries(ks, lo, SectionEnd(ks, lo)))
    decreases |ks| - i
  {
    if i < SectionEnd(ks, lo) {
      var e := EntryOf(ks[i]);
      CollectSnoc(WindowEntries(ks, lo, i), e);
      var next := if e.Some? then m[e.value.0 := e.value.1] else m;
      assert Scan(ks, i, true, m) == Scan(ks, i + 1, true, next);
      ScanInside(ks, lo, i + 1, next);
    }
  }

  /** The loop's state machine computes what the section sets. */
  lemma ScanIsSection(ks: seq<LineKind>)
    ensures Scan(ks, 0, false, map[]) == Collect(Section(ks))
  {
    ScanBefore(ks, 0);
    var s := SectionStart(ks, 0);
    if s < |ks| {
      ScanInside(ks, s + 1, s + 1, map[]);
    }
  }

  /** The `in_require`/`in_deps` loop of `parse_go_mod` and `parse_cargo_toml`, reading lines with `classify`. */
  method ParseSection(classify: string -> LineKind, lines: seq<string>) returns (deps: map<string, string>)
    ensures deps == Collect(SectionEntries(classify, lines))
  {
    deps := map[];
    var inSection := false;
    ghost var ks := KindsOf(classify, lines);
    ghost var all := Scan(ks, 0, false, map[]);
    var i := 0;
    while i < |lines|
      invariant 0 <= i <= |lines|
      invariant Scan(ks, i, inSection, deps) == all
    {
      var kind := classify(lines[i]);
      assert kind == ks[i];
      if kind.Opening? {
        inSection := true;
      } else if inSection {
        if kind.Closing? {
          break;
        }
        if kind.entry.Some? {
          deps := deps[kind.entry.value.0 := kind.entry.value.1];
        }
      }
      i := i + 1;
    }
    ScanIsSection(ks);
  }

  /** `parse_go_mod`; `None` is a file that cannot be opened. */
  method ParseGoMod(lines: Option<seq<string>>) returns (deps: map<string, string>)
    ensures lines.None? ==> deps == map[]
    ensures lines.Some? ==> deps == Collect(SectionEntries(GoKind, lines.value))
  {
    deps := map[];
    if lines.Some? {
      deps := ParseSection(GoKind, lines.value);
    }
  }

  /** `parse_cargo_toml`; `None` is a file that cannot be opened. */
  method ParseCargoToml(lines: Option<seq<string>>) returns (deps: map<string, string>)
    ensures lines.None? ==> deps == map[]
    ensures lines.Some? ==> deps == Collect(SectionEntries(CargoKind, lines.value))
  {
    deps := map[];
    if lines.Some? {
      deps := ParseSection(CargoKind, lines.value);
    }
  }

  /**
   * Every dependency of a section comes from a line inside it: after the first opening
   * line, before the closing line that follows, and neither opening nor closing itself.
   */
  lemma SectionWindow(ks: seq<LineKind>, k: string)
    requires k in Collect(Section(ks))
    ensures SectionStart(ks, 0) < |ks|
    ensures exists j :: (SectionStart(ks, 0) < j < SectionEnd(ks, SectionStart(ks, 0) + 1)
      && ks[j] == Inside(Some((k, Collect(Section(ks))[k]))))
  {
    var s := SectionStart(ks, 0);
    var es := Section(ks);
    assert s < |ks| by {
      assert k in Collect(es);
      SectionOpened(ks);
    }
    var e := SectionEnd(ks, s + 1);
    SectionIsWindow(ks);
    CollectedFromWindow(ks, s + 1, e, k);
  }

  /** A key collected from a window of lines is set by a line inside the window. */
  lemma CollectedFromWindow(ks: seq<LineKind>, lo: nat, hi: nat, k: string)
    requires lo <= hi <= |ks| && k in Collect(WindowEntries(ks, lo, hi))
    ensures exists j :: lo <= j < hi && ks[j] == Inside(Some((k, Collect(WindowEntries(ks, lo, hi))[k])))
  {
    var es := WindowEntries(ks, lo, hi);
    var i := LastSetter(es, k);
    var x := Some((k, Collect(es)[k]));
    WindowSetter(ks, lo, hi, es, i, x);
    assert lo <= lo + i < hi && ks[lo + i] == Inside(x);
  }

  lemma WindowSetter(ks: seq<LineKind>, lo: nat, hi: nat, es: seq<Option<(string, string)>>, i: nat, x: Option<(string, string)>)
    requires lo <= hi <= |ks| && es == WindowEntries(ks, lo, hi) && i < |es| && es[i] == x
    ensures EntryOf(ks[lo + i]) == x
  {
    WindowEntryAt(ks, lo, hi, i);
  }

  lemma SectionIsWindow(ks: seq<LineKind>)
    requires SectionStart(ks, 0) < |ks|
    ensures var s := SectionStart(ks, 0); Section(ks) == WindowEntries(ks, s + 1, SectionEnd(ks, s + 1))
  {
  }

  lemma SectionOpened(ks: seq<LineKind>)
    ensures Collect(Section(ks)) != map[] ==> SectionStart(ks, 0) < |ks|
  {
    if SectionStart(ks, 0) == |ks| {
      assert Section(ks) == [];
    }
  }

  /** A go.mod without a `require` line, or a Cargo.toml without `[dependencies]`, declares nothing. */
  lemma NoSectionNoDeps(ks: seq<LineKind>)
    requires forall j :: 0 <= j < |ks| ==> !ks[j].Opening?
    ensures Collect(Section(ks)) == map[]
  {
  }

  // ---------------------------------------------------------------- detect_frameworks

  /** The pattern without its `*` characters: a star-free text is kept as it is. */
  function RemoveStars(p: string): (r: string)
    ensures '*' !in r && |r| <= |p|
    ensures '*' !in p ==> r == p
  {
    if p == [] then [] else (if p[0] == '*' then [] else [p[0]]) + RemoveStars(p[1..])
  }

  /** Deleting the stars of two texts put together deletes them from each, in place. */
  lemma {:induction false} RemoveStarsAppend(a: string, b: string)
    ensures RemoveStars(a + b) == RemoveStars(a) + RemoveStars(b)
  {
    if a == [] {
      assert a + b == b;
    } else {
      assert (a + b)[0] == a[0] && (a + b)[1..] == a[1..] + b;
      RemoveStarsAppend(a[1..], b);
    }
  }

  /** A pattern ending in one star matches by the text before the star. */
  lemma TrailingStar(lit: string)
    requires '*' !in lit
    ensures RemoveStars(lit + "*") == lit
  {
    RemoveStarsAppend(lit, "*");
  }

  /** Some dependency name starts with `prefix`. */
  predicate AnyStartsWith(deps: map<string, string>, prefix: string) {
    exists dep :: dep in deps && StartsWith(dep, prefix)
  }

  /** A `*` pattern matches a dependency that starts with the pattern without stars; any other must be a dependency. */
  predicate PatternMatches(pattern: string, deps: map<string, string>) {
    if '*' in pattern then AnyStartsWith(deps, RemoveStars(pattern)) else pattern in deps
  }

  /** Some pattern of a framework's row matches. */
  predicate Detected(patterns: seq<string>, deps: map<string, string>) {
    exists p :: p in patterns && PatternMatches(p, deps)
  }

  /** Some row of `table` named `f` has a matching pattern. */
  predicate FrameworkListed(table: seq<(string, seq<string>)>, f: string, deps: map<string, string>) {
    exists i :: 0 <= i < |table| && table[i].0 == f && Detected(table[i].1, deps)
  }

  /**
   * `detect_frameworks` over the rows of `table`: a row's name is detected when one of its
   * patterns matches, and the detected names are returned sorted, without duplicates.
   */
  method FrameworksIn(table: seq<(string, seq<string>)>, deps: map<string, string>) returns (frameworks: seq<string>)
    ensures StrictlySorted(frameworks, StrLess)
    ensures forall f :: f in frameworks <==> FrameworkListed(table, f, deps)
  {
    var found := [];
    var i := 0;
    while i < |table|
      invariant 0 <= i <= |table|
      invariant forall f :: f in found <==> exists k :: 0 <= k < i && table[k].0 == f && Detected(table[k].1, deps)
    {
      var framework := table[i].0;
      var patterns := table[i].1;
      ghost var before := found;
      var j := 0;
      while j < |patterns|
        invariant 0 <= j <= |patterns|
        invariant found == before
        invariant forall q :: q in patterns[..j] ==> !PatternMatches(q, deps)
      {
        var pattern := patterns[j];
        if '*' in pattern {
          var prefix := RemoveStars(pattern);
          if AnyStartsWith(deps, prefix) {
            assert PatternMatches(pattern, deps);
            found := found + [framework];
            break;
          }
        } else if pattern in deps {
          found := found + [framework];
          break;
        }
        assert patterns[..j + 1] == patterns[..j] + [pattern];
        j := j + 1;
      }
      if j == |patterns| {
        assert patterns[..j] == patterns;
        assert !Detected(patterns, deps);
      } else {
        assert patterns[j] in patterns && PatternMatches(patterns[j], deps);
      }
      assert found == before + [framework] || (found == before && !Detected(patterns, deps));
      i := i + 1;
    }
    StrLessStrictTotal();
    frameworks := SortedSeqOf((set f: string | f in found), StrLess);
  }

  /** `detect_frameworks`: the detected frameworks, sorted and without duplicates. */
  method DetectFrameworks(deps: map<string, string>) returns (frameworks: seq<string>)
    ensures StrictlySorted(frameworks, StrLess)
    ensures forall f :: f in frameworks <==> FrameworkListed(FrameworkPatterns, f, deps)
  {
    frameworks := FrameworksIn(FrameworkPatterns, deps);
  }

  // ---------------------------------------------------------------- analyze_project

  /** Some indicator of a tool's row is a dependency name (exact names only, no prefixes). */
  predicate ToolDetected(indicators: seq<string>, deps: map<string, string>) {
    exists p :: p in indicators && p in deps
  }

  /** Some row of `table` named `t` has an indicator among the dependency names. */
  predicate ToolListed(table: seq<(string, seq<string>)>, t: string, deps: map<string, string>) {
    exists i :: 0 <= i < |table| && table[i].0 == t && ToolDetected(table[i].1, deps)
  }

  /** Each of `tools` names a detected row of `table`, the rows taken in increasing order. */
  ghost predicate InTableOrder(table: seq<(string, seq<string>)>, tools: seq<string>, deps: map<string, string>) {
    exists idx: seq<nat> ::
      && |idx| == |tools|
      && (forall a, b :: 0 <= a < b < |idx| ==> idx[a] < idx[b])
      && (forall a :: 0 <= a < |idx| ==> idx[a] < |table| && table[idx[a]].0 == tools[a] && ToolDetected(table[idx[a]].1, deps))
  }

  /** The build-tool loop of `analyze_project`: the detected tools, in table order. */
  method ToolsIn(table: seq<(string, seq<string>)>, deps: map<string, string>) returns (tools: seq<string>)
    ensures forall t :: t in tools <==> ToolListed(table, t, deps)
    ensures InTableOrder(table, tools, deps)
  {
    tools := [];
    ghost var idx: seq<nat> := [];
    var i := 0;
    while i < |table|
      invariant 0 <= i <= |table|
      invariant forall t :: t in tools <==> exists k :: 0 <= k < i && table[k].0 == t && ToolDetected(table[k].1, deps)
      invariant |idx| == |tools|
      invariant forall a, b :: 0 <= a < b < |idx| ==> idx[a] < idx[b]
      invariant forall a :: 0 <= a < |idx| ==> idx[a] < i && table[idx[a]].0 == tools[a] && ToolDetected(table[idx[a]].1, deps)
    {
      var tool := table[i].0;
      var patterns := table[i].1;
      if exists p :: p in patterns && p in deps {
        tools := tools + [tool];
        idx := idx + [i];
      }
      i := i + 1;
    }
  }

  /** What the detector reads of a project. */
  datatype Project = Project(
    root: FsEntry,                       // the project directory
    present: set<string>,                // names `project_path / name` that exist
    packageJson: Option<PackageJson>,    // package.json, loaded; `None` if unreadable or not JSON
    requirementsTxt: Option<seq<string>>, // lines of each manifest; `None` if it cannot be opened
    goMod: Option<seq<string>>,
    cargoToml: Option<seq<string>>)

  /** The dictionary `analyze_project` returns. */
  datatype Report = Report(
    packageManager: string,
    languages: map<string, nat>,
    dependencies: map<string, string>,
    frameworks: seq<string>,
    buildTools: seq<string>)

  /** The dependencies of the highest-priority manifest present. */
  function ManifestDeps(p: Project): map<string, string> {
    if "package.json" in p.present then PackageJsonDeps(p.packageJson)
    else if "requirements.txt" in p.present then
      (if p.requirementsTxt.None? then map[] else Collect(RequirementEntries(p.requirementsTxt.value)))
    else if "go.mod" in p.present then
      (if p.goMod.None? then map[] else Collect(SectionEntries(GoKind, p.goMod.value)))
    else if "Cargo.toml" in p.present then
      (if p.cargoToml.None? then map[] else Collect(SectionEntries(CargoKind, p.cargoToml.value)))
    else map[]
  }

  /** What `analyze_project` reports for `p` under the detection tables `files`, `patterns` and `indicators`. */
  ghost predicate Describes(r: Report, p: Project, files: seq<(string, string)>, patterns: seq<(string, seq<string>)>, indicators: seq<(string, seq<string>)>) {
    && (FirstPresent(files, p.present) < |files| ==> r.packageManager == files[FirstPresent(files, p.present)].1)
    && (FirstPresent(files, p.present) == |files| ==> r.packageManager == "Unknown")
    && LanguagesTallied(r.languages, p.root)
    && r.dependencies == ManifestDeps(p)
    && StrictlySorted(r.frameworks, StrLess)
    && (forall f :: f in r.frameworks <==> FrameworkListed(patterns, f, r.dependencies))
    && (forall t :: t in r.buildTools <==> ToolListed(indicators, t, r.dependencies))
    && InTableOrder(indicators, r.buildTools, r.dependencies)
  }

  /** `analyze_project` with the detection tables as parameters: each part of the report as the detectors above define it. */
  method Analyze(p: Project, files: seq<(string, string)>, patterns: seq<(string, seq<string>)>, indicators: seq<(string, seq<string>)>)
    returns (r: Report)
    ensures Describes(r, p, files, patterns, indicators)
  {
    var manager := ManagerOf(files, p.present);
    var languages := DetectLanguages(p.root);
    var deps := ManifestDependencies(p);
    var frameworks := FrameworksIn(patterns, deps);
    var tools := ToolsIn(indicators, deps);
    r := Report(manager, languages, deps, frameworks, tools);
  }

  /** `analyze_project` with the script's tables. */
  method AnalyzeProject(p: Project) returns (r: Report)
    ensures Describes(r, p, DependencyFiles, FrameworkPatterns, BuildToolIndicators)
  {
    r := Analyze(p, DependencyFiles, FrameworkPatterns, BuildToolIndicators);
  }

  /** The `if`/`elif` chain of `analyze_project`: the first manifest present is parsed. */
  method ManifestDependencies(p: Project) returns (deps: map<string, string>)
    ensures deps == ManifestDeps(p)
  {
    deps := map[];
    if "package.json" in p.present {
      deps := ParsePackageJson(p.packageJson);
    } else if "requirements.txt" in p.present {
      deps := ParseRequirements(p.requirementsTxt);
    } else if "go.mod" in p.present {
      deps := ParseGoMod(p.goMod);
    } else if "Cargo.toml" in p.present {
      deps := ParseCargoToml(p.cargoToml);
    }
  }

}

=== FILE: wrappers.dfy ===
/** The optional value used wherever the scripts return `None` or a missing dictionary entry. */
module Wrappers {

  datatype Option<+T> = None | Some(value: T) {

    /** The value, or `default` when absent (Python's `dict.get(key, default)`). */
    function GetOr(default: T): T {
      match this
      case Some(v) => v
      case None => default
    }
  }
}
